=== FILE: README.md ===
# STP sequence operations in Dafny

STP is a header-only C++ library of composable sequence operations. Each
operation is a small functor that captures its arguments, such as `take(5)`,
`where(p)` or `fold(op, init)`. It is applied to a sequence and returns a
sequence, a scalar or a boolean. `make_stp` chains such functors into a
pipeline that runs them left to right.

This project models the library in Dafny as pure functions over `seq`:

- **Live operations.** These are the headers under `include/stp/filters`,
  `generators`, `misc`, `set`, `bool_reductions`, `order` and
  `num_reductions`. They are modelled in the modules `Filters`, `Generators`,
  `Misc`, `SetOps`, `BoolReductions`, `Order` and `NumReductions`. The
  standard algorithms they call are modelled once, in `StdAlgorithms`.
  Examples are `erase`, `remove_if`, `find`, `count`, `accumulate`, the
  `max_element`/`min_element` pair, `reverse` and `sort`.
- **The live pipeline** (`include/stp/pipeline.hpp`), in module `Pipeline`.
  - A pipeline is a non-empty list of `Stage` values over a small `Value`
    universe: int sequences, pair sequences, ints, bools, lists and maps.
  - `ResultType` threads the stage types.
  - `Apply` runs the stages, with `Err(TypeMismatch)` for an ill-typed
    stage.
  - `Max`/`Min` on an empty sequence give `Err(EmptySequence)`, modelling
    the `std::range_error` they throw.
- **Two earlier compositions.**
  - `include/stp/core.hpp`, module `RefCore`. It admits a stage list only
    when every stage takes the sequence by reference and every non-terminal
    stage also returns it by reference.
  - `stp/core.hpp`, module `Query`. It is the recursive `Query` over a
    `partial_query` wrapper, where every non-terminal stage must hand on a
    `partial_query`.
- **The older duplicate generations.** Each is proved equal to the live
  operation it duplicates wherever the code agrees.
  - `include/stp/transformation`: module `Transformation`.
  - `include/stp/reductions`: module `Reductions`.
  - `include/stp/generation`: module `Generation`.
  - `include/stp/stl`: module `Stl`.
  - The `transformations.hpp` pair: module `PartialOps`.
  - `include/stp/stl_transformations.hpp` and
    `include/stp/sequence_sources.hpp`: module `PartialTransformations`.

Behaviour kept as the code has it:

- take, drop, take_while, drop_while, sort and sort_with change the
  caller's sequence in place. Each has an in-place form, a pair of the
  caller's sequence afterwards and the sequence returned. Each also has a
  by-value form, the in-place call on a copy. Consecutive calls on one
  sequence compound (`Filters.InPlaceCallsCompound`).
- make_stp as include/stp/pipeline.hpp writes it cannot type these six
  stages: it asks `std::result_of` for each stage called on an rvalue, and
  a non-const reference parameter does not bind one
  (`Pipeline.ResultTypeAsWritten`, see Findings). `Pipeline.Apply` runs
  the pipeline as evidently intended, each stage on the copy that
  `operator()` holds, so it uses the by-value forms.
- `difference` and `intersect` compare position by position, not by
  membership.
- `to_map` keeps the FIRST value of a repeated key. `std::map::insert` does
  not overwrite, whatever a "last write wins" reading of the interface
  suggests.
- The legacy `FoldRight` is not given right-fold semantics. Its reverse
  iterators are built the wrong way round (see Left out).

Generic element types are Dafny type parameters. Where an order is needed the
element type is `int`, and `sort_with` takes any comparator. Integers are
unbounded, except for two conversions the source makes, which are written
out. One is the `int` to `unsigned int` conversion of a range step
(`PartialTransformations.ToUnsigned`). The other is the signed `char`
counter of a character range, which wraps past 127
(`Generators.ToSignedChar`).

## Model

| member | source | states |
|---|---|---|
| StdAlgorithms.Erase | include/stp/filters/take.hpp:29 | erase(begin + lo, begin + hi) keeps positions before lo, shifts the positions from hi down by hi - lo, and shortens the sequence by hi - lo |
| StdAlgorithms.Distance | include/stp/num_reductions/size.hpp:24 | distance(begin, end) is the number of elements |
| StdAlgorithms.Find | include/stp/bool_reductions/contains.hpp:28 | find returns the first position holding v, or the end position exactly when v does not occur |
| StdAlgorithms.CountEqual | include/stp/num_reductions/count.hpp:30 | count(v) is the multiplicity of v in the sequence |
| StdAlgorithms.AllOf | include/stp/bool_reductions/all.hpp:26 | all_of holds iff p holds at every position |
| StdAlgorithms.AnyOf | include/stp/bool_reductions/any.hpp:26 | any_of holds iff p holds at some position |
| StdAlgorithms.Equal | include/stp/bool_reductions/equal.hpp:37 | equal(a, b) holds iff a equals the prefix of b of a's length |
| StdAlgorithms.Accumulate | include/stp/num_reductions/fold.hpp:30 | accumulate is a left fold: init on [], and otherwise op applied to the fold of all but the last element and the last element |
| StdAlgorithms.RemoveIf | include/stp/filters/where.hpp:31 | remove_if followed by erase of the tail keeps exactly the positions failing pred, in order |
| StdAlgorithms.MaxElementFrom | include/stp/num_reductions/max.hpp:29 | the scan from position i keeps the position of the first largest element seen |
| StdAlgorithms.MaxElement | include/stp/num_reductions/max.hpp:29 | max_element returns the position of the FIRST largest element: it is at least every element and strictly greater than every element before it |
| StdAlgorithms.MinElementFrom | include/stp/num_reductions/min.hpp:29 | the scan from position i keeps the position of the first smallest element seen |
| StdAlgorithms.MinElement | include/stp/num_reductions/min.hpp:29 | min_element returns the position of the FIRST smallest element: it is at most every element and strictly less than every element before it |
| StdAlgorithms.Reverse | include/stp/order/reverse.hpp:16 | reverse keeps the length and puts s[\|s\| - 1 - i] at position i |
| StdAlgorithms.Insert | include/stp/order/sort.hpp:17 | inserting x adds exactly one x to the multiset |
| StdAlgorithms.Sort | include/stp/order/sort.hpp:17 | the sort stands in for std::sort as a stable insertion sort; only what std::sort promises is stated: the result is a permutation of the input |
| StdAlgorithms.InsertSorted | include/stp/order/sort.hpp:17 | with a strict partial order, inserting into a sorted sequence keeps it sorted |
| StdAlgorithms.SortSorted | include/stp/order/sort.hpp:17 | with a strict partial order (every strict weak ordering is one), the sort's result is ordered by it |
| Filters.TakeInPlace | include/stp/filters/take.hpp:22-32 | take(n) works on the caller's sequence: afterwards the caller holds the prefix of length min(n, \|s\|), and that same sequence is returned; a count past the end is clamped |
| Filters.Take | include/stp/filters/take.hpp:22-32 | take(n) on a copy returns the prefix of length min(n, \|s\|) |
| Filters.DropInPlace | include/stp/filters/drop.hpp:22-32 | drop(n) works on the caller's sequence: afterwards the caller holds the suffix after the first min(n, \|s\|) elements, and that same sequence is returned |
| Filters.Drop | include/stp/filters/drop.hpp:22-32 | drop(n) on a copy returns the suffix after the first min(n, \|s\|) elements |
| Filters.LeadingRun | include/stp/filters/take.hpp:51-62 | the counting loop stops at the first element failing p: every counted element satisfies p and the next one does not |
| Filters.TakeWhileInPlace | include/stp/filters/take.hpp:49-66 | take_while(p) leaves the caller holding a prefix of s whose elements all satisfy p, followed in s by an element failing p or by the end, and returns that sequence |
| Filters.TakeWhile | include/stp/filters/take.hpp:49-66 | on a copy: the result is a prefix of s whose elements all satisfy p, and the element after it (if any) fails p |
| Filters.DropWhileInPlace | include/stp/filters/drop.hpp:49-66 | drop_while(p) leaves the caller holding a suffix of s; every element removed satisfies p, what remains is empty or starts with an element failing p, and that sequence is returned |
| Filters.DropWhile | include/stp/filters/drop.hpp:49-66 | on a copy: the result is a suffix of s; every dropped element satisfies p and the result is empty or starts with an element failing p |
| Filters.TakeInPlaceCompounds | include/stp/filters/take.hpp:22-32 | a second take(b) on the sequence a take(a) left behind returns the prefix of length min(a, b) of the original |
| Filters.DropInPlaceCompounds | include/stp/filters/drop.hpp:22-32 | a second drop(b) on the sequence a drop(a) left behind returns the original without its first a + b elements |
| Filters.InPlaceCallsCompound | test/test.cpp:140-201 | on 1..10, take(5) then take(6) on the same sequence returns 1..5 (a copy gives 1..6), drop(5) then drop(6) returns [] (a copy gives 7..10), and take_while(x < 5) then take_while(x <= 5) returns 1..4 (a copy gives 1..5) |
| Filters.TakeWhileCallsCompound | test/test.cpp:199-205 | on 1..10, the take_while checks of one test case compound: take_while(x < 5) then take_while(x <= 5) returns 1..4 where a copy gives 1..5, and after take_while(x == 0) has left nothing, take_while(x == 1) returns [] where a copy gives [1] |
| Filters.DropWhileCallsCompound | test/test.cpp:164-169 | on 1..10, the drop_while checks of one test case compound: after drop_while(x < 1000) has left nothing, drop_while(x == 1) returns [] where a copy gives 2..10 |
| Filters.EmptyStaysEmpty | test/test.cpp:206-207 | take_while and drop_while on an empty sequence, whatever the predicate, leave it empty and return it empty (drop_while likewise at test/test.cpp:170-171) |
| Filters.LeadingRunAt | include/stp/filters/take.hpp:51-62 | the counting loop stops exactly at the first index whose element fails p |
| Filters.WhileSplitsAt | include/stp/filters/take.hpp:49-66 | when p holds before index k and fails at k (or k is the length), take_while leaves and returns s[..k] and drop_while (include/stp/filters/drop.hpp:49-66) leaves and returns s[k..] |
| Filters.Where | include/stp/filters/where.hpp:24-33 | where(p) keeps exactly the positions whose element satisfies p, in order (a selection by the mask of p) |
| Filters.TakeTake | include/stp/filters/take.hpp:29 | take(b) after take(a) is take(min(a, b)) |
| Filters.TakeDropSplit | include/stp/filters/drop.hpp:29 | take(n)(s) ++ drop(n)(s) == s |
| Filters.TakeDropPastEnd | test/test.cpp:148-149 | n >= \|s\| makes take return s and drop return [] |
| Filters.TakeDropZero | test/test.cpp:150-186 | take(0) gives [] and drop(0) gives s |
| Filters.TakeWhileDropWhileSplit | include/stp/filters/drop.hpp:51-65 | take_while(p)(s) ++ drop_while(p)(s) == s |
| Filters.DropWhileRemovesLongestPrefix | include/stp/filters/drop.hpp:51-65 | any longer prefix than the one dropped contains an element failing p, so the dropped prefix is the longest one satisfying p |
| Filters.WhileStopsAtFirst | test/test.cpp:166-203 | when s[0] fails p, drop_while returns s and take_while returns [] |
| Filters.WhereSatisfies | include/stp/filters/where.hpp:26-31 | every element of where(p)(s) satisfies p |
| Filters.WhereKeepsSatisfying | include/stp/filters/where.hpp:31 | every element of s satisfying p occurs in the result |
| Filters.WhereAllOrNone | test/test.cpp:219-225 | if all elements satisfy p the input is returned; if none does the result is [] |
| Filters.WhereIdempotent | include/stp/filters/where.hpp:24-33 | where(p) applied twice equals where(p) once |
| Filters.WhereIsSubsequence | include/stp/filters/where.hpp:31 | the result is an order-preserving subsequence of s |
| Generators.Ascend | include/stp/generators/range.hpp:41-44 | the ascending loop yields start + k*step for each k, all below end, and stops at the first value reaching end |
| Generators.Descend | include/stp/generators/range.hpp:48-51 | the descending loop yields start - k*step for each k, all above end, and stops at the first value reaching end |
| Generators.Range | include/stp/generators/range.hpp:22-55 | step 0 or \|end - start\| < step gives []; ascending and descending elements are start +/- k*step strictly before end; start == end is reachable only with a negative step |
| Generators.Range2 | include/stp/generators/range.hpp:69-77 | the two-argument range has \|end - start\| consecutive values counting from start towards end |
| Generators.RangeShape | include/stp/generators/range.hpp:39-52 | when 0 < step <= \|end - start\| the range is non-empty, starts with start, and one more step would reach end |
| Generators.RangeLength | include/stp/generators/range.hpp:39-52 | when 0 < step <= \|end - start\| the range has \|end - start\| / step elements, rounded up |
| Generators.RangeEqualEndsEmpty | test/test.cpp:242-244 | start == end with a positive step gives [] |
| Generators.RangeBetween | include/stp/generators/range.hpp:39-52 | every value lies between start (included) and end (excluded) |
| Generators.AscendLength | include/stp/generators/range.hpp:41-44 | the ascending loop yields at most end - start values |
| Generators.ToSignedChar | include/stp/generators/range.hpp:41 | `i += t_step` on a signed char keeps the value in -128..127 and congruent to the exact sum modulo 256, and leaves values already in range unchanged |
| Generators.CharAscend | include/stp/generators/range.hpp:41-44 | the ascending loop on a signed char counter: when it ends, it yields nothing exactly when start is not below end, and every value is a char code below end |
| Generators.CharAscendMatches | include/stp/generators/range.hpp:41-44 | when the last value plus one step stays below 128, the char loop yields the integer range; when it reaches 128 the counter wraps and the char loop does not yield the integer range |
| Generators.CharRange | include/stp/generators/range.hpp:22-55 | a character range is the integer range over the character codes exactly when the ascending counter does not pass 127; otherwise it wraps, and the result is None when the loop never ends (`Generators.CharAscendNeverEnds`) |
| Generators.CounterClosedForm | include/stp/generators/range.hpp:41 | after k increments the signed char counter holds start + k * step narrowed to a signed char |
| Generators.CounterPeriodic | include/stp/generators/range.hpp:41 | the counter repeats with period 256: after k increments it holds what it held after k mod 256 |
| Generators.CharAscendNone | include/stp/generators/range.hpp:41-44 | the char loop runs out of fuel exactly when none of the counter's first fuel + 1 values reaches end |
| Generators.CharAscendNeverEnds | include/stp/generators/range.hpp:41-44 | with fuel 256, None holds exactly when no value the counter ever takes reaches end, so the loop never ends |
| Generators.CharRangeWraps | include/stp/generators/range.hpp:41 | range('a', 'z', 20): the integer range is 97, 117, but the char counter wraps past 127 and the char range differs |
| Generators.Repeat | include/stp/generators/repeat.hpp:15-29 | repeat(v, n) has length n and every element equal to v |
| Generators.RangeExamples | test/test.cpp:238-312 | range(1,5) == [1,2,3,4], range(5,1) == [5,4,3,2], range(1,1) == [], range(1,10,3) == [1,4,7], range(-1,-10,3) == [-1,-4,-7], step 0 or 6 gives [], and two char ranges |
| Generators.RepeatExamples | test/test.cpp:317-320 | repeat(1, 3) is three 1s, repeat("hej", 3) three "hej", repeat(10, 5) five 10s and repeat(false, 10) ten false, as the checks expect; repeat(7, 0) is [], a case the tests do not check, which follows from `Generators.Repeat`'s length |
| Misc.PairUp | include/stp/misc/zip.hpp:39-49 | the push_back loop over the first n positions pairs s[i] with fixed[i] |
| Misc.Zip | include/stp/misc/zip.hpp:28-52 | the result has length min(\|s\|, \|fixed\|) and position i holds (s[i], fixed[i]), whichever loop branch runs |
| Misc.Map | include/stp/misc/map.hpp:25-37 | the result has the input's length and holds f(s[i]) at position i |
| Misc.Unique | include/stp/misc/unique.hpp:18-30 | the result has no duplicates, every result element occurs in s, and every element of s occurs in the result |
| Misc.UniqueIntoDistinct | include/stp/misc/unique.hpp:23-26 | pushing only values that find does not see keeps the partial result free of duplicates |
| Misc.UniqueIntoMember | include/stp/misc/unique.hpp:21-27 | a value ends up in the result exactly when it was in the partial result or in the rest of the input |
| Misc.UniqueIntoPositions | include/stp/misc/unique.hpp:21-27 | position-wise form of the membership facts, with no duplicates |
| Misc.UniqueIntoSelects | include/stp/misc/unique.hpp:21-27 | the loop appends to the partial result exactly the positions whose value is neither in it nor earlier in the input |
| Misc.UniqueKeepsFirstOccurrences | include/stp/misc/unique.hpp:21-27 | unique keeps exactly the first occurrences in their original order, so it is a subsequence of s |
| Misc.UniqueOfDistinct | test/test.cpp:412-414 | an input without repeated values is returned unchanged |
| Misc.UniqueIdempotent | include/stp/misc/unique.hpp:18-30 | unique applied twice equals unique once |
| Misc.UniqueOfConstant | test/test.cpp:408-411 | a non-empty constant sequence collapses to one element |
| Misc.PushAll | include/stp/misc/stl.hpp:61 | the push_back loop appends the input, in order, to what was already there |
| Misc.ToVector | include/stp/misc/stl.hpp:58-63 | to_vector returns the same elements in the same order |
| Misc.ListPushAll | include/stp/misc/stl.hpp:26 | the list push_back loop appends the input, in order, to the list |
| Misc.ToList | include/stp/misc/stl.hpp:23-28 | to_list returns a list of the same elements in the same order |
| Misc.InsertAll | include/stp/misc/stl.hpp:45 | insert never overwrites: existing keys keep their values, new keys take the value of their first pair |
| Misc.ToMap | include/stp/misc/stl.hpp:42-47 | the keys are the first components of s, and each key maps to the value of its first pair |
| Misc.MapExample | test/test.cpp:347 | squaring 5s gives 25s |
| Misc.ZipExample | include/stp/misc/zip.hpp:37-43 | zipping a 3-element input with a 2-element fixed sequence stops after two pairs |
| Misc.UniqueExample | test/test.cpp:780 | unique([3,4,5,5]) == [3,4,5] |
| Misc.EmptyInputs | test/test.cpp:349 | map, zip, unique, to_vector, to_list and to_map of an empty input are empty |
| Misc.ToMapFirstWins | include/stp/misc/stl.hpp:45 | a later pair with a repeated key does not replace the first value |
| Misc.ZipToMapExample | test/test.cpp:785 | to_map of 0..9 zipped with 10..1 has keys 0..9 and maps i to 10 - i |
| SetOps.Difference | include/stp/set/difference.hpp:26-49 | s[i] is kept iff fixed has no position i or fixed[i] != s[i], in order |
| SetOps.Intersect | include/stp/set/intersect.hpp:26-43 | s[i] is kept iff fixed has a position i and fixed[i] == s[i], in order |
| SetOps.Join | include/stp/set/join.hpp:26-39 | join(fixed)(s) is s followed by fixed |
| SetOps.DifferenceKeeps | include/stp/set/difference.hpp:35-47 | an element at a position where fixed runs out or differs is in the result |
| SetOps.IntersectComplementsDifference | include/stp/set/intersect.hpp:35-41 | intersect keeps exactly the positions difference drops, so their lengths add up to \|s\| |
| SetOps.IntersectLength | include/stp/set/intersect.hpp:35 | the intersection has at most min(\|s\|, \|fixed\|) elements |
| SetOps.SetOpsAreSubsequences | include/stp/set/difference.hpp:35-47 | difference and intersect results are order-preserving subsequences of s |
| SetOps.DifferenceOfSelf | test/test.cpp:579-587 | difference(s)(s) == [] and intersect(s)(s) == s |
| SetOps.EmptyFixed | include/stp/set/difference.hpp:37-41 | an empty fixed sequence leaves difference's input whole and empties intersect |
| SetOps.EmptyInput | test/test.cpp:580-597 | an empty input gives [] for difference and intersect, and fixed for join |
| SetOps.DifferenceExample | test/test.cpp:581 | difference([5,5,5,5,5])(1..10) removes only the 5 at index 4 |
| SetOps.IntersectExample | test/test.cpp:588 | intersect([5,5,5,5,5])(1..10) == [5] |
| SetOps.JoinExample | test/test.cpp:596 | join([4,4])([1,2,3]) == [1,2,3,4,4] |
| BoolReductions.Equal | include/stp/bool_reductions/equal.hpp:27-41 | true iff s == fixed; different lengths give false |
| BoolReductions.Contains | include/stp/bool_reductions/contains.hpp:23-29 | true iff some element equals the value |
| BoolReductions.All | include/stp/bool_reductions/all.hpp:24-27 | true iff every element satisfies p |
| BoolReductions.Any | include/stp/bool_reductions/any.hpp:24-27 | true iff some element satisfies p |
| BoolReductions.EqualReflexiveAndPositional | test/test.cpp:126-133 | equal is reflexive, and same-length sequences that differ at one position are unequal |
| BoolReductions.EqualSymmetric | include/stp/bool_reductions/equal.hpp:35-40 | equal(s)(t) == equal(t)(s) |
| BoolReductions.AllIffWhereKeepsAll | include/stp/bool_reductions/all.hpp:26 | all(p)(s) iff where(p)(s) == s |
| BoolReductions.AnyIsNotAllNot | include/stp/bool_reductions/any.hpp:26 | any(p)(s) == !all(!p)(s) |
| BoolReductions.EmptyReductions | test/test.cpp:88 | on [] all holds, any and contains do not |
| BoolReductions.BoolReductionsExamples | test/test.cpp:97-133 | contains(5) but not contains(4) on five 5s; any(== 6) on 1..10 but not on five 5s; not all(< 10) on 1..10; equal only for the same sequence |
| NumReductions.Fold | include/stp/num_reductions/fold.hpp:28-31 | a left fold: init on [], otherwise op of the fold of all but the last element and the last element |
| NumReductions.Count | include/stp/num_reductions/count.hpp:25-31 | the number of elements equal to the value, i.e. its multiplicity |
| NumReductions.Max | include/stp/num_reductions/max.hpp:19-30 | [] is an EmptySequence error; otherwise an element of s at least every element |
| NumReductions.Min | include/stp/num_reductions/min.hpp:19-30 | [] is an EmptySequence error; otherwise an element of s at most every element |
| NumReductions.Sum | include/stp/num_reductions/sum.hpp:20-23 | the sum of the elements, 0 on [] |
| NumReductions.Size | include/stp/num_reductions/size.hpp:19-25 | the number of elements |
| NumReductions.AccumulatePlus | include/stp/num_reductions/sum.hpp:22 | accumulate with + from init gives init plus the sum |
| NumReductions.FoldConcat | include/stp/num_reductions/fold.hpp:30 | folding s ++ t is folding t from the fold of s |
| NumReductions.SumConcat | include/stp/num_reductions/sum.hpp:22 | sum(s ++ t) == sum(s) + sum(t) |
| NumReductions.CountBounds | include/stp/num_reductions/count.hpp:30 | count is at most \|s\|, equals \|s\| iff every element is the value, and is 0 iff the value is absent |
| NumReductions.ContainsIffCountPositive | include/stp/bool_reductions/contains.hpp:28 | contains(v) iff count(v) > 0 |
| NumReductions.MinLeqMax | include/stp/num_reductions/min.hpp:29 | on a non-empty input min <= max |
| NumReductions.SumRemove | include/stp/num_reductions/sum.hpp:22 | taking one element out of the sum subtracts it |
| NumReductions.SumPermutationInvariant | test/test.cpp:528-529 | inputs with the same elements have the same sum |
| NumReductions.MaxMinPermutationInvariant | test/test.cpp:491-492 | inputs with the same elements have the same max and min |
| NumReductions.FoldExamples | test/test.cpp:475-480 | fold(+,5) of 1..10 is 60, fold(+,0) is 55, fold(-,5) is -50, and a fold of [] is its init |
| NumReductions.SumExamples | test/test.cpp:525-530 | 1..10 sums to 55 in either order, five 5s to 25, [] to 0 |
| NumReductions.CountExamples | test/test.cpp:458-464 | count(5) of five 5s is 5, count(4) is 0, count of [] is 0; size of 1..10 is 10 |
| NumReductions.MaxMinExamples | test/test.cpp:491-505 | max of 1..10 is 10, min of 10..1 is 1, both fail on [] |
| Order.SortInPlace | include/stp/order/sort.hpp:15-19 | sort works on the caller's sequence: afterwards the caller holds its elements in non-decreasing order, the same multiset, and that sequence is returned |
| Order.Sort | include/stp/order/sort.hpp:15-19 | on a copy: the result is in non-decreasing order and has the same multiset of elements |
| Order.SortWithInPlace | include/stp/order/sort.hpp:34-38 | sort_with works on the caller's sequence: afterwards the caller holds a permutation of it, and that sequence is returned |
| Order.SortWith | include/stp/order/sort.hpp:34-38 | on a copy: the result has the same multiset of elements |
| Order.Reverse | include/stp/order/reverse.hpp:14-18 | the result has the input's length and holds s[\|s\| - 1 - i] at position i |
| Order.SortWithOrdered | include/stp/order/sort.hpp:36 | with a comparator that is a strict partial order the sort_with result is ordered by it |
| Order.SortedPermutationUnique | include/stp/order/sort.hpp:17 | two sorted sequences with the same elements are equal, so sort's result is determined by its contract |
| Order.SortPermutationInvariant | test/test.cpp:555 | a shuffled input sorts to the same sequence |
| Order.SortOfSorted | test/test.cpp:554 | a sorted input is returned unchanged |
| Order.SortIdempotent | include/stp/order/sort.hpp:15-19 | sort applied twice equals sort once |
| Order.ReverseInvolution | include/stp/order/reverse.hpp:16 | reverse(reverse(s)) == s |
| Order.ReversePermutes | include/stp/order/reverse.hpp:16 | reverse keeps the multiset of elements |
| Order.ReverseConstant | test/test.cpp:538-540 | a constant sequence is its own reverse |
| Order.ReverseExample | test/test.cpp:542 | 1..10 reverses to 10..1 |
| Order.SortReversedSorted | test/test.cpp:557 | sorting the reverse of a sorted sequence gives it back |
| Order.SortDescendingExample | test/test.cpp:557 | 10..1 sorts to 1..10 |
| Order.SortedExample | test/test.cpp:554-556 | a sorted input is unchanged; sort and reverse of [] are [] |
| Order.SortShuffledExample | test/test.cpp:555 | [3,1,2] sorts to [1,2,3] |
| Pipeline.StageType | include/stp/pipeline.hpp:21-22 | the intended typing, each stage applied to the pipeline's copy: every stage needs a sequence: a scalar, list or map input is refused; on an int sequence every stage but map-over-pairs and to_map is accepted |
| Pipeline.ResultType | include/stp/pipeline.hpp:24-26 | a threaded result type exists only if the first stage accepts the input type, and it is a type the last stage produces |
| Pipeline.Apply | include/stp/pipeline.hpp:32-39 | a successful run yields a value of the threaded result type, and a first stage that refuses the input stops the run with TypeMismatch |
| Pipeline.Step | include/stp/pipeline.hpp:56-59 | a stage on a value of a type it does not accept is a TypeMismatch, and only then; a successful stage returns a value of the type StageType predicts; the only other error is max/min on [] |
| Pipeline.PairSeqStep | include/stp/pipeline.hpp:56-59 | a stage accepting pair sequences always succeeds with the predicted type |
| Pipeline.IntSeqStep | include/stp/pipeline.hpp:56-59 | a stage accepting int sequences succeeds with the predicted type, except max/min on [] |
| Pipeline.Reduce | include/stp/num_reductions/max.hpp:24-29 | an int-valued reduction fails only for max/min on [] |
| Pipeline.StepWhere | include/stp/filters/where.hpp:24-33 | the where stage computes Filters.Where |
| Pipeline.StepSum | include/stp/num_reductions/sum.hpp:20-23 | the sum stage computes NumReductions.Sum |
| Pipeline.StepZip | include/stp/misc/zip.hpp:28-52 | the zip stage computes Misc.Zip |
| Pipeline.StepMapPair | include/stp/misc/map.hpp:25-37 | a map stage on pairs computes Misc.Map |
| Pipeline.ApplySingle | include/stp/pipeline.hpp:56-59 | a one-stage pipeline returns exactly what its stage returns |
| Pipeline.ApplyCons | include/stp/pipeline.hpp:32-39 | op :: rest runs op first and feeds its output to rest; an error stops the pipeline |
| Pipeline.ApplySplit | include/stp/pipeline.hpp:38 | splitting the stage list anywhere composes: Apply(A ++ B, v) == Apply(B, Apply(A, v)) |
| Pipeline.ResultTypeSplit | include/stp/pipeline.hpp:21-26 | the threaded result type of A ++ B is that of B on the result type of A |
| Pipeline.Soundness | include/stp/pipeline.hpp:21-39 | a well-typed pipeline yields a value of the threaded result type or an EmptySequence error, never a TypeMismatch; a pipeline ill-typed under StageType yields an error |
| Pipeline.TakeTakeSumExample | test/test.cpp:796-797 | under the intended typing, take(8), take(2), take(1), sum types as an int and on 1..10 gives 1, as the check expects |
| Pipeline.StageTypeAsWritten | include/stp/pipeline.hpp:21-22 | the typing as written: a stage types exactly when the intended typing accepts it and its parameter is not a non-const reference, which std::result_of's rvalue cannot bind |
| Pipeline.ResultTypeAsWritten | include/stp/pipeline.hpp:24-26 | return_type threaded with the as-written typing: a result type exists only if the first stage types as written |
| Pipeline.AsWrittenRefusesInPlaceStages | include/stp/pipeline.hpp:21-50 | as written, a pipeline types exactly when it types under the intended typing and contains none of take, drop, take_while, drop_while, sort and sort_with; then both typings agree |
| Pipeline.TakeTakeSumIllTyped | test/test.cpp:796 | make_stp(take(8), take(2), take(1), sum()) has no return type as written, and returns an int under the intended typing |
| Pipeline.WhereEvenExample | test/test.cpp:226 | where(even) on 1..10 gives [2,4,6,8,10] |
| Pipeline.EvensSelected | test/test.cpp:226 | selecting the even positions of 1..10 gives the even numbers |
| Pipeline.SumEvensExample | test/test.cpp:776 | the even numbers of 1..10 sum to 30 |
| Pipeline.WhereSumExample | test/test.cpp:776 | where(even), sum on 1..10 gives 30 |
| Pipeline.ZipMapExample | test/test.cpp:784 | zip(10..1) on 1..10 followed by pair sum gives ten 11s |
| Pipeline.SumElevensExample | test/test.cpp:805 | ten 11s sum to 110 |
| Pipeline.ZipMapSumExample | test/test.cpp:804-805 | zip(range(10,0)), map(first+second), sum on 1..10 gives 110 |
| RefCore.Admits | include/stp/core.hpp:27-36 | a stage list is accepted iff every stage takes the sequence by reference and every non-terminal stage returns it by reference |
| RefCore.SignatureOf | include/stp/utility.hpp:42-70 | a stage that returns the sequence by reference also takes it by reference; exactly where and reverse take a copy; exactly the stages that bind an lvalue only (`Pipeline.BindsLvalueOnly`) return by reference |
| RefCore.StepInPlace | include/stp/filters/drop.hpp:22-32 | a stage called directly on the caller's object returns what the pipeline's step returns; a stage returning by reference leaves its result in the object, any other stage leaves the object as it was |
| RefCore.IntSeqInPlace | include/stp/order/sort.hpp:15-19 | each in-place stage on an int sequence leaves in the caller exactly what it returns, which is the pipeline's by-value result |
| RefCore.StepTransform | include/stp/pipeline.hpp:56-59 | a stage from int sequences to int sequences steps to its transformation |
| RefCore.StepPairs | include/stp/filters/take.hpp:22-32 | take and drop on pair sequences step to the prefix and the suffix |
| RefCore.DirectCallsCompound | test/test.cpp:182-183 | take(5) then take(6) called on one object returns 1..5; take(6) alone returns 1..6 |
| RefCore.RunInPlace | include/stp/core.hpp:42-75 | running the stages on the referenced object returns what the live pipeline returns, and leaves the object as the last in-place stage made it |
| RefCore.InPlaceCons | include/stp/core.hpp:43-46 | the outcome of the rest on the first stage's output is the outcome of the whole list |
| RefCore.LastOfTail | include/stp/core.hpp:43-46 | the last stage of the tail is the last stage |
| RefCore.PrefixApply | include/stp/core.hpp:43-46 | the prefix before the last stage runs its first stage first |
| RefCore.Invoke | include/stp/core.hpp:92-96 | the wrapper runs the stages on its own copy, and its result is the live pipeline's |
| RefCore.InvokeSound | include/stp/core.hpp:27-31 | an accepted, well-typed list yields a value of the threaded result type or an EmptySequence error |
| RefCore.RefusedStages | include/stp/core.hpp:32-33 | a list containing where or reverse, or with a non-in-place stage before the end, is rejected |
| RefCore.AdmitsSplit | include/stp/core.hpp:32-33 | an accepted list splits into accepted parts whose first part works in place throughout |
| RefCore.AdmissionExamples | include/stp/core.hpp:32-33 | take, sort, sum is accepted; where, sum and sum, take are not; take_while alone is, reverse alone is not |
| RefCore.StepTake | include/stp/filters/take.hpp:22-32 | the take stage computes Filters.Take |
| RefCore.StepSort | include/stp/order/sort.hpp:15-19 | the sort stage computes Order.Sort |
| RefCore.TakeSortApply | include/stp/core.hpp:42-46 | take(3), sort on [3,1,2,5] gives [1,2,3] |
| RefCore.InPlaceExample | include/stp/core.hpp:42-75 | running take(3), sort in place leaves [1,2,3] in the object and returns it |
| Query.FromElements | stp/core.hpp:18-23 | constructing a partial_query copies the range in order |
| Query.FromVector | stp/stl_transformations.hpp:31-34 | FromVector holds the vector's elements in order |
| Query.FromList | stp/stl_transformations.hpp:37-40 | FromList holds the list's elements in order |
| Query.Run | stp/transformations.hpp:14-65 | each stage returns a value of the kind its call operator declares |
| Query.Admissible | stp/core.hpp:78-88 | the recursive Query accepts a stage list iff it is non-empty and every stage but the last returns a partial_query |
| Query.ReturnType | stp/core.hpp:62-76 | return_type threads through the stages and ends with the last stage's type |
| Query.Query | stp/core.hpp:78-88 | an admissible query returns a value of its return_type |
| Query.QueryLast | stp/core.hpp:78-82 | Query(pq, last) == last(pq) |
| Query.QueryCons | stp/core.hpp:84-88 | Query(pq, f, rest...) == Query(f(pq), rest...) |
| Query.TerminalOnlyLast | stp/core.hpp:84-88 | a stage that does not return a partial_query can only come last |
| Query.RunAgrees | stp/transformations.hpp:14-65 | each query stage computes what its live counterpart computes; Count is size |
| Query.QueryAgreesWithPipeline | stp/core.hpp:78-88 | a query equals the live pipeline of the corresponding stages |
| Query.RoundTrips | stp/stl_transformations.hpp:15-40 | ToVector(FromVector(v)) == v and ToList(FromList(l)) == l |
| Query.TakeChain | stp/transformations.hpp:29-34 | Take(a), Take(b), Take(c), ToList keeps the first min(a, b, c) elements |
| Query.TakeCount | main.cpp:61 | Take(n), Count counts min(n, size) elements |
| Query.TakeChainExample | main.cpp:43 | Take(7), Take(5), Take(6), ToList on 1..11 lists 1..5 |
| Transformation.FoldLeft | include/stp/transformation/fold.hpp:31-34 | FoldLeft(op, init) is the left fold from init |
| Transformation.FoldLeftDefault | include/stp/transformation/fold.hpp:51-54 | FoldLeft(op) is the left fold from the value-initialised 0 |
| Transformation.Take | include/stp/transformation/take.hpp:21-32 | an input shorter than n is returned whole; otherwise the first n elements; equal to the live take |
| Transformation.KeepIf | include/stp/transformation/where.hpp:23-28 | remove_if with the negated predicate then erase equals the live where |
| Transformation.Where | include/stp/transformation/where.hpp:21-29 | the caller's sequence afterwards and the result are both the live where of the input |
| Transformation.Sum | include/stp/transformation/sum.hpp:21-24 | the sum of the elements |
| Transformation.Count | include/stp/transformation/count.hpp:13-19 | the number of elements, whatever their values |
| Transformation.FoldLeftPlusIsSum | include/stp/transformation/fold.hpp:53 | FoldLeft(+) and FoldLeft(+, 0) equal sum |
| Transformation.SumCountAgree | include/stp/transformation/count.hpp:13-19 | sum and count agree with the live sum and size |
| Transformation.WhereIdempotent | include/stp/transformation/where.hpp:28 | filtering the already filtered caller's sequence changes nothing |
| Transformation.TakeBounds | include/stp/transformation/take.hpp:28-29 | take(0) gives []; n >= \|s\| keeps s; n <= \|s\| gives n elements |
| Transformation.TransformationExamples | test/unittest.cpp:131-147 | Take(5) and Take(1000) of 1..10, Count of five 5s, and FoldLeft(minus) of [1,2,3] from the default 0 is -6 |
| Reductions.Fold | include/stp/reductions/fold.hpp:28-31 | the left fold from init, equal to the live fold |
| Reductions.Count | include/stp/reductions/count.hpp:26-32 | the multiplicity of the value, equal to the live count |
| Reductions.Equal | include/stp/reductions/equal.hpp:19-35 | true iff the two sequences are equal; equal to the live equal |
| Reductions.Any | include/stp/reductions/any.hpp:21-24 | true iff some element satisfies p; equal to the live any |
| Reductions.All | include/stp/reductions/all.hpp:17-20 | true iff every element satisfies p; equal to the live all |
| Reductions.Size | include/stp/reductions/size.hpp:18-24 | the number of elements; equal to the live size |
| Reductions.EmptyInput | include/stp/reductions/fold.hpp:30 | on []: fold gives init, count and size 0, all holds, any does not, and two empty sequences are equal |
| Reductions.CountAtMostSize | include/stp/reductions/count.hpp:31 | count never exceeds size |
| Generation.Range | include/stp/generation/range.hpp:18-51 | the older range equals the live range, with the same ascending and descending shapes |
| Generation.Range2 | include/stp/generation/range.hpp:61-65 | Range(start, end) has \|end - start\| values and equals the live two-argument range |
| Generation.Repeat | include/stp/generation/repeat.hpp:11-21 | n copies of the value, equal to the live repeat |
| Generation.RangeEmptyCases | test/unittest.cpp:46-54 | Range(x, x) and a zero step give [] |
| Generation.GenerationExamples | test/unittest.cpp:42-64 | the integer Range checks and the Repeat checks |
| Stl.ToVector | include/stp/stl/tovector.hpp:19-24 | the same elements in the same order, equal to the live to_vector |
| Stl.ToList | include/stp/stl/tolist.hpp:18-23 | a list of the same elements in order, equal to the live to_list |
| Stl.ToVectorIdempotent | include/stp/stl/tovector.hpp:19-24 | to_vector twice is to_vector once; a list's elements converted back give the input |
| Stl.EmptyConversions | include/stp/stl/tovector.hpp:21-23 | an empty input gives an empty vector and an empty list |
| PartialOps.AddEach | stp/transformations.hpp:19 | the for_each += loop adds the sum of the elements to the running total |
| PartialOps.Sum | stp/transformations.hpp:14-21 | Sum() is the sum of the elements, 0 on [] |
| PartialOps.Take | stp/transformations.hpp:29-34 | an input shorter than n is returned whole; equal to the live take |
| PartialOps.Where | stp/transformations.hpp:46-53 | exactly the elements satisfying p, in order |
| PartialOps.Count | stp/transformations.hpp:62-65 | the number of held elements, i.e. size |
| PartialTransformations.FromIterators | include/stp/sequence_sources.hpp:12-16 | the wrapper holds the range's elements in order |
| PartialTransformations.FromContainer | include/stp/sequence_sources.hpp:18-22 | the wrapper holds the container's elements in order |
| PartialTransformations.FromArray | include/stp/sequence_sources.hpp:24-30 | the wrapper holds exactly the N array elements in order |
| PartialTransformations.ToUnsigned | include/stp/sequence_sources.hpp:77-80 | an int passed as unsigned int is below 2^32 and congruent to it modulo 2^32 |
| PartialTransformations.FromRangeUnsigned | include/stp/sequence_sources.hpp:32-56 | from_range with an unsigned step equals the live range |
| PartialTransformations.FromRange | include/stp/sequence_sources.hpp:77-80 | a non-negative step gives the live range |
| PartialTransformations.FromRangeNegativeStep | include/stp/sequence_sources.hpp:77-80 | a negative step becomes a huge unsigned step, so the range is empty |
| PartialTransformations.FromRangeDefaultStep | include/stp/sequence_sources.hpp:77-80 | the default step 1 gives \|end - start\| consecutive values, and [] when start == end |
| PartialTransformations.Sum | include/stp/transformations.hpp:14-21 | Sum() is the sum of the held elements |
| PartialTransformations.Take | include/stp/transformations.hpp:29-34 | Take(n) keeps the first n elements when there are at least n, otherwise all |
| PartialTransformations.Where | include/stp/transformations.hpp:46-53 | Where(p) keeps exactly the elements satisfying p, in order |
| PartialTransformations.Count | include/stp/transformations.hpp:62-65 | Count() is the number of held elements |
| PartialTransformations.ToVector | include/stp/stl_transformations.hpp:14-17 | ToVector returns the held elements unchanged |
| PartialTransformations.ToList | include/stp/stl_transformations.hpp:23-26 | ToList returns a list of the held elements in order |
| PartialTransformations.FromVector | include/stp/stl_transformations.hpp:30-33 | FromVector holds the vector's elements in order |
| PartialTransformations.FromList | include/stp/stl_transformations.hpp:36-39 | FromList holds the list's elements in order |
| PartialTransformations.RoundTrips | include/stp/stl_transformations.hpp:14-39 | ToVector(FromVector(v)) == v and ToList(FromList(l)) == l |
| PartialTransformations.TakeCountExamples | test/unittest.cpp:136-148 | Take(1000) keeps ten elements, Take(0) empties them, Count counts all ten |

## Left out

- avg (include/stp/num_reductions/avg.hpp): its result is a floating-point
  division. Neither it nor its empty-input guard is modelled.
- Float and double ranges, the float sums, and the bool sum that comes from
  `std::plus<bool>`: all floating-point or C++ conversion behaviour.
- Generators.CharRange: only character codes 0..127 and steps 0..127 are
  modelled, with `char` taken as signed. A negative code, or a step of 128
  or more whose conversion to `char` changes its value, is not modelled.
- FoldRight (include/stp/transformation/fold.hpp:81-84, 106-109): it builds
  `rbegin` from `reverse_iterator(begin)` and `rend` from
  `reverse_iterator(end)`. That range runs the wrong way, which is undefined
  behaviour, so no semantics is claimed for it.
- The type-trait machinery (`functor_traits`, `result_of`, `enable_if`,
  `static_assert`). It appears only as the `StageType`/`ResultType` typing,
  the `RefCore.SignatureOf` table and the `Query.Admissible` check.
- The console output in `partial_query`'s constructors, and the demo
  programs main.cpp and example/example.cpp. Their queries appear only as
  example lemmas.
- The Boost test programs (test/test.cpp, test/unittest.cpp), whose checks appear only as example lemmas, and include/stp.hpp, which is only an include list.
- The `Transform` helper that test/unittest.cpp calls is not part of this
  model. It is not defined in the repository's source files.
- `PartialTransformation` is not defined in the repository's source files.
  It is modelled like `partial_query`, as a wrapper around a copied
  sequence.
- Generators.Range and Generation.Range: a negative step with
  start != end never terminates in the source, so both require
  `step >= 0 || start == end`.
- Order.SortWith: the order of comparator-equivalent elements is left open,
  since std::sort is unstable. Its ordering is proved for comparators that
  are strict partial orders (`Order.SortWithOrdered`), which includes every
  strict weak ordering. std::sort with a comparator that is not a strict
  weak ordering is undefined behaviour in the source, which may not even
  return a permutation. There the model's insertion sort is a defined
  stand-in, and its permutation property is not a promise of the source.
- SetOps.DifferenceKeeps: stated in one direction only. With repeated
  values, an element dropped at one position may still occur elsewhere in
  the result. The exact position-wise statement is
  `SetOps.Difference`'s contract.
- Integer overflow in `abs(end - start)`, in sums and in folds: integers
  are unbounded. Two conversions are written out: the int-to-unsigned
  conversion of `FromRange`'s step, and the signed `char` counter of a
  character range, which wraps past 127 (`Generators.ToSignedChar`).
- Filters.TakeInPlace and Filters.DropInPlace: the `size_t` count is cast
  to the iterator's signed difference type before the `std::min`. A count
  above the largest signed difference would turn negative; it is not
  modelled, and every count is clamped to the length.
- Transformation.Take: the same cast happens in
  include/stp/transformation/take.hpp:26. A count above the largest signed
  difference turns negative, the length test then always passes, and
  `erase(begin + n, end)` runs with a negative n, which is undefined
  behaviour. The model does not carry the cast: such a count returns the
  input whole.
- Pipeline.StageType: narrower than the templates in one way and broader
  in another.
  - Narrower: it refuses EVERY stage on a list or map value (`IntListT`,
    `IntMapT`), and accepts only sequences of ints or pairs. Most stages
    iterate any container, so the templates would instantiate many of
    these. Examples are sum, count, fold, max, min, contains, all, any,
    equal, unique, where, map, zip, to_list, difference, intersect, size,
    to_vector and reverse on a `std::list`, size and to_vector on a
    `std::map`, and sort, unique, to_list, max and min on a vector of
    pairs, compared lexicographically. The value universe does not carry
    these combinations. So "ill-typed" in `Pipeline.Soundness` means
    ill-typed under this typing.
  - Broader: it accepts take, drop, take_while, drop_while, sort and
    sort_with, which the pipeline as written cannot type (Findings). The
    as-written typing is `Pipeline.StageTypeAsWritten`.
- Const and by-value parameters keep the caller's sequence unchanged. Dafny
  values are immutable, so this holds by construction. Six stages instead
  take the sequence by non-const reference and change it: take, drop,
  take_while, drop_while, sort and sort_with. So does
  include/stp/transformation/where.hpp. Each is modelled as a pair of the
  caller's sequence afterwards and the sequence returned
  (`Filters.TakeInPlace`, `Order.SortInPlace`, `Transformation.Where`, ...).
  `Pipeline.Apply` runs each stage on the copy its `operator()` holds, as
  the pipeline evidently intends, so it uses the value versions
  (`Filters.Take`, `Order.Sort`, ...). These are the in-place call applied
  to a copy. pipeline.hpp as written does not compile with the six
  in-place stages (Findings).

## Findings

| source | as written | input that shows it | evidently intended | confidence | as-written member | corrected member |
|---|---|---|---|---|---|---|
| test/test.cpp:182-183 | take_5 and take_6 are applied one after the other to the same fixture vector, and take erases in place | ordered_ints = 1..10: after take_5 the vector holds 1..5, so take_6 returns 1..5, not the expected 1..6 | each check sees the fixture's 1..10, as a call on a copy does | not executed; derived from the declarations and the fixture | Filters.InPlaceCallsCompound | Filters.Take |
| test/test.cpp:146-147 | drop_5 and drop_6 are applied one after the other to the same fixture vector, and drop erases in place | ordered_ints = 1..10: after drop_5 the vector holds 6..10, so drop_6 returns [], not the expected 7..10 | each check sees the fixture's 1..10, as a call on a copy does | not executed; derived from the declarations and the fixture | Filters.InPlaceCallsCompound | Filters.Drop |
| test/test.cpp:200-201 | take_lt5 and take_lte5 are applied one after the other to the same fixture vector, and take_while erases in place | ordered_ints = 1..10: after take_lt5 the vector holds 1..4, so take_lte5 returns 1..4, not the expected 1..5 | each check sees the fixture's 1..10, as a call on a copy does | not executed; derived from the declarations and the fixture | Filters.TakeWhileCallsCompound | Filters.TakeWhile |
| test/test.cpp:205 | take_e0 empties the fixture vector in place before take_e1 runs on it | ordered_ints = 1..10: after take_lt5, take_lte5 and take_e0 the vector is empty, so take_e1 returns [], not the expected [1] | each check sees the fixture's 1..10, as a call on a copy does | not executed; derived from the declarations and the fixture | Filters.TakeWhileCallsCompound | Filters.TakeWhile |
| test/test.cpp:169 | drop_lt1000 empties the fixture vector in place before drop_e1 runs on it | ordered_ints = 1..10: after drop_lt1000 the vector is empty, so drop_e1 returns [], not the expected 2..10 | each check sees the fixture's 1..10, as a call on a copy does | not executed; derived from the declarations and the fixture | Filters.DropWhileCallsCompound | Filters.DropWhile |
| include/stp/pipeline.hpp:22-50 | op_return_type and the last stage's return_type use `std::result_of<OpType(SequenceType)>`, which calls the stage on an rvalue; take, drop, take_while, drop_while, sort and sort_with take `SequenceType &` | make_stp(take(8), take(2), take(1), sum()) at test/test.cpp:796 has no return type, so it does not compile | each stage runs on the copy operator() holds, and the pipeline returns 1 on 1..10 | not executed; derived from the declarations | Pipeline.TakeTakeSumIllTyped | Pipeline.TakeTakeSumExample |
| include/stp/generators/range.hpp:41 | for a char range the counter `i` is a signed char, and `i += t_step` wraps past 127 | range('a', 'z', 20): after 97 and 117 the counter wraps to -119 instead of reaching 137 and stopping | the values start + k*step below end, as the integer range gives | not executed; derived from the loop and the signed char conversion | Generators.CharRangeWraps | Generators.Range |

=== FILE: bool_reductions.dfy ===
/** include/stp/bool_reductions: equal, contains, all and any. */
module BoolReductions {
  import opened Sequences
  import opened StdAlgorithms
  import Filters

  /** equal(fixed): sequences of different length are unequal without
      comparing elements; otherwise std::equal decides position by position. */
  function Equal<T(==)>(fixed: seq<T>, s: seq<T>): (r: bool)
    ensures r <==> s == fixed
    ensures |s| != |fixed| ==> !r
  {
    if Distance(s) == Distance(fixed) then
      assert fixed[..|s|] == fixed;
      StdAlgorithms.Equal(s, fixed)
    else false
  }

  /** contains(v): std::find does not stop at the end. */
  function Contains<T(==)>(v: T, s: seq<T>): (r: bool)
    ensures r <==> exists i :: 0 <= i < |s| && s[i] == v
  {
    Find(s, v) != |s|
  }

  /** all(p): std::all_of. */
  function All<T>(p: T -> bool, s: seq<T>): (r: bool)
    ensures r <==> forall i :: 0 <= i < |s| ==> p(s[i])
  {
    AllOf(p, s)
  }

  /** any(p): std::any_of. */
  function Any<T>(p: T -> bool, s: seq<T>): (r: bool)
    ensures r <==> exists i :: 0 <= i < |s| && p(s[i])
  {
    AnyOf(p, s)
  }

  /** equal is reflexive, and one differing position makes sequences of
      the same length unequal. */
  lemma EqualReflexiveAndPositional<T>(s: seq<T>, t: seq<T>, i: int)
    requires |s| == |t| && 0 <= i < |s| && s[i] != t[i]
    ensures Equal(s, s)
    ensures !Equal(t, s)
  {
  }

  /** equal(fixed) is symmetric in its two sequences. */
  lemma EqualSymmetric<T>(s: seq<T>, t: seq<T>)
    ensures Equal(s, t) == Equal(t, s)
  {
  }

  /** all(p) holds exactly when where(p) keeps everything. */
  lemma AllIffWhereKeepsAll<T>(p: T -> bool, s: seq<T>)
    ensures All(p, s) <==> Filters.Where(p, s) == s
  {
    Filters.WhereAllOrNone(p, s);
    if Filters.Where(p, s) == s {
      Filters.WhereSatisfies(p, s);
      forall i | 0 <= i < |s|
        ensures p(s[i])
      {
        assert s[i] in Filters.Where(p, s);
      }
    }
  }

  /** any(p) is the negation of all(not p). */
  lemma AnyIsNotAllNot<T>(p: T -> bool, s: seq<T>)
    ensures Any(p, s) == !All(x => !p(x), s)
  {
  }

  /** The empty sequence: all holds vacuously, any and contains do not. */
  lemma EmptyReductions<T>(p: T -> bool, v: T)
    ensures All(p, []) && !Any(p, []) && !Contains(v, [])
  {
  }

  lemma BoolReductionsExamples()
    ensures !Contains(4, [5, 5, 5, 5, 5]) && Contains(5, [5, 5, 5, 5, 5])
    ensures Any(x => x == 6, [1, 2, 3, 4, 5, 6, 7, 8, 9, 10])
    ensures !Any(x => x == 6, [5, 5, 5, 5, 5])
    ensures !All(x => x < 10, [1, 2, 3, 4, 5, 6, 7, 8, 9, 10])
    ensures Equal([1, 2, 3], [1, 2, 3]) && !Equal([1, 2, 3], [1, 2, 4]) && !Equal([1, 2], [1, 2, 3])
  {
    var t := [1, 2, 3, 4, 5, 6, 7, 8, 9, 10];
    assert t[5] == 6 && t[9] == 10;
    var f := [5, 5, 5, 5, 5];
    assert f[0] == 5;
    assert [1, 2, 3][2] != [1, 2, 4][2];
  }
}

=== FILE: filters.dfy ===
/** include/stp/filters: take, drop, take_while, drop_while and where. */
module Filters {
  import opened Sequences
  import opened StdAlgorithms

  /** take(n) takes the caller's sequence by reference, erases from
      position min(n, |s|) to the end in place and returns the same
      sequence. The pair holds the caller's sequence after the call and the
      returned sequence. A count past the end is clamped, not an error. */
  function TakeInPlace<T>(n: nat, sequence: seq<T>): (c: (seq<T>, seq<T>))
    ensures c.0 == sequence[..Min(n, |sequence|)]
    ensures c.1 == c.0
  {
    var after := Erase(sequence, Min(n, |sequence|), |sequence|);
    (after, after)
  }

  /** take(n) applied to a copy of the input, as the pipeline's by-value
      parameter provides: the returned sequence. */
  function Take<T>(n: nat, s: seq<T>): (r: seq<T>)
    ensures r == s[..Min(n, |s|)]
  {
    TakeInPlace(n, s).1
  }

  /** drop(n) erases the first min(n, |s|) elements of the caller's
      sequence in place and returns it. */
  function DropInPlace<T>(n: nat, sequence: seq<T>): (c: (seq<T>, seq<T>))
    ensures c.0 == sequence[Min(n, |sequence|)..]
    ensures c.1 == c.0
  {
    var after := Erase(sequence, 0, Min(n, |sequence|));
    (after, after)
  }

  /** drop(n) applied to a copy of the input. */
  function Drop<T>(n: nat, s: seq<T>): (r: seq<T>)
    ensures r == s[Min(n, |s|)..]
  {
    DropInPlace(n, s).1
  }

  /** The counting loop shared by take_while and drop_while: it counts
      elements while p holds and stops at the first one that fails. */
  function LeadingRun<T>(p: T -> bool, s: seq<T>): (n: nat)
    ensures n <= |s|
    ensures forall i :: 0 <= i < n ==> p(s[i])
    ensures n < |s| ==> !p(s[n])
  {
    if |s| == 0 || !p(s[0]) then 0 else 1 + LeadingRun(p, s[1..])
  }

  /** take_while(p): take(n) on the caller's sequence, with n the length of
      the leading run. The caller is left holding the run. */
  function TakeWhileInPlace<T>(p: T -> bool, sequence: seq<T>): (c: (seq<T>, seq<T>))
    ensures |c.0| <= |sequence| && c.0 == sequence[..|c.0|]
    ensures forall i :: 0 <= i < |c.0| ==> p(c.0[i])
    ensures |c.0| < |sequence| ==> !p(sequence[|c.0|])
    ensures c.1 == c.0
  {
    TakeInPlace(LeadingRun(p, sequence), sequence)
  }

  /** take_while(p) applied to a copy of the input. */
  function TakeWhile<T>(p: T -> bool, s: seq<T>): (r: seq<T>)
    ensures |r| <= |s| && r == s[..|r|]
    ensures forall i :: 0 <= i < |r| ==> p(r[i])
    ensures |r| < |s| ==> !p(s[|r|])
  {
    TakeWhileInPlace(p, s).1
  }

  /** drop_while(p): drop(n) on the caller's sequence, with n the length of
      the leading run. */
  function DropWhileInPlace<T>(p: T -> bool, sequence: seq<T>): (c: (seq<T>, seq<T>))
    ensures |c.0| <= |sequence| && c.0 == sequence[|sequence| - |c.0|..]
    ensures forall i :: 0 <= i < |sequence| - |c.0| ==> p(sequence[i])
    ensures |c.0| > 0 ==> !p(c.0[0])
    ensures c.1 == c.0
  {
    var n := LeadingRun(p, sequence);
    var c := DropInPlace(n, sequence);
    assert Min(n, |sequence|) == n;
    assert c.0 == sequence[n..] && |sequence| - |c.0| == n;
    c
  }

  /** drop_while(p) applied to a copy of the input. */
  function DropWhile<T>(p: T -> bool, s: seq<T>): (r: seq<T>)
    ensures |r| <= |s| && r == s[|s| - |r|..]
    ensures forall i :: 0 <= i < |s| - |r| ==> p(s[i])
    ensures |r| > 0 ==> !p(r[0])
  {
    var c := DropWhileInPlace(p, s);
    var r := c.0;
    assert |r| <= |s| && r == s[|s| - |r|..];
    assert forall i :: 0 <= i < |s| - |r| ==> p(s[i]);
    assert c.1 == r;
    r
  }

  /** where(p): remove_if with the negated predicate, then erase the tail.
      The result keeps exactly the positions whose element satisfies p. */
  function Where<T>(p: T -> bool, s: seq<T>): (r: seq<T>)
    ensures r == Select(s, Holds(p, s))
  {
    var neg := x => !p(x);
    assert Holds(x => !neg(x), s) == Holds(p, s);
    RemoveIf(s, neg)
  }

  /** Taking b after taking a is taking the smaller count. */
  lemma TakeTake<T>(a: nat, b: nat, s: seq<T>)
    ensures Take(b, Take(a, s)) == Take(Min(a, b), s)
  {
  }

  /** The prefix that take(n) keeps and the suffix that drop(n) keeps put
      back together give the input. */
  lemma TakeDropSplit<T>(n: nat, s: seq<T>)
    ensures Take(n, s) + Drop(n, s) == s
  {
    assert s == s[..Min(n, |s|)] + s[Min(n, |s|)..];
  }

  /** Counts at or past the end: take keeps everything, drop nothing. */
  lemma TakeDropPastEnd<T>(n: nat, s: seq<T>)
    requires n >= |s|
    ensures Take(n, s) == s && Drop(n, s) == []
  {
  }

  lemma TakeDropZero<T>(s: seq<T>)
    ensures Take(0, s) == [] && Drop(0, s) == s
  {
  }

  /** Two in-place takes on the same caller compound: the second one sees
      what the first one left, so it returns the shorter prefix. */
  lemma TakeInPlaceCompounds<T>(a: nat, b: nat, s: seq<T>)
    ensures TakeInPlace(b, TakeInPlace(a, s).0).1 == Take(Min(a, b), s)
  {
  }

  /** Two in-place drops on the same caller compound: together they drop
      a + b elements. */
  lemma DropInPlaceCompounds<T>(a: nat, b: nat, s: seq<T>)
    ensures DropInPlace(b, DropInPlace(a, s).0).1 == Drop(a + b, s)
  {
    var m := Min(a, |s|);
    assert s[m..][Min(b, |s| - m)..] == s[Min(a + b, |s|)..];
  }

  /** The fixture 1..10 handed first to take(5) and then to take(6), or to
      drop(5) and then drop(6): the second call returns 1..5 or nothing,
      where a call on a fresh copy returns 1..6 or 7..10. Likewise
      take_while(x < 5) then take_while(x <= 5) returns 1..4, not 1..5. */
  lemma InPlaceCallsCompound(s: seq<int>)
    requires s == [1, 2, 3, 4, 5, 6, 7, 8, 9, 10]
    ensures TakeInPlace(6, TakeInPlace(5, s).0).1 == [1, 2, 3, 4, 5]
    ensures Take(6, s) == [1, 2, 3, 4, 5, 6]
    ensures DropInPlace(6, DropInPlace(5, s).0).1 == []
    ensures Drop(6, s) == [7, 8, 9, 10]
    ensures TakeWhileInPlace(LessEq5, TakeWhileInPlace(Less5, s).0).1 == [1, 2, 3, 4]
    ensures TakeWhile(LessEq5, s) == [1, 2, 3, 4, 5]
  {
    TakeInPlaceCompounds(5, 6, s);
    DropInPlaceCompounds(5, 6, s);
    TakeWhileCallsCompound(s);
  }

  function Less5(x: int): bool { x < 5 }

  function LessEq5(x: int): bool { x <= 5 }

  function Equals0(x: int): bool { x == 0 }

  function Equals1(x: int): bool { x == 1 }

  function Equals1000(x: int): bool { x == 1000 }

  function Less1000(x: int): bool { x < 1000 }

  /** The leading run ends exactly where p first fails. */
  lemma LeadingRunAt<T>(p: T -> bool, s: seq<T>, k: nat)
    requires k <= |s|
    requires forall i :: 0 <= i < k ==> p(s[i])
    requires k < |s| ==> !p(s[k])
    ensures LeadingRun(p, s) == k
  {
  }

  /** When p first fails at k, take_while leaves and returns s[..k], and
      drop_while leaves and returns s[k..]. */
  lemma WhileSplitsAt<T>(p: T -> bool, s: seq<T>, k: nat)
    requires k <= |s|
    requires forall i :: 0 <= i < k ==> p(s[i])
    requires k < |s| ==> !p(s[k])
    ensures TakeWhileInPlace(p, s) == (s[..k], s[..k])
    ensures DropWhileInPlace(p, s) == (s[k..], s[k..])
    ensures TakeWhile(p, s) == s[..k] && DropWhile(p, s) == s[k..]
  {
    LeadingRunAt(p, s, k);
  }

  /** The take_while checks run one after another on the fixture 1..10.
      take_while(x < 5) leaves 1..4, so take_while(x <= 5) returns 1..4
      where a copy gives 1..5; take_while(x == 0) then leaves nothing, so
      take_while(x == 1) returns [] where a copy gives [1]. */
  lemma TakeWhileCallsCompound(s: seq<int>)
    requires s == [1, 2, 3, 4, 5, 6, 7, 8, 9, 10]
    ensures var t1 := TakeWhileInPlace(Less5, s).0;
      TakeWhileInPlace(LessEq5, t1).1 == [1, 2, 3, 4]
    ensures var t1 := TakeWhileInPlace(Less5, s).0;
      var t2 := TakeWhileInPlace(LessEq5, t1).0;
      var t3 := TakeWhileInPlace(Equals0, t2).0;
      var t4 := TakeWhileInPlace(Equals1000, t3).0;
      var t5 := TakeWhileInPlace(Less1000, t4).0;
      TakeWhileInPlace(Equals1, t5).1 == []
    ensures TakeWhile(LessEq5, s) == [1, 2, 3, 4, 5]
    ensures TakeWhile(Equals1, s) == [1]
  {
    var t1 := TakeLess5(s);
    TakeLessEq5(t1);
    TakeEquals0(t1);
    EmptyStaysEmpty();
    TakeLessEq5Copy(s);
    TakeEquals1Copy(s);
  }

  lemma TakeLess5(s: seq<int>) returns (t: seq<int>)
    requires s == [1, 2, 3, 4, 5, 6, 7, 8, 9, 10]
    ensures t == [1, 2, 3, 4] && TakeWhileInPlace(Less5, s).0 == t
  {
    WhileSplitsAt(Less5, s, 4);
    t := s[..4];
  }

  lemma TakeLessEq5(t: seq<int>)
    requires t == [1, 2, 3, 4]
    ensures TakeWhileInPlace(LessEq5, t) == (t, t)
  {
    WhileSplitsAt(LessEq5, t, 4);
    assert t[..4] == t;
  }

  lemma TakeEquals0(t: seq<int>)
    requires t == [1, 2, 3, 4]
    ensures TakeWhileInPlace(Equals0, t).0 == []
  {
    WhileSplitsAt(Equals0, t, 0);
  }

  /** Once the fixture is empty, every later take_while or drop_while
      leaves it empty and returns []. */
  lemma EmptyStaysEmpty()
    ensures forall p: int -> bool :: TakeWhileInPlace(p, []) == ([], [])
    ensures forall p: int -> bool :: DropWhileInPlace(p, []) == ([], [])
  {
  }

  lemma TakeLessEq5Copy(s: seq<int>)
    requires s == [1, 2, 3, 4, 5, 6, 7, 8, 9, 10]
    ensures TakeWhile(LessEq5, s) == [1, 2, 3, 4, 5]
  {
    assert LessEq5(s[0]) && LessEq5(s[1]) && LessEq5(s[2]) && LessEq5(s[3]) && LessEq5(s[4]);
    LeadingRunAt(LessEq5, s, 5);
    assert s[..5] == [1, 2, 3, 4, 5];
  }

  lemma TakeEquals1Copy(s: seq<int>)
    requires s == [1, 2, 3, 4, 5, 6, 7, 8, 9, 10]
    ensures TakeWhile(Equals1, s) == [1]
  {
    WhileSplitsAt(Equals1, s, 1);
    assert s[..1] == [1];
  }

  /** The drop_while checks run one after another on the fixture 1..10.
      drop_while(x < 1000) leaves nothing, so the later drop_while(x == 1)
      returns [] where a copy gives 2..10. */
  lemma DropWhileCallsCompound(s: seq<int>)
    requires s == [1, 2, 3, 4, 5, 6, 7, 8, 9, 10]
    ensures var d1 := DropWhileInPlace(Less5, s).0;
      var d2 := DropWhileInPlace(LessEq5, d1).0;
      var d3 := DropWhileInPlace(Equals0, d2).0;
      var d4 := DropWhileInPlace(Equals1000, d3).0;
      var d5 := DropWhileInPlace(Less1000, d4).0;
      DropWhileInPlace(Equals1, d5).1 == []
    ensures DropWhile(Equals1, s) == [2, 3, 4, 5, 6, 7, 8, 9, 10]
  {
    var d1 := DropLess5(s);
    var d2 := DropLessEq5(d1);
    DropEqualsNone(d2);
    DropLess1000(d2);
    EmptyStaysEmpty();
    DropWhileCopy(s);
  }

  lemma DropLess5(s: seq<int>) returns (d: seq<int>)
    requires s == [1, 2, 3, 4, 5, 6, 7, 8, 9, 10]
    ensures d == [5, 6, 7, 8, 9, 10] && DropWhileInPlace(Less5, s).0 == d
  {
    WhileSplitsAt(Less5, s, 4);
    d := s[4..];
  }

  lemma DropLessEq5(d: seq<int>) returns (e: seq<int>)
    requires d == [5, 6, 7, 8, 9, 10]
    ensures e == [6, 7, 8, 9, 10] && DropWhileInPlace(LessEq5, d).0 == e
  {
    WhileSplitsAt(LessEq5, d, 1);
    e := d[1..];
  }

  lemma DropEqualsNone(d: seq<int>)
    requires d == [6, 7, 8, 9, 10]
    ensures DropWhileInPlace(Equals0, d).0 == d
    ensures DropWhileInPlace(Equals1000, d).0 == d
  {
    WhileSplitsAt(Equals0, d, 0);
    WhileSplitsAt(Equals1000, d, 0);
  }

  lemma DropLess1000(d: seq<int>)
    requires d == [6, 7, 8, 9, 10]
    ensures DropWhileInPlace(Less1000, d).0 == []
  {
    assert forall i :: 0 <= i < 5 ==> Less1000(d[i]);
    WhileSplitsAt(Less1000, d, 5);
  }

  lemma DropWhileCopy(s: seq<int>)
    requires s == [1, 2, 3, 4, 5, 6, 7, 8, 9, 10]
    ensures DropWhile(Equals1, s) == [2, 3, 4, 5, 6, 7, 8, 9, 10]
  {
    WhileSplitsAt(Equals1, s, 1);
    assert s[1..] == [2, 3, 4, 5, 6, 7, 8, 9, 10];
  }

  /** take_while and drop_while split the input at the same point. */
  lemma TakeWhileDropWhileSplit<T>(p: T -> bool, s: seq<T>)
    ensures TakeWhile(p, s) + DropWhile(p, s) == s
  {
    var n := LeadingRun(p, s);
    assert s == s[..n] + s[n..];
  }

  /** drop_while removes the longest prefix on which p holds: no longer
      prefix satisfies p throughout. */
  lemma DropWhileRemovesLongestPrefix<T>(p: T -> bool, s: seq<T>, k: nat)
    requires k <= |s|
    ensures |s| - |DropWhile(p, s)| < k ==> exists i :: 0 <= i < k && !p(s[i])
  {
    var r := DropWhile(p, s);
    if |s| - |r| < k {
      assert r[0] == s[|s| - |r|];
    }
  }

  /** When the first element fails p, drop_while leaves the input as it is
      and take_while gives nothing. */
  lemma WhileStopsAtFirst<T>(p: T -> bool, s: seq<T>)
    requires |s| > 0 && !p(s[0])
    ensures DropWhile(p, s) == s && TakeWhile(p, s) == []
  {
  }

  /** Every element where keeps satisfies p. */
  lemma WhereSatisfies<T>(p: T -> bool, s: seq<T>)
    ensures forall x :: x in Where(p, s) ==> p(x)
  {
    SelectMembers(s, Holds(p, s));
  }

  /** Every element of s that satisfies p is kept. */
  lemma WhereKeepsSatisfying<T>(p: T -> bool, s: seq<T>)
    ensures forall i :: 0 <= i < |s| && p(s[i]) ==> s[i] in Where(p, s)
  {
    forall i | 0 <= i < |s| && p(s[i])
      ensures s[i] in Where(p, s)
    {
      SelectComplete(s, Holds(p, s), i);
    }
  }

  /** If p holds everywhere, where returns the input unchanged; if it holds
      nowhere, it returns nothing. */
  lemma WhereAllOrNone<T>(p: T -> bool, s: seq<T>)
    ensures (forall i :: 0 <= i < |s| ==> p(s[i])) ==> Where(p, s) == s
    ensures (forall i :: 0 <= i < |s| ==> !p(s[i])) ==> Where(p, s) == []
  {
    if forall i :: 0 <= i < |s| ==> p(s[i]) {
      SelectAll(s, Holds(p, s));
    }
    if forall i :: 0 <= i < |s| ==> !p(s[i]) {
      SelectNone(s, Holds(p, s));
    }
  }

  /** Filtering twice with the same predicate is filtering once. */
  lemma WhereIdempotent<T>(p: T -> bool, s: seq<T>)
    ensures Where(p, Where(p, s)) == Where(p, s)
  {
    var r := Where(p, s);
    WhereSatisfies(p, s);
    assert forall i :: 0 <= i < |r| ==> r[i] in r;
    WhereAllOrNone(p, r);
  }

  /** where keeps an order-preserving subsequence of the input. */
  lemma WhereIsSubsequence<T>(p: T -> bool, s: seq<T>)
    ensures IsSubsequence(Where(p, s), s)
  {
    SelectIsSubsequence(s, Holds(p, s));
  }
}

=== FILE: generators.dfy ===
/** include/stp/generators: range and repeat. */
module Generators {
  import opened Wrappers
  import opened Sequences

  /** The ascending loop of range_delegate: i, i + step, ... while below end. */
  function Ascend(i: int, end: int, step: int): (r: seq<int>)
    requires step > 0
    ensures |r| == 0 <==> end <= i
    ensures forall k :: 0 <= k < |r| ==> r[k] == i + k * step
    ensures forall k :: 0 <= k < |r| ==> i <= r[k] < end
    ensures end <= i + |r| * step
    decreases end - i
  {
    if i < end then
      var rest := Ascend(i + step, end, step);
      ShiftUp(i, step, rest);
      [i] + rest
    else []
  }

  /** The descending loop of range_delegate: i, i - step, ... while above end. */
  function Descend(i: int, end: int, step: int): (r: seq<int>)
    requires step > 0
    ensures |r| == 0 <==> i <= end
    ensures forall k :: 0 <= k < |r| ==> r[k] == i - k * step
    ensures forall k :: 0 <= k < |r| ==> end < r[k] <= i
    ensures i - |r| * step <= end
    decreases i - end
  {
    if i > end then
      var rest := Descend(i - step, end, step);
      ShiftDown(i, step, rest);
      [i] + rest
    else []
  }

  /** Putting i in front of the progression that starts one step up keeps
      it a progression from i. */
  lemma ShiftUp(i: int, step: int, rest: seq<int>)
    requires forall k :: 0 <= k < |rest| ==> rest[k] == i + step + k * step
    ensures forall k :: 0 <= k < |rest| + 1 ==> ([i] + rest)[k] == i + k * step
  {
    forall k | 0 < k < |rest| + 1
      ensures ([i] + rest)[k] == i + k * step
    {
      assert ([i] + rest)[k] == rest[k - 1];
      assert (k - 1) * step + step == k * step;
    }
  }

  /** The same going down. */
  lemma ShiftDown(i: int, step: int, rest: seq<int>)
    requires forall k :: 0 <= k < |rest| ==> rest[k] == i - step - k * step
    ensures forall k :: 0 <= k < |rest| + 1 ==> ([i] + rest)[k] == i - k * step
  {
    forall k | 0 < k < |rest| + 1
      ensures ([i] + rest)[k] == i - k * step
    {
      assert ([i] + rest)[k] == rest[k - 1];
      assert (k - 1) * step + step == k * step;
    }
  }

  /** range(start, end, step) on integers. A zero step, or a step larger
      than the distance, gives nothing; otherwise the direction follows from
      start and end. The loop only ends for a non-negative step, except when
      start == end, where a negative step gets past the guard and yields
      [start]. */
  function Range(start: int, end: int, step: int): (r: seq<int>)
    requires step >= 0 || start == end
    ensures step == 0 || Abs(end - start) < step ==> r == []
    ensures step < 0 ==> r == [start]
    ensures 0 < step && start < end ==> forall k :: 0 <= k < |r| ==> r[k] == start + k * step && r[k] < end
    ensures 0 < step && end < start ==> forall k :: 0 <= k < |r| ==> r[k] == start - k * step && r[k] > end
  {
    if step == 0 || Abs(end - start) < step then []
    else if start == end then [start]
    else if start < end then Ascend(start, end, step)
    else Descend(start, end, step)
  }

  /** range(start, end): step 1. */
  function Range2(start: int, end: int): (r: seq<int>)
    ensures |r| == Abs(end - start)
    ensures start <= end ==> forall k :: 0 <= k < |r| ==> r[k] == start + k
    ensures end <= start ==> forall k :: 0 <= k < |r| ==> r[k] == start - k
  {
    var r := Range(start, end, 1);
    assert start < end ==> r == Ascend(start, end, 1) && r[|r| - 1] < end;
    assert end < start ==> r == Descend(start, end, 1) && r[|r| - 1] > end;
    r
  }

  /** With a positive step no larger than the distance, the range is
      non-empty and starts at start; going up it stops at the first value
      reaching end, going down at the first value reaching end from above. */
  lemma RangeShape(start: int, end: int, step: int)
    requires 0 < step <= Abs(end - start)
    ensures |Range(start, end, step)| > 0 && Range(start, end, step)[0] == start
    ensures start < end ==> end <= start + |Range(start, end, step)| * step
    ensures end < start ==> start - |Range(start, end, step)| * step <= end
  {
  }

  /** n is the rounded-up quotient of d by step when n - 1 steps fall
      short of d and n steps reach it. */
  lemma CeilDiv(d: int, step: int, n: int)
    requires step > 0 && (n - 1) * step < d <= n * step
    ensures n == (d + step - 1) / step
  {
    var q := (d + step - 1) / step;
    assert q * step <= d + step - 1 < (q + 1) * step;
    assert n * step == (n - 1) * step + step;
    assert (n + 1) * step == n * step + step;
    MulCancel(q, n + 1, step);
    MulCancel(n, q + 1, step);
  }

  /** Multiplying by a positive step keeps a strict order, so it can be
      cancelled. */
  lemma MulCancel(a: int, b: int, step: int)
    requires step > 0 && a * step < b * step
    ensures a < b
  {
  }

  /** A range with a positive step no larger than the distance has
      |end - start| / step elements, rounded up. */
  lemma RangeLength(start: int, end: int, step: int)
    requires 0 < step <= Abs(end - start)
    ensures |Range(start, end, step)| == (Abs(end - start) + step - 1) / step
  {
    var r := Range(start, end, step);
    var n := |r|;
    RangeShape(start, end, step);
    if start < end {
      assert r[n - 1] == start + (n - 1) * step < end;
    } else {
      assert r[n - 1] == start - (n - 1) * step > end;
    }
    CeilDiv(Abs(end - start), step, n);
  }

  /** With a positive step, start == end gives nothing: the branch that
      pushes start is reachable only with a negative step. */
  lemma RangeEqualEndsEmpty(start: int, step: int)
    requires step > 0
    ensures Range(start, start, step) == []
  {
  }

  /** Every value of a range lies between start (included) and end
      (excluded). */
  lemma RangeBetween(start: int, end: int, step: int)
    requires step >= 0
    ensures forall k :: 0 <= k < |Range(start, end, step)| ==>
      (start <= end ==> start <= Range(start, end, step)[k] < end) &&
      (end <= start ==> end < Range(start, end, step)[k] <= start)
  {
  }

  /** The ascending loop never yields more values than the distance it
      covers. */
  lemma {:induction false} AscendLength(i: int, end: int, step: int)
    requires step > 0
    ensures |Ascend(i, end, step)| <= if end <= i then 0 else end - i
    decreases end - i
  {
    if i < end {
      AscendLength(i + step, end, step);
    }
  }

  /** Narrowing an int to a signed char: the value modulo 256, taken in
      [-128, 128). */
  function ToSignedChar(x: int): (c: int)
    ensures -128 <= c < 128
    ensures (c - x) % 256 == 0
    ensures -128 <= x < 128 ==> c == x
  {
    (x + 128) % 256 - 128
  }

  /** The ascending loop of range_delegate on a signed char counter:
      i += step wraps past 127, and a wrapped counter is below end again, so
      the loop goes on. The counter has 256 values, so a loop that has
      pushed fuel = 256 values and is still running has revisited a value
      and never ends: None stands for that (CharAscendNeverEnds). */
  function CharAscend(i: int, end: int, step: int, fuel: nat): (r: Option<seq<int>>)
    requires -128 <= i < 128 && 0 < step < 128
    ensures r.Some? ==> (|r.value| == 0 <==> end <= i)
    ensures r.Some? ==> forall k :: 0 <= k < |r.value| ==> -128 <= r.value[k] < end
    decreases fuel
  {
    if end <= i then Some([])
    else if fuel == 0 then None
    else
      match CharAscend(ToSignedChar(i + step), end, step, fuel - 1)
      case None => None
      case Some(rest) => Some([i] + rest)
  }

  /** The signed char counter of the ascending loop after k increments of
      step from i. */
  function CounterAt(i: int, step: int, k: nat): int
    decreases k
  {
    if k == 0 then i else CounterAt(ToSignedChar(i + step), step, k - 1)
  }

  /** Narrowing depends only on the value modulo 256. */
  lemma SignedCharCongruent(x: int, y: int)
    requires (x - y) % 256 == 0
    ensures ToSignedChar(x) == ToSignedChar(y)
  {
    var m := (x - y) / 256;
    assert x == y + 256 * m;
  }

  /** The counter after k increments is i + k * step narrowed once. */
  lemma {:induction false} CounterClosedForm(i: int, step: int, k: nat)
    requires -128 <= i < 128
    ensures CounterAt(i, step, k) == ToSignedChar(i + k * step)
    decreases k
  {
    if k > 0 {
      var w := ToSignedChar(i + step);
      CounterClosedForm(w, step, k - 1);
      assert k * step == step + (k - 1) * step;
      SignedCharCongruent(w + (k - 1) * step, i + k * step);
    }
  }

  /** Counting a + b steps from i is counting b steps from where a steps
      left the counter. */
  lemma {:induction false} CounterCompose(i: int, step: int, a: nat, b: nat)
    ensures CounterAt(i, step, a + b) == CounterAt(CounterAt(i, step, a), step, b)
    decreases a
  {
    if a > 0 {
      CounterCompose(ToSignedChar(i + step), step, a - 1, b);
    }
  }

  /** After 256 increments the counter is back where it started. */
  lemma CounterFullTurn(i: int, step: int)
    requires -128 <= i < 128
    ensures CounterAt(i, step, 256) == i
  {
    CounterClosedForm(i, step, 256);
    SignedCharCongruent(i + 256 * step, i);
  }

  /** Dropping a full turn of 256 increments leaves the counter unchanged. */
  lemma CounterShift(i: int, step: int, k: nat)
    requires -128 <= i < 128 && k >= 256
    ensures CounterAt(i, step, k) == CounterAt(i, step, k - 256)
  {
    CounterFullTurn(i, step);
    CounterCompose(i, step, 256, k - 256);
  }

  /** The counter repeats with period 256: after k increments it holds what
      it held after k mod 256. */
  lemma {:induction false} CounterPeriodic(i: int, step: int, k: nat)
    requires -128 <= i < 128
    ensures CounterAt(i, step, k) == CounterAt(i, step, k % 256)
    decreases k
  {
    if k >= 256 {
      CounterShift(i, step, k);
      CounterPeriodic(i, step, k - 256);
      assert (k - 256) % 256 == k % 256;
    }
  }

  /** None of the counter's first n + 1 values reaches end. */
  predicate StaysBelow(i: int, end: int, step: int, n: nat)
  {
    forall k :: 0 <= k <= n ==> CounterAt(i, step, k) < end
  }

  /** The char loop runs out of fuel exactly when none of the counter's
      first fuel + 1 values reaches end, that is when the loop has not
      stopped after fuel pushes. */
  lemma {:induction false} CharAscendNone(i: int, end: int, step: int, fuel: nat)
    requires -128 <= i < 128 && 0 < step < 128
    ensures CharAscend(i, end, step, fuel).None? <==> StaysBelow(i, end, step, fuel)
    decreases fuel
  {
    assert CounterAt(i, step, 0) == i;
    if end <= i {
      assert !StaysBelow(i, end, step, fuel);
    } else if fuel == 0 {
      assert StaysBelow(i, end, step, fuel) by {
        forall k | 0 <= k <= fuel
          ensures CounterAt(i, step, k) < end
        {
          assert k == 0;
        }
      }
    } else {
      var w := ToSignedChar(i + step);
      CharAscendNone(w, end, step, fuel - 1);
      assert CharAscend(i, end, step, fuel).None? == CharAscend(w, end, step, fuel - 1).None?;
      forall k | 1 <= k <= fuel
        ensures CounterAt(i, step, k) == CounterAt(w, step, k - 1)
      {
      }
      if StaysBelow(i, end, step, fuel) {
        forall k | 0 <= k <= fuel - 1
          ensures CounterAt(w, step, k) < end
        {
          assert CounterAt(i, step, k + 1) == CounterAt(w, step, k);
        }
      } else if StaysBelow(w, end, step, fuel - 1) {
        forall k | 0 <= k <= fuel
          ensures CounterAt(i, step, k) < end
        {
          if k > 0 {
            assert CounterAt(w, step, k - 1) < end;
          }
        }
      }
    }
  }

  /** No value the counter ever takes reaches end. */
  ghost predicate NeverReaches(i: int, end: int, step: int)
  {
    forall k: nat :: CounterAt(i, step, k) < end
  }

  /** With fuel 256, None means exactly that the loop never ends: no value
      the counter ever takes reaches end. */
  lemma CharAscendNeverEnds(i: int, end: int, step: int)
    requires -128 <= i < 128 && 0 < step < 128
    ensures CharAscend(i, end, step, 256).None? <==> NeverReaches(i, end, step)
  {
    CharAscendNone(i, end, step, 256);
    if StaysBelow(i, end, step, 256) {
      forall k: nat
        ensures CounterAt(i, step, k) < end
      {
        CounterPeriodic(i, step, k);
      }
    }
  }

  /** While i + n * step stays below 128, with n the number of values the
      integer loop yields, the char counter never wraps and both loops agree;
      once it reaches 128 the char counter wraps and the loops differ. */
  lemma {:induction false} CharAscendMatches(i: int, end: int, step: int, fuel: nat)
    requires -128 <= i < 128 && 0 < step < 128 && 0 <= end < 128
    ensures i + |Ascend(i, end, step)| * step < 128 && |Ascend(i, end, step)| <= fuel ==>
      CharAscend(i, end, step, fuel) == Some(Ascend(i, end, step))
    ensures i + |Ascend(i, end, step)| * step >= 128 ==>
      CharAscend(i, end, step, fuel) != Some(Ascend(i, end, step))
    decreases fuel
  {
    if i < end && fuel > 0 {
      var n := |Ascend(i, end, step)|;
      var rest := Ascend(i + step, end, step);
      assert Ascend(i, end, step) == [i] + rest;
      var w := ToSignedChar(i + step);
      var c := CharAscend(w, end, step, fuel - 1);
      assert CharAscend(i, end, step, fuel) == if c.None? then None else Some([i] + c.value);
      if i + step < 128 {
        assert w == i + step;
        assert w + |rest| * step == i + n * step;
        CharAscendMatches(w, end, step, fuel - 1);
        if c.Some? && c.value != rest {
          assert ([i] + c.value)[1..] == c.value;
        }
      } else {
        assert rest == [] && w < end;
      }
    }
  }

  /** The loop condition of the ascending char loop: the counter value after
      the last push, start + n * step, still fits in a signed char. The
      descending loop cannot wrap, as its counter stays above end >= 0 minus
      a step below 128. */
  predicate CounterFits(start: int, end: int, step: int)
    requires step >= 0
  {
    start < end && 0 < step <= end - start ==> start + |Range(start, end, step)| * step < 128
  }

  /** range on 8-bit characters, for character codes and steps below 128:
      the values are those of the signed char counter. They are the integer
      range exactly when the counter does not wrap; otherwise the loop runs
      on with negative values (Some, longer than the integer range) or never
      ends (None). */
  function CharRange(start: char, end: char, step: int): (r: Option<seq<int>>)
    requires start as int < 128 && end as int < 128 && 0 <= step < 128
    ensures CounterFits(start as int, end as int, step) <==>
      r == Some(Range(start as int, end as int, step))
  {
    var s, e := start as int, end as int;
    if step == 0 || Abs(e - s) < step then Some([])
    else if s == e then Some([s])
    else if s < e then
      AscendLength(s, e, step);
      CharAscendMatches(s, e, step, 256);
      CharAscend(s, e, step, 256)
    else Some(Descend(s, e, step))
  }

  /** range('a', 'z', 20): the counter goes 97, 117 and then wraps to -119
      instead of stopping, so the result is not the integer range [97, 117]
      that the loop condition i < end suggests. */
  lemma CharRangeWraps()
    ensures Range(97, 122, 20) == [97, 117]
    ensures ToSignedChar(117 + 20) == -119
    ensures CharRange('a', 'z', 20) != Some([97, 117])
  {
    assert Range(97, 122, 20) == [97, 117];
  }

  /** The vector(n, val) constructor: n copies of val. */
  function Repeat<T>(v: T, n: nat): (r: seq<T>)
    ensures |r| == n
    ensures forall i :: 0 <= i < n ==> r[i] == v
  {
    if n == 0 then [] else [v] + Repeat(v, n - 1)
  }

  lemma RangeExamples()
    ensures Range2(1, 5) == [1, 2, 3, 4]
    ensures Range2(5, 1) == [5, 4, 3, 2]
    ensures Range2(1, 1) == []
    ensures Range(1, 10, 3) == [1, 4, 7]
    ensures Range(-1, -10, 3) == [-1, -4, -7]
    ensures Range(1, 5, 0) == [] && Range(1, 5, 6) == []
    ensures CharRange('a', '@', 32) == Some([97, 65])
    ensures CharRange('a', 'e', 1) == Some([97, 98, 99, 100])
  {
    assert Range(97, 64, 32) == [97, 65];
    assert Range(97, 101, 1) == [97, 98, 99, 100];
  }

  lemma RepeatExamples()
    ensures Repeat(1, 3) == [1, 1, 1]
    ensures Repeat("hej", 3) == ["hej", "hej", "hej"]
    ensures Repeat(10, 5) == [10, 10, 10, 10, 10]
    ensures Repeat(false, 10) == [false, false, false, false, false, false, false, false, false, false]
    ensures Repeat(7, 0) == []
  {
  }
}

=== FILE: legacy_generation.dfy ===
/** include/stp/generation: the older Range and Repeat, checked against the
    live generators that replaced them. */
module Generation {
  import opened Sequences
  import Generators

  /** detail::range(start, end, step): a zero step, or a step larger than
      the distance, gives nothing; start == end pushes start (reachable only
      with a negative step); otherwise the loop counts towards end. The loop
      ends only for a non-negative step or when start == end. */
  function Range(start: int, end: int, step: int): (r: seq<int>)
    requires step >= 0 || start == end
    ensures r == Generators.Range(start, end, step)
    ensures 0 < step && start < end ==> forall k :: 0 <= k < |r| ==> r[k] == start + k * step && r[k] < end
    ensures 0 < step && end < start ==> forall k :: 0 <= k < |r| ==> r[k] == start - k * step && r[k] > end
  {
    if step == 0 || Abs(end - start) < step then []
    else if start == end then [start]
    else if start < end then Generators.Ascend(start, end, step)
    else Generators.Descend(start, end, step)
  }

  /** Range(start, end): step 1, so |end - start| consecutive values. */
  function Range2(start: int, end: int): (r: seq<int>)
    ensures |r| == Abs(end - start)
    ensures r == Generators.Range2(start, end)
  {
    var r := Range(start, end, 1);
    assert r == Generators.Range2(start, end);
    r
  }

  /** Repeat(value, n): the vector(n, value) constructor. */
  function Repeat<T>(value: T, n: nat): (r: seq<T>)
    ensures |r| == n
    ensures forall i :: 0 <= i < n ==> r[i] == value
    ensures r == Generators.Repeat(value, n)
  {
    seq(n, _ => value)
  }

  /** start == end gives nothing for step 1, and a zero step gives
      nothing. */
  lemma RangeEmptyCases(start: int, end: int)
    ensures Range2(start, start) == []
    ensures Range(start, end, 0) == []
  {
  }

  lemma GenerationExamples()
    ensures Range2(1, 5) == [1, 2, 3, 4] && Range2(5, 1) == [5, 4, 3, 2]
    ensures Range2(-1, 1) == [-1, 0] && Range2(1, -1) == [1, 0]
    ensures Range(1, 10, 3) == [1, 4, 7] && Range(10, 1, 3) == [10, 7, 4]
    ensures Range(-10, -1, 3) == [-10, -7, -4]
    ensures Range(1, 5, 6) == []
    ensures Repeat(1, 3) == [1, 1, 1] && Repeat(true, 2) == [true, true]
  {
    Generators.RangeExamples();
  }
}

=== FILE: legacy_reductions.dfy ===
/** include/stp/reductions: an older set of reductions (fold, count, equal,
    any, all, size), each checked against the live operation that replaced
    it. */
module Reductions {
  import opened StdAlgorithms
  import NumReductions
  import BoolReductions

  /** fold(op, init): std::accumulate over the input, returning the element
      type; init is converted to it. */
  function Fold<T>(op: (T, T) -> T, init: T, s: seq<T>): (r: T)
    ensures |s| == 0 ==> r == init
    ensures |s| > 0 ==> r == op(Fold(op, init, s[..|s| - 1]), s[|s| - 1])
    ensures r == NumReductions.Fold(op, init, s)
  {
    Accumulate(s, init, op)
  }

  /** count(v): std::count, the number of elements equal to v. */
  function Count<T(==)>(v: T, s: seq<T>): (n: nat)
    ensures n == multiset(s)[v]
    ensures n == NumReductions.Count(v, s)
  {
    CountEqual(s, v)
  }

  /** equal(sequence)(input): sequences of different length are unequal;
      otherwise std::equal walks the captured sequence against the input. */
  function Equal<T(==)>(sequence: seq<T>, input: seq<T>): (r: bool)
    ensures r <==> input == sequence
    ensures r == BoolReductions.Equal(sequence, input)
  {
    if Distance(sequence) != Distance(input) then false
    else
      assert input[..|sequence|] == input;
      StdAlgorithms.Equal(sequence, input)
  }

  /** any(p): std::any_of. */
  function Any<T>(p: T -> bool, s: seq<T>): (r: bool)
    ensures r <==> exists i :: 0 <= i < |s| && p(s[i])
    ensures r == BoolReductions.Any(p, s)
  {
    AnyOf(p, s)
  }

  /** all(p): std::all_of. */
  function All<T>(p: T -> bool, s: seq<T>): (r: bool)
    ensures r <==> forall i :: 0 <= i < |s| ==> p(s[i])
    ensures r == BoolReductions.All(p, s)
  {
    AllOf(p, s)
  }

  /** size(): the distance from begin to end. */
  function Size<T>(s: seq<T>): (n: nat)
    ensures n == |s|
    ensures n == NumReductions.Size(s)
  {
    Distance(s)
  }

  /** The empty input: fold gives init, count and size give 0, all holds,
      any does not, and two empty sequences are equal. */
  lemma EmptyInput<T>(op: (T, T) -> T, init: T, v: T, p: T -> bool)
    ensures Fold(op, init, []) == init
    ensures Count(v, []) == 0 && Size<T>([]) == 0
    ensures All(p, []) && !Any(p, [])
    ensures Equal<T>([], [])
  {
  }

  /** count never exceeds size. */
  lemma CountAtMostSize<T>(v: T, s: seq<T>)
    ensures Count(v, s) <= Size(s)
  {
    NumReductions.CountBounds(v, s);
  }
}

=== FILE: legacy_stl.dfy ===
/** include/stp/stl: the older to_vector and to_list, checked against the
    live conversions in include/stp/misc/stl.hpp. */
module Stl {
  import opened Sequences
  import Misc

  /** to_vector(): the copy taken by value, pushed element by element into
      a new vector. */
  function ToVector<T>(input: seq<T>): (r: seq<T>)
    ensures |r| == |input|
    ensures forall i :: 0 <= i < |r| ==> r[i] == input[i]
    ensures r == Misc.ToVector(input)
  {
    Misc.PushAll([], input)
  }

  /** to_list(): the elements pushed onto the back of a new list in
      order. */
  function ToList<T>(input: seq<T>): (r: List<T>)
    ensures ListToSeq(r) == input
    ensures r == Misc.ToList(input)
  {
    Misc.ListPushAll(Nil, input)
  }

  /** Converting to a vector twice is converting once; a list converted
      back to a vector gives the input. */
  lemma ToVectorIdempotent<T>(s: seq<T>)
    ensures ToVector(ToVector(s)) == ToVector(s)
    ensures ToVector(ListToSeq(ToList(s))) == s
  {
  }

  lemma EmptyConversions<T>()
    ensures ToVector<T>([]) == [] && ToList<T>([]) == Nil
  {
  }
}

=== FILE: legacy_transformation.dfy ===
/** include/stp/transformation: an older set of stages (fold, take, where,
    sum, count) written against include/stp/core.hpp. Each is checked here
    against the live operation that replaced it. */
module Transformation {
  import opened Sequences
  import opened StdAlgorithms
  import Filters
  import NumReductions

  /** FoldLeft(op, init): std::accumulate over the copy taken by value. */
  function FoldLeft<T>(op: (T, T) -> T, init: T, s: seq<T>): (r: T)
    ensures |s| == 0 ==> r == init
    ensures r == NumReductions.Fold(op, init, s)
  {
    Accumulate(s, init, op)
  }

  /** FoldLeft(op): the fold starts from the value-initialised element, 0
      for int. */
  function FoldLeftDefault(op: (int, int) -> int, s: seq<int>): (r: int)
    ensures |s| == 0 ==> r == 0
    ensures r == NumReductions.Fold(op, 0, s)
  {
    Accumulate(s, 0, op)
  }

  /** take(n): the copy is cut back to n elements only when it has at least
      n; a shorter input is returned whole. */
  function Take<T>(n: nat, s: seq<T>): (r: seq<T>)
    ensures |s| < n ==> r == s
    ensures r == Filters.Take(n, s)
  {
    if Distance(s) >= n then Erase(s, n, |s|) else s
  }

  /** The remove_if with the negated predicate and the erase of the tail
      that every generation of where performs. */
  function KeepIf<T>(p: T -> bool, s: seq<T>): (r: seq<T>)
    ensures r == Filters.Where(p, s)
  {
    var neg := x => !p(x);
    assert Holds(x => !neg(x), s) == Holds(p, s);
    RemoveIf(s, neg)
  }

  /** where(p): the input is taken by non-const reference and filtered in
      place, then copied out. The pair holds the caller's sequence after the
      call and the returned sequence: both are the filtered input. */
  function Where<T>(p: T -> bool, input: seq<T>): (c: (seq<T>, seq<T>))
    ensures c.1 == Filters.Where(p, input)
    ensures c.0 == c.1
  {
    var filtered := KeepIf(p, input);
    (filtered, filtered)
  }

  /** sum(): std::accumulate with std::plus from the value-initialised 0.
      The input is only read. */
  function Sum(s: seq<int>): (r: int)
    ensures r == NumReductions.SumOf(s)
  {
    NumReductions.AccumulatePlus(s, 0);
    Accumulate(s, 0, NumReductions.Plus)
  }

  /** count(): the distance from begin to end, the number of elements of
      any value. */
  function Count<T>(s: seq<T>): (n: nat)
    ensures n == |s|
  {
    Distance(s)
  }

  /** FoldLeft(+) is sum, and so is FoldLeft(+, 0). */
  lemma FoldLeftPlusIsSum(s: seq<int>)
    ensures FoldLeftDefault(NumReductions.Plus, s) == Sum(s)
    ensures FoldLeft(NumReductions.Plus, 0, s) == Sum(s)
  {
    NumReductions.AccumulatePlus(s, 0);
  }

  /** The sum and count agree with the live sum and size. */
  lemma SumCountAgree<T>(s: seq<int>, t: seq<T>)
    ensures Sum(s) == NumReductions.Sum(s)
    ensures Count(t) == NumReductions.Size(t)
  {
  }

  /** Filtering the already filtered caller's sequence again changes
      nothing. */
  lemma WhereIdempotent<T>(p: T -> bool, input: seq<T>)
    ensures Where(p, Where(p, input).0) == Where(p, input)
  {
    Filters.WhereIdempotent(p, input);
  }

  /** take(0) empties the input; a count at or past the end keeps it. */
  lemma TakeBounds<T>(n: nat, s: seq<T>)
    ensures Take(0, s) == []
    ensures n >= |s| ==> Take(n, s) == s
    ensures n <= |s| ==> |Take(n, s)| == n
  {
  }

  lemma TransformationExamples()
    ensures Take(5, [1, 2, 3, 4, 5, 6, 7, 8, 9, 10]) == [1, 2, 3, 4, 5]
    ensures Take(1000, [1, 2, 3, 4, 5, 6, 7, 8, 9, 10]) == [1, 2, 3, 4, 5, 6, 7, 8, 9, 10]
    ensures Count([5, 5, 5, 5, 5]) == 5
    ensures FoldLeftDefault(NumReductions.Minus, [1, 2, 3]) == -6
  {
  }
}

=== FILE: misc.dfy ===
/** include/stp/misc: zip, map, unique, to_list, to_vector and to_map. */
module Misc {
  import opened Sequences
  import opened StdAlgorithms

  /** The push_back loop of zip over the first n positions of both inputs. */
  function PairUp<A, B>(s: seq<A>, fixed: seq<B>, n: nat): (r: seq<(A, B)>)
    requires n <= |s| && n <= |fixed|
    ensures |r| == n
    ensures forall i :: 0 <= i < n ==> r[i] == (s[i], fixed[i])
  {
    if n == 0 then [] else PairUp(s, fixed, n - 1) + [(s[n - 1], fixed[n - 1])]
  }

  /** zip(fixed): when the input is shorter the loop runs over the input,
      otherwise over the fixed sequence; both pair equal positions. */
  function Zip<A, B>(fixed: seq<B>, s: seq<A>): (r: seq<(A, B)>)
    ensures |r| == Min(|s|, |fixed|)
    ensures forall i :: 0 <= i < |r| ==> r[i] == (s[i], fixed[i])
  {
    if |s| < |fixed| then PairUp(s, fixed, |s|) else PairUp(s, fixed, |fixed|)
  }

  /** map(f): std::transform into a result of the input's length. */
  function Map<A, B>(f: A -> B, s: seq<A>): (r: seq<B>)
    ensures |r| == |s|
    ensures forall i :: 0 <= i < |s| ==> r[i] == f(s[i])
  {
    if |s| == 0 then [] else [f(s[0])] + Map(f, s[1..])
  }

  /** The loop of unique from the partial result acc on: an element is
      pushed when std::find does not see it in the result so far. */
  function UniqueInto<T(==)>(acc: seq<T>, s: seq<T>): (r: seq<T>)
    decreases |s|
  {
    if |s| == 0 then acc
    else UniqueInto(if Find(acc, s[0]) == |acc| then acc + [s[0]] else acc, s[1..])
  }

  /** unique(): keeps the first occurrence of every value. */
  function Unique<T(==)>(s: seq<T>): (r: seq<T>)
    ensures NoDuplicates(r)
    ensures forall i :: 0 <= i < |r| ==> r[i] in s
    ensures forall i :: 0 <= i < |s| ==> s[i] in r
  {
    UniqueIntoPositions([], s);
    UniqueInto([], s)
  }

  /** Marks the positions of s whose value occurs neither in acc nor
      earlier in s. */
  function FreshPositions<T(==)>(acc: seq<T>, s: seq<T>): seq<bool> {
    seq(|s|, i requires 0 <= i < |s| => s[i] !in acc && s[i] !in s[..i])
  }

  /** Marks the first occurrence of every value of s. */
  function FirstOccurrences<T(==)>(s: seq<T>): seq<bool> {
    FreshPositions([], s)
  }

  /** Appending a value not yet present keeps a sequence free of
      duplicates. */
  lemma AppendFresh<T>(acc: seq<T>, x: T)
    requires NoDuplicates(acc) && x !in acc
    ensures NoDuplicates(acc + [x])
  {
  }

  /** The loop only pushes values not yet in the result, so a result that
      starts without duplicates stays without them. */
  lemma {:induction false} UniqueIntoDistinct<T>(acc: seq<T>, s: seq<T>)
    requires NoDuplicates(acc)
    ensures NoDuplicates(UniqueInto(acc, s))
    decreases |s|
  {
    if |s| > 0 {
      var isNew := Find(acc, s[0]) == |acc|;
      if isNew {
        AppendFresh(acc, s[0]);
      }
      UniqueIntoDistinct(if isNew then acc + [s[0]] else acc, s[1..]);
    }
  }

  /** A value ends up in the result exactly when it was in acc or in s. */
  lemma {:induction false} UniqueIntoMember<T>(acc: seq<T>, s: seq<T>, x: T)
    ensures x in UniqueInto(acc, s) <==> x in acc || x in s
    decreases |s|
  {
    if |s| > 0 {
      var acc' := if Find(acc, s[0]) == |acc| then acc + [s[0]] else acc;
      UniqueIntoMember(acc', s[1..], x);
      assert s == [s[0]] + s[1..];
    }
  }

  /** The membership facts of UniqueIntoMember, position by position. */
  lemma UniqueIntoPositions<T>(acc: seq<T>, s: seq<T>)
    requires NoDuplicates(acc)
    ensures NoDuplicates(UniqueInto(acc, s))
    ensures forall i :: 0 <= i < |UniqueInto(acc, s)| ==> UniqueInto(acc, s)[i] in acc || UniqueInto(acc, s)[i] in s
    ensures forall i :: 0 <= i < |s| ==> s[i] in UniqueInto(acc, s)
  {
    UniqueIntoDistinct(acc, s);
    var r := UniqueInto(acc, s);
    forall i | 0 <= i < |r| ensures r[i] in acc || r[i] in s {
      UniqueIntoMember(acc, s, r[i]);
    }
    forall i | 0 <= i < |s| ensures s[i] in r {
      UniqueIntoMember(acc, s, s[i]);
    }
  }

  /** Moving the head of s into the partial result shifts the fresh
      positions by one. */
  lemma FreshPositionsShift<T>(acc: seq<T>, s: seq<T>)
    requires |s| > 0
    ensures FreshPositions(if s[0] in acc then acc else acc + [s[0]], s[1..]) == FreshPositions(acc, s)[1..]
  {
    var acc' := if s[0] in acc then acc else acc + [s[0]];
    forall i | 0 <= i < |s| - 1
      ensures FreshPositions(acc', s[1..])[i] == FreshPositions(acc, s)[i + 1]
    {
      assert s[..i + 1] == [s[0]] + s[1..][..i];
    }
  }

  /** The loop appends to acc exactly the fresh positions of s, in order. */
  lemma {:induction false} UniqueIntoSelects<T>(acc: seq<T>, s: seq<T>)
    ensures UniqueInto(acc, s) == acc + Select(s, FreshPositions(acc, s))
    decreases |s|
  {
    if |s| > 0 {
      var acc' := if s[0] in acc then acc else acc + [s[0]];
      var keep := FreshPositions(acc, s);
      assert UniqueInto(acc, s) == UniqueInto(acc', s[1..]);
      UniqueIntoSelects(acc', s[1..]);
      FreshPositionsShift(acc, s);
      assert keep[0] == (s[0] !in acc);
      assert Select(s, keep) == (if keep[0] then [s[0]] else []) + Select(s[1..], keep[1..]);
    }
  }

  /** unique keeps exactly the first occurrences, in their original order. */
  lemma UniqueKeepsFirstOccurrences<T>(s: seq<T>)
    ensures Unique(s) == Select(s, FirstOccurrences(s))
    ensures IsSubsequence(Unique(s), s)
  {
    UniqueIntoSelects([], s);
    SelectIsSubsequence(s, FirstOccurrences(s));
  }

  /** An input without repeated values is returned unchanged. */
  lemma UniqueOfDistinct<T>(s: seq<T>)
    requires NoDuplicates(s)
    ensures Unique(s) == s
  {
    UniqueKeepsFirstOccurrences(s);
    forall i | 0 <= i < |s|
      ensures FirstOccurrences(s)[i]
    {
    }
    SelectAll(s, FirstOccurrences(s));
  }

  lemma UniqueIdempotent<T>(s: seq<T>)
    ensures Unique(Unique(s)) == Unique(s)
  {
    UniqueOfDistinct(Unique(s));
  }

  /** A non-empty sequence of one repeated value collapses to that value. */
  lemma UniqueOfConstant<T>(v: T, s: seq<T>)
    requires |s| > 0 && forall i :: 0 <= i < |s| ==> s[i] == v
    ensures Unique(s) == [v]
  {
    var keep := FirstOccurrences(s);
    UniqueKeepsFirstOccurrences(s);
    forall i | 1 <= i < |s|
      ensures !keep[i]
    {
      assert s[..i][0] == v;
    }
    SelectNone(s[1..], keep[1..]);
  }

  /** The for_each push_back loop of to_vector, from the partial result acc. */
  function PushAll<T>(acc: seq<T>, s: seq<T>): (r: seq<T>)
    ensures r == acc + s
    decreases |s|
  {
    if |s| == 0 then acc
    else
      assert acc + s == (acc + [s[0]]) + s[1..];
      PushAll(acc + [s[0]], s[1..])
  }

  /** to_vector(): the same elements in the same order. */
  function ToVector<T>(s: seq<T>): (r: seq<T>)
    ensures r == s
  {
    PushAll([], s)
  }

  /** The for_each push_back loop of to_list, from the partial list acc. */
  function ListPushAll<T>(acc: List<T>, s: seq<T>): (r: List<T>)
    ensures ListToSeq(r) == ListToSeq(acc) + s
    decreases |s|
  {
    if |s| == 0 then acc
    else
      assert ListToSeq(acc) + s == (ListToSeq(acc) + [s[0]]) + s[1..];
      ListPushAll(PushBack(acc, s[0]), s[1..])
  }

  /** to_list(): a list of the same elements in the same order. */
  function ToList<T>(s: seq<T>): (r: List<T>)
    ensures ListToSeq(r) == s
  {
    ListPushAll(Nil, s)
  }

  /** The keys appearing in a sequence of pairs. */
  ghost function Keys<K, V>(s: seq<(K, V)>): set<K> {
    set i | 0 <= i < |s| :: s[i].0
  }

  /** Position i holds the first pair of s with its key. */
  predicate FirstWithKey<K(==), V>(s: seq<(K, V)>, i: int)
    requires 0 <= i < |s|
  {
    forall j :: 0 <= j < i ==> s[j].0 != s[i].0
  }

  /** The for_each insert loop of to_map from the partial map m: insert
      leaves an existing key's value alone. */
  function InsertAll<K(==), V>(m: map<K, V>, s: seq<(K, V)>): (r: map<K, V>)
    ensures r.Keys == m.Keys + Keys(s)
    ensures forall k :: k in m ==> r[k] == m[k]
    ensures forall i :: 0 <= i < |s| && s[i].0 !in m && FirstWithKey(s, i) ==> r[s[i].0] == s[i].1
    decreases |s|
  {
    if |s| == 0 then m
    else
      var m' := if s[0].0 in m then m else m[s[0].0 := s[0].1];
      var r := InsertAll(m', s[1..]);
      assert s == [s[0]] + s[1..];
      assert forall i :: 1 <= i < |s| && FirstWithKey(s, i) ==> FirstWithKey(s[1..], i - 1) && s[i].0 != s[0].0;
      r
  }

  /** to_map(): the keys are the first components, and a repeated key keeps
      the value of its first pair. */
  function ToMap<K(==), V>(s: seq<(K, V)>): (r: map<K, V>)
    ensures r.Keys == Keys(s)
    ensures forall i :: 0 <= i < |s| && FirstWithKey(s, i) ==> r[s[i].0] == s[i].1
  {
    InsertAll(map[], s)
  }

  lemma MapExample()
    ensures Map(x => x * x, [5, 5, 5]) == [25, 25, 25]
  {
  }

  lemma ZipExample()
    ensures Zip([10, 9], [1, 2, 3]) == [(1, 10), (2, 9)]
  {
  }

  lemma UniqueExample()
    ensures Unique([3, 4, 5, 5]) == [3, 4, 5]
  {
    var s := [3, 4, 5, 5];
    var keep := FirstOccurrences(s);
    assert s[..3] == [3, 4, 5];
    assert !keep[3] && keep[0] && keep[1] && keep[2];
    assert keep == [true, true, true, false];
    assert Select(s, [true, true, true, false]) == [3, 4, 5];
    UniqueKeepsFirstOccurrences(s);
  }

  /** Empty inputs give empty results. */
  lemma EmptyInputs<A, B>(f: A -> B, fixed: seq<B>)
    ensures Map(f, []) == [] && Zip<A, B>(fixed, []) == []
    ensures Unique<int>([]) == [] && ToVector<A>([]) == []
    ensures ToList<A>([]) == Nil && ToMap<int, B>([]) == map[]
  {
  }

  /** A repeated key keeps the value of its first pair. */
  lemma ToMapFirstWins()
    ensures ToMap([(1, 10), (2, 20), (1, 30)]) == map[1 := 10, 2 := 20]
  {
    var s := [(1, 10), (2, 20), (1, 30)];
    assert FirstWithKey(s, 0) && FirstWithKey(s, 1);
    assert Keys(s) == {1, 2} by {
      assert s[0].0 == 1 && s[1].0 == 2 && s[2].0 == 1;
    }
  }

  /** Pairing 0..9 with 10..1 and collecting into a map sends i to 10 - i,
      for exactly the keys 0..9. */
  lemma ZipToMapExample(keys: seq<int>, values: seq<int>)
    requires |keys| == 10 && |values| == 10
    requires forall i :: 0 <= i < 10 ==> keys[i] == i && values[i] == 10 - i
    ensures forall k :: k in ToMap(Zip(values, keys)) <==> 0 <= k < 10
    ensures forall k :: 0 <= k < 10 ==> ToMap(Zip(values, keys))[k] == 10 - k
  {
    var s := Zip(values, keys);
    forall i | 0 <= i < |s|
      ensures FirstWithKey(s, i) && s[i] == (i, 10 - i)
    {
    }
    forall k | 0 <= k < 10
      ensures k in Keys(s)
    {
      assert s[k].0 == k;
    }
  }
}

=== FILE: num_reductions.dfy ===
/** include/stp/num_reductions: fold, count, max, min, sum and size. */
module NumReductions {
  import opened Wrappers
  import opened Sequences
  import opened StdAlgorithms
  import BoolReductions

  function Plus(a: int, b: int): int { a + b }

  function Minus(a: int, b: int): int { a - b }

  /** The sum of s, added up from the right: the reference the left fold
      of sum is checked against. */
  function SumOf(s: seq<int>): int {
    if |s| == 0 then 0 else s[0] + SumOf(s[1..])
  }

  /** fold(op, init): std::accumulate. The last element is combined last,
      onto the fold of the elements before it. */
  function Fold<A, T>(op: (A, T) -> A, init: A, s: seq<T>): (r: A)
    ensures |s| == 0 ==> r == init
    ensures |s| > 0 ==> r == op(Fold(op, init, s[..|s| - 1]), s[|s| - 1])
  {
    Accumulate(s, init, op)
  }

  /** count(v): std::count. */
  function Count<T(==)>(v: T, s: seq<T>): (n: nat)
    ensures n == multiset(s)[v]
  {
    CountEqual(s, v)
  }

  /** max(): throws range_error on an empty input, otherwise the value
      std::max_element finds. */
  function Max(s: seq<int>): (r: Result<int>)
    ensures |s| == 0 <==> r == Err(EmptySequence)
    ensures r.Ok? ==> r.value in s && forall i :: 0 <= i < |s| ==> s[i] <= r.value
  {
    if |s| == 0 then Err(EmptySequence) else Ok(s[MaxElement(s)])
  }

  /** min(): throws range_error on an empty input, otherwise the value
      std::min_element finds. */
  function Min(s: seq<int>): (r: Result<int>)
    ensures |s| == 0 <==> r == Err(EmptySequence)
    ensures r.Ok? ==> r.value in s && forall i :: 0 <= i < |s| ==> r.value <= s[i]
  {
    if |s| == 0 then Err(EmptySequence) else Ok(s[MinElement(s)])
  }

  /** sum(): std::accumulate with std::plus from the value-initialised 0. */
  function Sum(s: seq<int>): (r: int)
    ensures r == SumOf(s)
  {
    AccumulatePlus(s, 0);
    Accumulate(s, 0, Plus)
  }

  /** size(): std::distance from begin to end. */
  function Size<T>(s: seq<T>): (n: nat)
    ensures n == |s|
  {
    Distance(s)
  }

  /** A left fold with + from init adds init to the sum. */
  lemma {:induction false} AccumulatePlus(s: seq<int>, init: int)
    ensures Accumulate(s, init, Plus) == init + SumOf(s)
    decreases |s|
  {
    if |s| > 0 {
      AccumulatePlus(s[1..], Plus(init, s[0]));
    }
  }

  /** Folding s ++ t is folding t from the fold of s. */
  lemma {:induction false} FoldConcat<A, T>(op: (A, T) -> A, init: A, s: seq<T>, t: seq<T>)
    ensures Fold(op, init, s + t) == Fold(op, Fold(op, init, s), t)
    decreases |t|
  {
    if |t| == 0 {
      assert s + t == s;
    } else {
      assert (s + t)[..|s + t| - 1] == s + t[..|t| - 1];
      FoldConcat(op, init, s, t[..|t| - 1]);
    }
  }

  lemma {:induction false} SumConcat(s: seq<int>, t: seq<int>)
    ensures Sum(s + t) == Sum(s) + Sum(t)
    decreases |s|
  {
    if |s| == 0 {
      assert s + t == t;
    } else {
      assert (s + t)[1..] == s[1..] + t;
      SumConcat(s[1..], t);
    }
  }

  /** The count is at most the length; it is the length exactly when every
      element equals v, and 0 exactly when v does not occur. */
  lemma {:induction false} CountBounds<T>(v: T, s: seq<T>)
    ensures Count(v, s) <= |s|
    ensures Count(v, s) == |s| <==> forall i :: 0 <= i < |s| ==> s[i] == v
    ensures Count(v, s) == 0 <==> v !in s
    decreases |s|
  {
    if |s| > 0 {
      CountBounds(v, s[1..]);
      assert s == [s[0]] + s[1..];
      assert multiset(s)[v] == (if s[0] == v then 1 else 0) + multiset(s[1..])[v];
      if forall i :: 0 <= i < |s[1..]| ==> s[1..][i] == v {
        if s[0] == v {
          assert forall i :: 0 <= i < |s| ==> s[i] == v by {
            forall i | 0 <= i < |s| ensures s[i] == v {
              if i > 0 { assert s[i] == s[1..][i - 1]; }
            }
          }
        }
      }
    }
  }

  /** contains(v) holds exactly when count(v) is positive. */
  lemma ContainsIffCountPositive<T>(v: T, s: seq<T>)
    ensures BoolReductions.Contains(v, s) <==> Count(v, s) > 0
  {
    CountBounds(v, s);
  }

  /** On a non-empty input the minimum never exceeds the maximum. */
  lemma MinLeqMax(s: seq<int>)
    requires |s| > 0
    ensures Min(s).value <= Max(s).value
  {
  }

  /** Taking out the element at k takes its value off the sum. */
  lemma SumRemove(t: seq<int>, k: int)
    requires 0 <= k < |t|
    ensures Sum(t) == t[k] + Sum(t[..k] + t[k + 1..])
  {
    assert t == t[..k] + ([t[k]] + t[k + 1..]);
    SumConcat(t[..k], [t[k]] + t[k + 1..]);
    SumConcat([t[k]], t[k + 1..]);
    SumConcat(t[..k], t[k + 1..]);
  }

  /** Rearranging the input does not change sum, max or min. */
  lemma {:induction false} SumPermutationInvariant(s: seq<int>, t: seq<int>)
    requires multiset(s) == multiset(t)
    ensures Sum(s) == Sum(t)
    decreases |s|
  {
    if |s| > 0 {
      assert s[0] in multiset(t);
      var k :| 0 <= k < |t| && t[k] == s[0];
      MultisetRemove(t, k);
      MultisetRemove(s, 0);
      assert s[..0] + s[1..] == s[1..];
      SumPermutationInvariant(s[1..], t[..k] + t[k + 1..]);
      SumRemove(t, k);
      SumRemove(s, 0);
    }
  }

  lemma MaxMinPermutationInvariant(s: seq<int>, t: seq<int>)
    requires multiset(s) == multiset(t)
    ensures Max(s) == Max(t) && Min(s) == Min(t)
  {
    assert |s| == |multiset(s)| == |t|;
    if |s| > 0 {
      assert forall x :: x in s <==> x in t by {
        forall x ensures x in s <==> x in t {
          assert x in s <==> x in multiset(s);
          assert x in t <==> x in multiset(t);
        }
      }
    }
  }

  lemma FoldExamples()
    ensures Fold(Plus, 5, [1, 2, 3, 4, 5, 6, 7, 8, 9, 10]) == 60
    ensures Fold(Plus, 0, [1, 2, 3, 4, 5, 6, 7, 8, 9, 10]) == 55
    ensures Fold(Minus, 5, [1, 2, 3, 4, 5, 6, 7, 8, 9, 10]) == -50
    ensures Fold(Plus, 7, []) == 7
  {
  }

  lemma SumExamples()
    ensures Sum([1, 2, 3, 4, 5, 6, 7, 8, 9, 10]) == 55
    ensures Sum([10, 9, 8, 7, 6, 5, 4, 3, 2, 1]) == 55
    ensures Sum([5, 5, 5, 5, 5]) == 25
    ensures Sum([]) == 0
  {
  }

  lemma CountExamples()
    ensures Count(5, [5, 5, 5, 5, 5]) == 5
    ensures Count(4, [5, 5, 5, 5, 5]) == 0
    ensures Count(3, []) == 0
    ensures Size([1, 2, 3, 4, 5, 6, 7, 8, 9, 10]) == 10 && Size<int>([]) == 0
  {
    CountBounds(5, [5, 5, 5, 5, 5]);
    CountBounds(4, [5, 5, 5, 5, 5]);
  }

  lemma MaxMinExamples()
    ensures Max([1, 2, 3, 4, 5, 6, 7, 8, 9, 10]) == Ok(10)
    ensures Min([10, 9, 8, 7, 6, 5, 4, 3, 2, 1]) == Ok(1)
    ensures Max([]) == Err(EmptySequence) && Min([]) == Err(EmptySequence)
  {
    var t := [1, 2, 3, 4, 5, 6, 7, 8, 9, 10];
    assert t[9] == 10;
    var u := [10, 9, 8, 7, 6, 5, 4, 3, 2, 1];
    assert u[9] == 1;
  }
}

=== FILE: order.dfy ===
/** include/stp/order: sort, sort_with and reverse. */
module Order {
  import opened Sequences
  import StdAlgorithms

  /** operator< on int, the comparator std::sort uses by default. */
  function IntLess(a: int, b: int): bool { a < b }

  lemma IntLessIsStrictOrder()
    ensures StrictOrder(IntLess)
  {
  }

  /** sort() takes the caller's sequence by reference, runs std::sort on
      it in place and returns it. The pair holds the caller's sequence after
      the call and the returned sequence. */
  function SortInPlace(sequence: seq<int>): (c: (seq<int>, seq<int>))
    ensures Sorted(c.0)
    ensures multiset(c.0) == multiset(sequence)
    ensures c.1 == c.0
  {
    IntLessIsStrictOrder();
    StdAlgorithms.SortSorted(sequence, IntLess);
    var after := StdAlgorithms.Sort(sequence, IntLess);
    (after, after)
  }

  /** sort() applied to a copy of the input: the input's elements in
      non-decreasing order. */
  function Sort(s: seq<int>): (r: seq<int>)
    ensures Sorted(r)
    ensures multiset(r) == multiset(s)
  {
    SortInPlace(s).1
  }

  /** sort_with(less): std::sort with a caller's comparator, in place on the
      caller's sequence. The source defines the call only for a strict
      weak ordering; the model's sort returns a permutation for any
      comparator, ordered by less when less is a strict partial order
      (SortWithOrdered). */
  function SortWithInPlace<T>(less: (T, T) -> bool, sequence: seq<T>): (c: (seq<T>, seq<T>))
    ensures multiset(c.0) == multiset(sequence)
    ensures c.1 == c.0
  {
    var after := StdAlgorithms.Sort(sequence, less);
    (after, after)
  }

  /** sort_with(less) applied to a copy of the input. */
  function SortWith<T>(less: (T, T) -> bool, s: seq<T>): (r: seq<T>)
    ensures multiset(r) == multiset(s)
  {
    SortWithInPlace(less, s).1
  }

  /** reverse(): std::reverse on the copy taken by value. */
  function Reverse<T>(s: seq<T>): (r: seq<T>)
    ensures |r| == |s|
    ensures forall i :: 0 <= i < |s| ==> r[i] == s[|s| - 1 - i]
  {
    StdAlgorithms.Reverse(s)
  }

  lemma SortWithOrdered<T(!new)>(less: (T, T) -> bool, s: seq<T>)
    requires StrictOrder(less)
    ensures SortedBy(less, SortWith(less, s))
  {
    StdAlgorithms.SortSorted(s, less);
  }

  /** The head of a sorted sequence is at most every element of it, and
      its tail stays sorted. */
  lemma SortedHead(a: seq<int>, x: int)
    requires Sorted(a) && x in a
    ensures a[0] <= x && Sorted(a[1..])
  {
  }

  /** Two sorted sequences with the same elements start with the same
      element, and their tails stay sorted. */
  lemma SortedSameHead(a: seq<int>, b: seq<int>)
    requires Sorted(a) && Sorted(b) && |a| > 0
    requires multiset(a) == multiset(b)
    ensures |b| > 0 && a[0] == b[0]
    ensures Sorted(a[1..]) && Sorted(b[1..])
  {
    assert a[0] in multiset(b);
    assert b[0] in multiset(a);
    SortedHead(a, b[0]);
    SortedHead(b, a[0]);
  }

  /** Taking the same head off two sequences with the same elements leaves
      tails with the same elements. */
  lemma SameTails<T>(a: seq<T>, b: seq<T>)
    requires |a| > 0 && |b| > 0 && a[0] == b[0]
    requires multiset(a) == multiset(b)
    ensures multiset(a[1..]) == multiset(b[1..])
  {
    MultisetRemove(a, 0);
    MultisetRemove(b, 0);
    assert a[..0] + a[1..] == a[1..] && b[..0] + b[1..] == b[1..];
  }

  /** Two sorted sequences with the same elements are the same sequence. */
  lemma {:induction false} SortedPermutationUnique(a: seq<int>, b: seq<int>)
    requires Sorted(a) && Sorted(b)
    requires multiset(a) == multiset(b)
    ensures a == b
    decreases |a|
  {
    if |a| > 0 {
      SortedSameHead(a, b);
      SameTails(a, b);
      SortedPermutationUnique(a[1..], b[1..]);
      assert a == [a[0]] + a[1..] && b == [b[0]] + b[1..];
    } else {
      assert |b| == |multiset(b)| == |multiset(a)| == 0;
    }
  }

  /** sort depends only on the multiset of its input. */
  lemma SortPermutationInvariant(s: seq<int>, t: seq<int>)
    requires multiset(s) == multiset(t)
    ensures Sort(s) == Sort(t)
  {
    SortedPermutationUnique(Sort(s), Sort(t));
  }

  /** An already sorted input is returned unchanged, so sort is idempotent. */
  lemma SortOfSorted(s: seq<int>)
    requires Sorted(s)
    ensures Sort(s) == s
  {
    SortedPermutationUnique(Sort(s), s);
  }

  lemma SortIdempotent(s: seq<int>)
    ensures Sort(Sort(s)) == Sort(s)
  {
    SortOfSorted(Sort(s));
  }

  lemma ReverseInvolution<T>(s: seq<T>)
    ensures Reverse(Reverse(s)) == s
  {
  }

  /** reverse only rearranges. */
  lemma {:induction false} ReversePermutes<T>(s: seq<T>)
    ensures multiset(Reverse(s)) == multiset(s)
    decreases |s|
  {
    if |s| > 0 {
      ReversePermutes(s[1..]);
      assert StdAlgorithms.Reverse(s) == StdAlgorithms.Reverse(s[1..]) + [s[0]];
      assert s == [s[0]] + s[1..];
    }
  }

  /** A sequence of one repeated value is its own reverse. */
  lemma ReverseConstant<T>(v: T, s: seq<T>)
    requires forall i :: 0 <= i < |s| ==> s[i] == v
    ensures Reverse(s) == s
  {
  }

  /** 1..10 reversed is 10..1. */
  lemma ReverseExample()
    ensures Reverse([1, 2, 3, 4, 5, 6, 7, 8, 9, 10]) == [10, 9, 8, 7, 6, 5, 4, 3, 2, 1]
  {
  }

  /** Sorting a reversed sorted sequence gives it back. */
  lemma SortReversedSorted(t: seq<int>)
    requires Sorted(t)
    ensures Sort(Reverse(t)) == t
  {
    ReversePermutes(t);
    SortPermutationInvariant(Reverse(t), t);
    SortOfSorted(t);
  }

  lemma SortDescendingExample()
    ensures Sort([10, 9, 8, 7, 6, 5, 4, 3, 2, 1]) == [1, 2, 3, 4, 5, 6, 7, 8, 9, 10]
  {
    ReverseExample();
    SortReversedSorted([1, 2, 3, 4, 5, 6, 7, 8, 9, 10]);
  }

  lemma SortedExample()
    ensures Sort([1, 2, 3]) == [1, 2, 3]
    ensures Sort([]) == [] && Reverse<int>([]) == []
  {
    SortOfSorted([1, 2, 3]);
  }

  /** A shuffled input sorts to its ordered arrangement: 3, 1, 2 has the
      elements of 1, 2, 3, so both sort alike, and 1, 2, 3 is already
      sorted. */
  lemma SortShuffledExample()
    ensures Sort([3, 1, 2]) == [1, 2, 3]
  {
    SortedExample();
    assert multiset([3, 1, 2]) == multiset([1, 2, 3]);
    SortPermutationInvariant([3, 1, 2], [1, 2, 3]);
  }
}

=== FILE: partial_ops.dfy ===
/** The stage bodies that stp/transformations.hpp and
    include/stp/transformations.hpp share: the two files differ only in the
    wrapper (partial_query or PartialTransformation) whose vector they work
    on. take and where there are the same conditional erase and remove_if as
    in include/stp/transformation (Transformation.Take, Transformation.KeepIf);
    sum is a for_each loop of its own. */
module PartialOps {
  import opened Sequences
  import Transformation
  import Filters
  import NumReductions

  /** The for_each loop of sum: sum += i for each element in turn. */
  function AddEach(sum: int, s: seq<int>): (r: int)
    ensures r == sum + NumReductions.SumOf(s)
    decreases |s|
  {
    if |s| == 0 then sum else AddEach(sum + s[0], s[1..])
  }

  /** Sum(): the loop from the value-initialised 0. */
  function Sum(s: seq<int>): (r: int)
    ensures |s| == 0 ==> r == 0
    ensures r == NumReductions.Sum(s)
  {
    AddEach(0, s)
  }

  /** Take(n): data().size() >= n decides whether to erase. */
  function Take<T>(n: nat, s: seq<T>): (r: seq<T>)
    ensures |s| < n ==> r == s
    ensures r == Filters.Take(n, s)
  {
    Transformation.Take(n, s)
  }

  /** Where(p): remove_if with the negated predicate, then erase. */
  function Where<T>(p: T -> bool, s: seq<T>): (r: seq<T>)
    ensures r == Filters.Where(p, s)
  {
    Transformation.KeepIf(p, s)
  }

  /** Count(): data().size(), the number of elements. */
  function Count<T>(s: seq<T>): (n: nat)
    ensures n == NumReductions.Size(s)
  {
    |s|
  }
}

=== FILE: partial_transformations.dfy ===
/** include/stp/transformations.hpp, include/stp/stl_transformations.hpp and
    include/stp/sequence_sources.hpp: a generation written against a wrapper
    named PartialTransformation. No definition of that class exists in the
    repository; it is modelled as partial_query is in stp/core.hpp, a
    wrapper around a copied vector. */
module PartialTransformations {
  import opened Sequences
  import Misc
  import Filters
  import NumReductions
  import Generators
  import PartialOps

  datatype PartialTransformation<T> = PartialTransformation(data: seq<T>)

  /** The iterator-range constructor, assumed to copy like partial_query's. */
  function FromIterators<T>(elems: seq<T>): (pt: PartialTransformation<T>)
    ensures pt.data == elems
  {
    PartialTransformation(Misc.PushAll([], elems))
  }

  /** from_container: the container's elements from begin to end. */
  function FromContainer<T>(container: seq<T>): (pt: PartialTransformation<T>)
    ensures pt.data == container
  {
    FromIterators(container)
  }

  /** from_array: the N elements from the array's start to start + N. The
      array is a sequence of length N. */
  function FromArray<T>(arr: seq<T>): (pt: PartialTransformation<T>)
    ensures |pt.data| == |arr|
    ensures forall i :: 0 <= i < |arr| ==> pt.data[i] == arr[i]
  {
    var n := |arr|;
    FromIterators(arr[0..n])
  }

  /** The largest unsigned int plus one. */
  const UintRange: int := 0x1_0000_0000

  /** An int argument passed to an unsigned int parameter: a negative value
      wraps around to value + 2^32. */
  function ToUnsigned(x: int): (u: nat)
    requires -0x8000_0000 <= x < 0x8000_0000
    ensures u < UintRange
    ensures u % UintRange == x % UintRange
  {
    if x < 0 then x + UintRange else x
  }

  /** from_range(start, end, step) with an unsigned step. A zero step, or a
      step larger than |end - start| compared as unsigned, gives an empty
      wrapper; start == end pushes start (unreachable, as step is then
      larger than the distance 0); otherwise the loop counts towards end. */
  function FromRangeUnsigned(start: int, end: int, step: nat): (pt: PartialTransformation<int>)
    requires step < UintRange
    ensures pt.data == Generators.Range(start, end, step)
  {
    var elems :=
      if step == 0 || Abs(end - start) < step then []
      else if start == end then [start]
      else if start < end then Generators.Ascend(start, end, step)
      else Generators.Descend(start, end, step);
    FromContainer(elems)
  }

  /** FromRange(start, end, step = 1): the int step is handed to the
      unsigned parameter of from_range. */
  function FromRange(start: int, end: int, step: int): (pt: PartialTransformation<int>)
    requires -0x8000_0000 <= step < 0x8000_0000
    ensures step >= 0 ==> pt.data == Generators.Range(start, end, step)
  {
    FromRangeUnsigned(start, end, ToUnsigned(step))
  }

  /** A negative step becomes an unsigned step of at least 2^31, larger than
      any distance between two ints whose difference does not overflow, so
      the range is empty: the live range with the same negative step would
      not terminate. */
  lemma FromRangeNegativeStep(start: int, end: int, step: int)
    requires -0x8000_0000 <= step < 0
    requires Abs(end - start) < 0x8000_0000
    ensures FromRange(start, end, step).data == []
  {
    assert ToUnsigned(step) >= 0x8000_0000;
  }

  /** The default step 1 gives |end - start| consecutive values; start ==
      end gives an empty wrapper. */
  lemma FromRangeDefaultStep(start: int, end: int)
    ensures FromRange(start, end, 1).data == Generators.Range2(start, end)
    ensures |FromRange(start, end, 1).data| == Abs(end - start)
    ensures FromRange(start, start, 1).data == []
  {
    assert FromRange(start, end, 1).data == Generators.Range(start, end, 1);
  }

  /** Sum(): the for_each += loop from 0. */
  function Sum(pt: PartialTransformation<int>): (r: int)
    ensures r == NumReductions.Sum(pt.data)
  {
    PartialOps.Sum(pt.data)
  }

  /** Take(n): erases past n only when there are at least n elements. */
  function Take<T>(n: nat, pt: PartialTransformation<T>): (r: PartialTransformation<T>)
    ensures |pt.data| < n ==> r == pt
    ensures r.data == Filters.Take(n, pt.data)
  {
    PartialTransformation(PartialOps.Take(n, pt.data))
  }

  /** Where(p): the elements satisfying p, in order. */
  function Where<T>(p: T -> bool, pt: PartialTransformation<T>): (r: PartialTransformation<T>)
    ensures r.data == Filters.Where(p, pt.data)
  {
    PartialTransformation(PartialOps.Where(p, pt.data))
  }

  /** Count(): the number of elements, whatever their values. */
  function Count<T>(pt: PartialTransformation<T>): (n: nat)
    ensures n == |pt.data|
  {
    PartialOps.Count(pt.data)
  }

  /** ToVector: the held vector, moved out. */
  function ToVector<T>(pt: PartialTransformation<T>): (v: seq<T>)
    ensures v == pt.data
  {
    pt.data
  }

  /** ToList: a list built from the held vector's range. */
  function ToList<T>(pt: PartialTransformation<T>): (l: List<T>)
    ensures ListToSeq(l) == pt.data
  {
    Misc.ToList(pt.data)
  }

  function FromVector<T>(v: seq<T>): (pt: PartialTransformation<T>)
    ensures pt.data == v
  {
    FromIterators(v)
  }

  function FromList<T>(l: List<T>): (pt: PartialTransformation<T>)
    ensures pt.data == ListToSeq(l)
  {
    FromIterators(ListToSeq(l))
  }

  /** Converting to the wrapper and back gives the same vector, and the
      same list. */
  lemma RoundTrips<T>(v: seq<T>, l: List<T>)
    ensures ToVector(FromVector(v)) == v
    ensures ToList(FromList(l)) == l
    ensures FromVector(ToVector(FromVector(v))) == FromVector(v)
  {
    ListToSeqInjective(ToList(FromList(l)), l);
  }

  /** Take(1000) leaves ten elements whole and Take(0) empties them; Count
      counts every element. */
  lemma TakeCountExamples(pt: PartialTransformation<int>)
    requires |pt.data| == 10
    ensures Take(1000, pt) == pt && Take(0, pt).data == []
    ensures Count(pt) == 10
  {
  }
}

=== FILE: pipeline.dfy ===
/** include/stp/pipeline.hpp: make_stp chains stages left to right, and its
    result type is found by threading each stage's output type into the
    next stage. The model runs over a small universe of values: int
    sequences, sequences of int pairs, ints, bools, int lists and int maps. */
module Pipeline {
  import opened Wrappers
  import opened Sequences
  import Filters
  import Misc
  import SetOps
  import BoolReductions
  import Order
  import NumReductions

  datatype Ty = IntSeqT | PairSeqT | IntT | BoolT | IntListT | IntMapT

  datatype Value =
    | IntSeq(ints: seq<int>)
    | PairSeq(pairs: seq<(int, int)>)
    | Int(i: int)
    | Bool(b: bool)
    | IntList(list: List<int>)
    | IntMap(m: map<int, int>)

  function TypeOf(v: Value): Ty {
    match v
    case IntSeq(_) => IntSeqT
    case PairSeq(_) => PairSeqT
    case Int(_) => IntT
    case Bool(_) => BoolT
    case IntList(_) => IntListT
    case IntMap(_) => IntMapT
  }

  /** One stage of a pipeline: an operation with its captured arguments. */
  datatype Stage =
    | Take(n: nat)
    | Drop(n: nat)
    | TakeWhile(p: int -> bool)
    | DropWhile(p: int -> bool)
    | Where(p: int -> bool)
    | Zip(fixed: seq<int>)
    | MapInt(f: int -> int)
    | MapPair(g: ((int, int)) -> int)
    | Unique
    | ToList
    | ToVector
    | ToMap
    | Difference(fixed: seq<int>)
    | Intersect(fixed: seq<int>)
    | Join(fixed: seq<int>)
    | Equal(fixed: seq<int>)
    | Contains(v: int)
    | All(p: int -> bool)
    | Any(p: int -> bool)
    | Sort
    | SortWith(less: (int, int) -> bool)
    | Reverse
    | Fold(op: (int, int) -> int, init: int)
    | Count(v: int)
    | Max
    | Min
    | Sum
    | Size

  /** The type a stage returns on an input of type t, or None when the
      stage cannot be instantiated at t (the C++ overload does not exist). */
  function StageType(st: Stage, t: Ty): (r: Option<Ty>)
    ensures r.Some? ==> t == IntSeqT || t == PairSeqT
    ensures t == IntSeqT ==> (r.Some? <==> !(st.MapPair? || st.ToMap?))
  {
    match st
    case Take(_) | Drop(_) | Reverse | ToVector =>
      if t == IntSeqT || t == PairSeqT then Some(t) else None
    case Size =>
      if t == IntSeqT || t == PairSeqT then Some(IntT) else None
    case TakeWhile(_) | DropWhile(_) | Where(_) | MapInt(_) | Unique
      | Difference(_) | Intersect(_) | Join(_) | Sort | SortWith(_) =>
      if t == IntSeqT then Some(IntSeqT) else None
    case Zip(_) => if t == IntSeqT then Some(PairSeqT) else None
    case MapPair(_) => if t == PairSeqT then Some(IntSeqT) else None
    case ToList => if t == IntSeqT then Some(IntListT) else None
    case ToMap => if t == PairSeqT then Some(IntMapT) else None
    case Equal(_) | Contains(_) | All(_) | Any(_) =>
      if t == IntSeqT then Some(BoolT) else None
    case Fold(_, _) | Count(_) | Max | Min | Sum =>
      if t == IntSeqT then Some(IntT) else None
  }

  /** Runs one stage. An ill-typed stage is TypeMismatch (a compile-time
      error in the source); max and min of an empty sequence are
      EmptySequence (a range_error). */
  function Step(st: Stage, v: Value): (r: Result<Value>)
    ensures StageType(st, TypeOf(v)).None? <==> r == Err(TypeMismatch)
    ensures r.Ok? ==> StageType(st, TypeOf(v)) == Some(TypeOf(r.value))
    ensures StageType(st, TypeOf(v)).Some? && r.Err? ==>
      r.error == EmptySequence && (st == Max || st == Min) && v == IntSeq([])
  {
    if StageType(st, TypeOf(v)).None? then Err(TypeMismatch)
    else if v.PairSeq? then PairSeqStep(st, v.pairs)
    else IntSeqStep(st, v.ints)
  }

  /** The stages that accept a sequence of pairs, run on one. */
  function PairSeqStep(st: Stage, s: seq<(int, int)>): (r: Result<Value>)
    requires StageType(st, PairSeqT).Some?
    ensures r.Ok? && StageType(st, PairSeqT) == Some(TypeOf(r.value))
  {
    match st
    case Take(n) => Ok(PairSeq(Filters.Take(n, s)))
    case Drop(n) => Ok(PairSeq(Filters.Drop(n, s)))
    case Reverse => Ok(PairSeq(Order.Reverse(s)))
    case ToVector => Ok(PairSeq(Misc.ToVector(s)))
    case Size => Ok(Int(NumReductions.Size(s)))
    case MapPair(g) => Ok(IntSeq(Misc.Map(g, s)))
    case ToMap => Ok(IntMap(Misc.ToMap(s)))
  }

  /** The stages that accept an int sequence, run on one. */
  function IntSeqStep(st: Stage, s: seq<int>): (r: Result<Value>)
    requires StageType(st, IntSeqT).Some?
    ensures r.Ok? ==> StageType(st, IntSeqT) == Some(TypeOf(r.value))
    ensures r.Err? ==> r == Err(EmptySequence) && (st == Max || st == Min) && s == []
  {
    match StageType(st, IntSeqT).value
    case IntSeqT => Ok(IntSeq(Transform(st, s)))
    case BoolT => Ok(Bool(Test(st, s)))
    case IntT => (match Reduce(st, s) case Ok(x) => Ok(Int(x)) case Err(e) => Err(e))
    case PairSeqT => Ok(PairSeq(Misc.Zip(st.fixed, s)))
    case IntListT => Ok(IntList(Misc.ToList(s)))
    case IntMapT => assert false; Err(TypeMismatch)
  }

  /** The stages from an int sequence to an int sequence. */
  function Transform(st: Stage, s: seq<int>): seq<int>
    requires StageType(st, IntSeqT) == Some(IntSeqT)
  {
    match st
    case Take(n) => Filters.Take(n, s)
    case Drop(n) => Filters.Drop(n, s)
    case TakeWhile(p) => Filters.TakeWhile(p, s)
    case DropWhile(p) => Filters.DropWhile(p, s)
    case Where(p) => Filters.Where(p, s)
    case MapInt(f) => Misc.Map(f, s)
    case Unique => Misc.Unique(s)
    case ToVector => Misc.ToVector(s)
    case Difference(fixed) => SetOps.Difference(fixed, s)
    case Intersect(fixed) => SetOps.Intersect(fixed, s)
    case Join(fixed) => SetOps.Join(fixed, s)
    case Sort => Order.Sort(s)
    case SortWith(less) => Order.SortWith(less, s)
    case Reverse => Order.Reverse(s)
  }

  /** The bool reductions. */
  function Test(st: Stage, s: seq<int>): bool
    requires StageType(st, IntSeqT) == Some(BoolT)
  {
    match st
    case Equal(fixed) => BoolReductions.Equal(fixed, s)
    case Contains(x) => BoolReductions.Contains(x, s)
    case All(p) => BoolReductions.All(p, s)
    case Any(p) => BoolReductions.Any(p, s)
  }

  /** The numeric reductions; only max and min can fail. */
  function Reduce(st: Stage, s: seq<int>): (r: Result<int>)
    requires StageType(st, IntSeqT) == Some(IntT)
    ensures r.Err? ==> r == Err(EmptySequence) && (st == Max || st == Min) && s == []
  {
    match st
    case Fold(op, init) => Ok(NumReductions.Fold(op, init, s))
    case Count(x) => Ok(NumReductions.Count(x, s))
    case Max => NumReductions.Max(s)
    case Min => NumReductions.Min(s)
    case Sum => Ok(NumReductions.Sum(s))
    case Size => Ok(NumReductions.Size(s))
  }

  /** return_type: each stage's output type becomes the next stage's input
      type; None when some stage does not accept what it is given. */
  function ResultType(stages: seq<Stage>, t: Ty): (r: Option<Ty>)
    requires |stages| > 0
    ensures r.Some? ==> StageType(stages[0], t).Some?
    ensures r.Some? ==> var last := stages[|stages| - 1]; exists u :: StageType(last, u) == r
    decreases |stages|
  {
    match StageType(stages[0], t)
    case None => None
    case Some(u) =>
      if |stages| == 1 then
        assert StageType(stages[|stages| - 1], t) == Some(u);
        Some(u)
      else
        assert stages[1..][|stages| - 2] == stages[|stages| - 1];
        ResultType(stages[1..], u)
  }

  /** Whether a stage's call operator takes the sequence by non-const
      reference, as take, drop, take_while, drop_while, sort and sort_with
      do: such a parameter binds an lvalue only, never a temporary. */
  predicate BindsLvalueOnly(st: Stage)
  {
    st.Take? || st.Drop? || st.TakeWhile? || st.DropWhile? || st.Sort? || st.SortWith?
  }

  /** No stage of the list binds an lvalue only. */
  predicate NoLvalueOnlyStage(stages: seq<Stage>)
  {
    forall i :: 0 <= i < |stages| ==> !BindsLvalueOnly(stages[i])
  }

  /** The stage typing as pipeline.hpp writes it. op_return_type, and the
      return_type of the last stage, are std::result_of<OpType(SequenceType)>,
      which asks for the call on an rvalue of the sequence type; and each
      nested operator() deduces its SequenceType by value, so no stage is
      ever asked about an lvalue. A stage that binds an lvalue only therefore
      has no result type at any position and any input, and the pipeline
      that holds it does not compile. StageType is the typing the pipeline
      evidently intends: each stage applied to the copy operator() holds. */
  function StageTypeAsWritten(st: Stage, t: Ty): (r: Option<Ty>)
    ensures r.Some? <==> StageType(st, t).Some? && !BindsLvalueOnly(st)
    ensures r.Some? ==> r == StageType(st, t)
  {
    if BindsLvalueOnly(st) then None else StageType(st, t)
  }

  /** return_type threaded with the as-written stage typing. */
  function ResultTypeAsWritten(stages: seq<Stage>, t: Ty): (r: Option<Ty>)
    requires |stages| > 0
    ensures r.Some? ==> StageTypeAsWritten(stages[0], t).Some?
    decreases |stages|
  {
    match StageTypeAsWritten(stages[0], t)
    case None => None
    case Some(u) =>
      if |stages| == 1 then Some(u) else ResultTypeAsWritten(stages[1..], u)
  }

  /** As written, a pipeline types exactly when it types under the intended
      typing and none of its stages binds an lvalue only; when it types, the
      two typings agree. */
  lemma {:induction false} AsWrittenRefusesInPlaceStages(stages: seq<Stage>, t: Ty)
    requires |stages| > 0
    ensures ResultTypeAsWritten(stages, t).Some? <==>
      ResultType(stages, t).Some? && NoLvalueOnlyStage(stages)
    ensures ResultTypeAsWritten(stages, t).Some? ==>
      ResultTypeAsWritten(stages, t) == ResultType(stages, t)
    decreases |stages|
  {
    if BindsLvalueOnly(stages[0]) {
      assert !NoLvalueOnlyStage(stages);
    } else if StageType(stages[0], t).Some? {
      var u := StageType(stages[0], t).value;
      if |stages| == 1 {
        assert NoLvalueOnlyStage(stages);
      } else {
        AsWrittenRefusesInPlaceStages(stages[1..], u);
        if NoLvalueOnlyStage(stages[1..]) {
          forall i | 0 <= i < |stages|
            ensures !BindsLvalueOnly(stages[i])
          {
            if i > 0 {
              assert stages[i] == stages[1..][i - 1];
            }
          }
        }
        if NoLvalueOnlyStage(stages) {
          forall i | 0 <= i < |stages| - 1
            ensures !BindsLvalueOnly(stages[1..][i])
          {
            assert stages[1..][i] == stages[i + 1];
          }
        }
      }
    }
  }

  /** make_stp(take(8), take(2), take(1), sum()) as pipeline.hpp writes it
      has no return type on a vector, so it does not compile; under the
      intended typing it returns an int. */
  lemma TakeTakeSumIllTyped()
    ensures ResultTypeAsWritten([Take(8), Take(2), Take(1), Sum], IntSeqT).None?
    ensures ResultType([Take(8), Take(2), Take(1), Sum], IntSeqT) == Some(IntT)
  {
    var p := [Take(8), Take(2), Take(1), Sum];
    assert p[1..] == [Take(2), Take(1), Sum];
    assert p[1..][1..] == [Take(1), Sum];
    assert p[1..][1..][1..] == [Sum];
  }

  /** make_stp(op, rest...)(input): the single-stage specialisation calls
      its operation; otherwise the first operation runs and its output is
      handed to the rest of the pipeline. An error stops the run. */
  function Apply(stages: seq<Stage>, v: Value): (r: Result<Value>)
    requires |stages| > 0
    ensures r.Ok? ==> ResultType(stages, TypeOf(v)) == Some(TypeOf(r.value))
    ensures StageType(stages[0], TypeOf(v)).None? ==> r == Err(TypeMismatch)
    decreases |stages|
  {
    if |stages| == 1 then Step(stages[0], v)
    else
      match Step(stages[0], v)
      case Err(e) => Err(e)
      case Ok(w) => Apply(stages[1..], w)
  }

  /** The stages the examples below use, run on their input type. */
  lemma StepWhere(p: int -> bool, s: seq<int>)
    ensures Step(Where(p), IntSeq(s)) == Ok(IntSeq(Filters.Where(p, s)))
  {
    assert IntSeqStep(Where(p), s) == Ok(IntSeq(Filters.Where(p, s)));
  }

  lemma StepSum(s: seq<int>)
    ensures Step(Sum, IntSeq(s)) == Ok(Int(NumReductions.Sum(s)))
  {
    assert Reduce(Sum, s) == Ok(NumReductions.Sum(s));
    assert IntSeqStep(Sum, s) == Ok(Int(NumReductions.Sum(s)));
  }

  lemma StepZip(fixed: seq<int>, s: seq<int>)
    ensures Step(Zip(fixed), IntSeq(s)) == Ok(PairSeq(Misc.Zip(fixed, s)))
  {
    assert IntSeqStep(Zip(fixed), s) == Ok(PairSeq(Misc.Zip(fixed, s)));
  }

  lemma StepMapPair(g: ((int, int)) -> int, s: seq<(int, int)>)
    ensures Step(MapPair(g), PairSeq(s)) == Ok(IntSeq(Misc.Map(g, s)))
  {
    assert PairSeqStep(MapPair(g), s) == Ok(IntSeq(Misc.Map(g, s)));
  }

  /** A one-stage pipeline is exactly its operation. */
  lemma ApplySingle(st: Stage, v: Value)
    ensures Apply([st], v) == Step(st, v)
  {
  }

  /** A longer pipeline runs its first stage first and feeds the rest. */
  lemma ApplyCons(st: Stage, rest: seq<Stage>, v: Value)
    requires |rest| > 0
    ensures Step(st, v).Err? ==> Apply([st] + rest, v) == Step(st, v)
    ensures Step(st, v).Ok? ==> Apply([st] + rest, v) == Apply(rest, Step(st, v).value)
  {
    assert ([st] + rest)[1..] == rest;
  }

  /** Cutting a pipeline anywhere composes: running a ++ b is running a and
      then b on its output. */
  lemma {:induction false} ApplySplit(a: seq<Stage>, b: seq<Stage>, v: Value)
    requires |a| > 0 && |b| > 0
    ensures Apply(a, v).Err? ==> Apply(a + b, v) == Apply(a, v)
    ensures Apply(a, v).Ok? ==> Apply(a + b, v) == Apply(b, Apply(a, v).value)
    decreases |a|
  {
    assert (a + b)[0] == a[0];
    if |a| == 1 {
      assert (a + b)[1..] == b;
    } else {
      assert (a + b)[1..] == a[1..] + b;
      if Step(a[0], v).Ok? {
        ApplySplit(a[1..], b, Step(a[0], v).value);
      }
    }
  }

  /** Threading types through a ++ b is threading through a, then b. */
  lemma {:induction false} ResultTypeSplit(a: seq<Stage>, b: seq<Stage>, t: Ty)
    requires |a| > 0 && |b| > 0
    ensures ResultType(a + b, t) ==
      (match ResultType(a, t) case None => None case Some(u) => ResultType(b, u))
    decreases |a|
  {
    assert (a + b)[0] == a[0];
    if |a| == 1 {
      assert (a + b)[1..] == b;
    } else {
      assert (a + b)[1..] == a[1..] + b;
      if StageType(a[0], t).Some? {
        ResultTypeSplit(a[1..], b, StageType(a[0], t).value);
      }
    }
  }

  /** Soundness: a pipeline that types at the input's type either yields a
      value of the predicted type or stops on an empty max or min; it never
      reports a mismatch. An ill-typed pipeline never yields a value. */
  lemma {:induction false} Soundness(stages: seq<Stage>, v: Value)
    requires |stages| > 0
    ensures ResultType(stages, TypeOf(v)).Some? ==>
      (Apply(stages, v).Ok? ==> TypeOf(Apply(stages, v).value) == ResultType(stages, TypeOf(v)).value)
    ensures ResultType(stages, TypeOf(v)).Some? && Apply(stages, v).Err? ==>
      Apply(stages, v).error == EmptySequence
    ensures ResultType(stages, TypeOf(v)).None? ==> Apply(stages, v).Err?
    decreases |stages|
  {
    if |stages| > 1 && Step(stages[0], v).Ok? {
      Soundness(stages[1..], Step(stages[0], v).value);
    }
  }

  function OneToTen(): seq<int> { [1, 2, 3, 4, 5, 6, 7, 8, 9, 10] }

  function IsEven(i: int): bool { i % 2 == 0 }

  function PairSum(p: (int, int)): int { p.0 + p.1 }

  /** take(8), take(2), take(1), sum on 1..10 gives 1 when each stage runs
      on the copy the pipeline holds. */
  lemma TakeTakeSumExample()
    ensures ResultType([Take(8), Take(2), Take(1), Sum], IntSeqT) == Some(IntT)
    ensures Apply([Take(8), Take(2), Take(1), Sum], IntSeq(OneToTen())) == Ok(Int(1))
  {
    TakeTakeSumIllTyped();
    var s := OneToTen();
    var p := [Take(8), Take(2), Take(1), Sum];
    assert s[..8][..2] == s[..2] && s[..2][..1] == [1];
    assert Step(p[0], IntSeq(s)) == Ok(IntSeq(s[..8]));
    assert Step(p[1], IntSeq(s[..8])) == Ok(IntSeq(s[..2]));
    assert Step(p[2], IntSeq(s[..2])) == Ok(IntSeq([1]));
    assert Step(p[3], IntSeq([1])) == Ok(Int(1));
    ApplyCons(p[0], p[1..], IntSeq(s));
    ApplyCons(p[1], p[2..], IntSeq(s[..8]));
    ApplyCons(p[2], p[3..], IntSeq(s[..2]));
    assert p[1..][1..] == p[2..] && p[2..][1..] == p[3..];
  }

  lemma WhereEvenExample()
    ensures Filters.Where(IsEven, OneToTen()) == [2, 4, 6, 8, 10]
  {
    var s := OneToTen();
    var keep := Holds(IsEven, s);
    assert keep[0] == IsEven(s[0]);
    assert keep[1] == IsEven(s[1]);
    assert keep[2] == IsEven(s[2]);
    assert keep[3] == IsEven(s[3]);
    assert keep[4] == IsEven(s[4]);
    assert keep[5] == IsEven(s[5]);
    assert keep[6] == IsEven(s[6]);
    assert keep[7] == IsEven(s[7]);
    assert keep[8] == IsEven(s[8]);
    assert keep[9] == IsEven(s[9]);
    assert keep == [false, true, false, true, false, true, false, true, false, true];
    EvensSelected(s);
  }

  lemma EvensSelected(s: seq<int>)
    requires s == OneToTen()
    ensures Select(s, [false, true, false, true, false, true, false, true, false, true]) == [2, 4, 6, 8, 10]
  {
  }

  lemma SumEvensExample()
    ensures NumReductions.Sum([2, 4, 6, 8, 10]) == 30
  {
  }

  /** where(even), sum on 1..10 gives 30. */
  lemma WhereSumExample(s: seq<int>)
    requires s == OneToTen()
    ensures Apply([Where(IsEven), Sum], IntSeq(s)) == Ok(Int(30))
  {
    var evens := Filters.Where(IsEven, s);
    WhereEvenExample();
    StepWhere(IsEven, s);
    SumEvensExample();
    StepSum(evens);
    ApplyCons(Where(IsEven), [Sum], IntSeq(s));
  }

  function TenToOne(): seq<int> { [10, 9, 8, 7, 6, 5, 4, 3, 2, 1] }

  function Elevens(): seq<int> { [11, 11, 11, 11, 11, 11, 11, 11, 11, 11] }

  lemma ZipMapExample()
    ensures Misc.Map(PairSum, Misc.Zip(TenToOne(), OneToTen())) == Elevens()
  {
  }

  lemma SumElevensExample()
    ensures NumReductions.Sum(Elevens()) == 110
  {
  }

  /** zip(range(10, 0)) on 1..10 followed by the pair sum gives ten 11s,
      which sum to 110. */
  lemma ZipMapSumExample(s: seq<int>, fixed: seq<int>)
    requires s == OneToTen() && fixed == TenToOne()
    ensures Apply([Zip(fixed), MapPair(PairSum)], IntSeq(s)) == Ok(IntSeq(Elevens()))
    ensures Apply([Zip(fixed), MapPair(PairSum), Sum], IntSeq(s)) == Ok(Int(110))
  {
    var z := Misc.Zip(fixed, s);
    var m := Misc.Map(PairSum, z);
    ZipMapExample();
    assert m == Elevens();
    SumElevensExample();
    StepZip(fixed, s);
    StepMapPair(PairSum, z);
    StepSum(m);
    ApplyCons(Zip(fixed), [MapPair(PairSum)], IntSeq(s));
    ApplyCons(Zip(fixed), [MapPair(PairSum), Sum], IntSeq(s));
    ApplyCons(MapPair(PairSum), [Sum], PairSeq(z));
    assert [Zip(fixed), MapPair(PairSum), Sum][1..] == [MapPair(PairSum), Sum];
  }
}

=== FILE: query.dfy ===
/** stp/core.hpp with stp/transformations.hpp and stp/stl_transformations.hpp:
    the earliest composition. A query starts from a partial_query (a copied
    vector) and runs its stages left to right through the recursive Query
    functions; every stage but the last must hand on a partial_query, and the
    last may end the query with a scalar, a vector or a list. */
module Query {
  import opened Wrappers
  import opened Sequences
  import Misc
  import Filters
  import NumReductions
  import PartialOps
  import Pipeline

  /** partial_query<T>: the vector a query's stages pass along. The copy
      and move constructors keep its elements. */
  datatype PartialQuery<T> = PartialQuery(data: seq<T>)

  /** The iterator-range constructor: std::copy into a back_inserter. */
  function FromElements<T>(elems: seq<T>): (pq: PartialQuery<T>)
    ensures pq.data == elems
  {
    PartialQuery(Misc.PushAll([], elems))
  }

  /** FromVector: a query over a copy of the vector. */
  function FromVector<T>(v: seq<T>): (pq: PartialQuery<T>)
    ensures pq.data == v
  {
    FromElements(v)
  }

  /** FromList: a query over the list's elements in order. */
  function FromList<T>(l: List<T>): (pq: PartialQuery<T>)
    ensures pq.data == ListToSeq(l)
  {
    FromElements(ListToSeq(l))
  }

  /** The stages of stp/transformations.hpp and stp/stl_transformations.hpp. */
  datatype QueryStage =
    | Sum
    | Take(n: nat)
    | Where(p: int -> bool)
    | Count
    | ToVector
    | ToList

  /** What a stage returns: a partial_query, a scalar, a vector or a list. */
  datatype QueryValue =
    | Partial(pq: PartialQuery<int>)
    | Scalar(x: int)
    | Vector(v: seq<int>)
    | IntList(l: List<int>)

  datatype QueryType = PartialT | ScalarT | VectorT | ListT

  function TypeOf(v: QueryValue): QueryType {
    match v
    case Partial(_) => PartialT
    case Scalar(_) => ScalarT
    case Vector(_) => VectorT
    case IntList(_) => ListT
  }

  /** The declared result type of each stage's call operator. */
  function OutType(st: QueryStage): QueryType {
    match st
    case Take(_) | Where(_) => PartialT
    case Sum | Count => ScalarT
    case ToVector => VectorT
    case ToList => ListT
  }

  /** One stage on the partial_query it receives by value. */
  function Run(st: QueryStage, pq: PartialQuery<int>): (v: QueryValue)
    ensures TypeOf(v) == OutType(st)
  {
    match st
    case Sum => Scalar(PartialOps.Sum(pq.data))
    case Take(n) => Partial(PartialQuery(PartialOps.Take(n, pq.data)))
    case Where(p) => Partial(PartialQuery(PartialOps.Where(p, pq.data)))
    case Count => Scalar(PartialOps.Count(pq.data))
    case ToVector => Vector(pq.data)
    case ToList => IntList(Misc.ToList(pq.data))
  }

  /** The recursive Query only accepts a partial_query: each unfolding
      hands the first stage's result to the rest, so every stage but the
      last must return one. */
  function Admissible(stages: seq<QueryStage>): (ok: bool)
    ensures ok <==>
      (|stages| > 0 && forall i :: 0 <= i < |stages| - 1 ==> OutType(stages[i]) == PartialT)
    decreases |stages|
  {
    if |stages| <= 1 then |stages| == 1
    else
      assert forall i :: 1 <= i < |stages| ==> stages[i] == stages[1..][i - 1];
      OutType(stages[0]) == PartialT && Admissible(stages[1..])
  }

  /** return_type: the result type of the first stage is threaded into the
      rest; the query has the type of its last stage. */
  function ReturnType(stages: seq<QueryStage>): (t: QueryType)
    requires |stages| > 0
    ensures t == OutType(stages[|stages| - 1])
    decreases |stages|
  {
    if |stages| == 1 then OutType(stages[0]) else ReturnType(stages[1..])
  }

  /** Query(pq, last) calls last on pq; Query(pq, first, rest...) calls
      first on pq and queries its result with the rest. */
  function Query(pq: PartialQuery<int>, stages: seq<QueryStage>): (v: QueryValue)
    requires Admissible(stages)
    ensures TypeOf(v) == ReturnType(stages)
    decreases |stages|
  {
    if |stages| == 1 then Run(stages[0], pq)
    else
      assert forall i :: 0 <= i < |stages| - 2 ==> stages[1..][i] == stages[i + 1];
      Query(Run(stages[0], pq).pq, stages[1..])
  }

  /** A one-stage query is its stage. */
  lemma QueryLast(pq: PartialQuery<int>, st: QueryStage)
    ensures Query(pq, [st]) == Run(st, pq)
  {
  }

  /** A longer query runs its first stage first and hands its output on. */
  lemma QueryCons(pq: PartialQuery<int>, st: QueryStage, rest: seq<QueryStage>)
    requires Admissible(rest) && OutType(st) == PartialT
    ensures Admissible([st] + rest)
    ensures Query(pq, [st] + rest) == Query(Run(st, pq).pq, rest)
  {
    assert ([st] + rest)[1..] == rest;
    assert forall i :: 1 <= i < |rest| + 1 ==> ([st] + rest)[i] == rest[i - 1];
  }

  /** A stage that returns a scalar, vector or list can only come last. */
  lemma TerminalOnlyLast(stages: seq<QueryStage>, i: int)
    requires 0 <= i < |stages| - 1 && OutType(stages[i]) != PartialT
    ensures !Admissible(stages)
  {
  }

  /** The live pipeline stage each query stage corresponds to: Count is
      size, not count. */
  function LiveStage(st: QueryStage): Pipeline.Stage {
    match st
    case Sum => Pipeline.Sum
    case Take(n) => Pipeline.Take(n)
    case Where(p) => Pipeline.Where(p)
    case Count => Pipeline.Size
    case ToVector => Pipeline.ToVector
    case ToList => Pipeline.ToList
  }

  function LiveStages(stages: seq<QueryStage>): (r: seq<Pipeline.Stage>)
    ensures |r| == |stages|
  {
    seq(|stages|, i requires 0 <= i < |stages| => LiveStage(stages[i]))
  }

  /** The live value each query value corresponds to: a partial_query and a
      vector are both an int sequence. */
  function LiveValue(v: QueryValue): Pipeline.Value {
    match v
    case Partial(pq) => Pipeline.IntSeq(pq.data)
    case Scalar(x) => Pipeline.Int(x)
    case Vector(s) => Pipeline.IntSeq(s)
    case IntList(l) => Pipeline.IntList(l)
  }

  /** Each stage computes what its live counterpart computes. */
  lemma RunAgrees(st: QueryStage, pq: PartialQuery<int>)
    ensures Pipeline.Step(LiveStage(st), Pipeline.IntSeq(pq.data)) == Ok(LiveValue(Run(st, pq)))
  {
    var s := pq.data;
    match st
    case Sum =>
      Pipeline.StepSum(s);
    case Take(n) =>
      assert Pipeline.IntSeqStep(Pipeline.Take(n), s) == Ok(Pipeline.IntSeq(Filters.Take(n, s)));
    case Where(p) =>
      Pipeline.StepWhere(p, s);
    case Count =>
      assert Pipeline.Reduce(Pipeline.Size, s) == Ok(NumReductions.Size(s));
      assert Pipeline.IntSeqStep(Pipeline.Size, s) == Ok(Pipeline.Int(NumReductions.Size(s)));
    case ToVector =>
      assert Pipeline.IntSeqStep(Pipeline.ToVector, s) == Ok(Pipeline.IntSeq(Misc.ToVector(s)));
    case ToList =>
      assert Pipeline.IntSeqStep(Pipeline.ToList, s) == Ok(Pipeline.IntList(Misc.ToList(s)));
  }

  /** A query and the live pipeline of the corresponding stages compute the
      same thing, so the query's stages also run strictly left to right. */
  lemma {:induction false} QueryAgreesWithPipeline(pq: PartialQuery<int>, stages: seq<QueryStage>)
    requires Admissible(stages)
    ensures Pipeline.Apply(LiveStages(stages), Pipeline.IntSeq(pq.data)) == Ok(LiveValue(Query(pq, stages)))
    decreases |stages|
  {
    var live := LiveStages(stages);
    RunAgrees(stages[0], pq);
    assert live[0] == LiveStage(stages[0]);
    if |stages| > 1 {
      var next := Run(stages[0], pq);
      assert next.Partial?;
      assert Admissible(stages[1..]) by {
        assert forall i :: 0 <= i < |stages| - 2 ==> stages[1..][i] == stages[i + 1];
      }
      assert live[1..] == LiveStages(stages[1..]);
      QueryAgreesWithPipeline(next.pq, stages[1..]);
    }
  }

  /** ToVector(FromVector(v)) gives v back, and ToList(FromList(l)) gives l
      back. */
  lemma RoundTrips(v: seq<int>, l: List<int>)
    ensures Query(FromVector(v), [ToVector]) == Vector(v)
    ensures Query(FromList(l), [ToList]) == IntList(l)
  {
    ListToSeqInjective(Misc.ToList(ListToSeq(l)), l);
  }

  /** Take(a), Take(b), Take(c), ToList keeps the first min(a, b, c)
      elements. */
  lemma TakeChain(pq: PartialQuery<int>, a: nat, b: nat, c: nat)
    ensures Admissible([Take(a), Take(b), Take(c), ToList])
    ensures ListToSeq(Query(pq, [Take(a), Take(b), Take(c), ToList]).l) ==
      pq.data[..Min(Min(Min(a, b), c), |pq.data|)]
  {
    var s := pq.data;
    var stages := [Take(a), Take(b), Take(c), ToList];
    assert stages[1..] == [Take(b), Take(c), ToList];
    assert stages[1..][1..] == [Take(c), ToList];
    assert stages[1..][1..][1..] == [ToList];
    var q1 := Run(Take(a), pq).pq;
    var q2 := Run(Take(b), q1).pq;
    var q3 := Run(Take(c), q2).pq;
    assert Query(pq, stages) == Query(q1, stages[1..]);
    assert Query(q1, stages[1..]) == Query(q2, stages[1..][1..]);
    assert Query(q2, stages[1..][1..]) == Query(q3, [ToList]);
    assert Query(q3, [ToList]) == IntList(Misc.ToList(q3.data));
    Filters.TakeTake(a, b, s);
    Filters.TakeTake(Min(a, b), c, s);
    assert q3.data == Filters.Take(c, Filters.Take(b, Filters.Take(a, s)));
  }

  /** Take(n), Count counts min(n, size) elements: Count is a length. */
  lemma TakeCount(pq: PartialQuery<int>, n: nat)
    ensures Query(pq, [Take(n), Count]) == Scalar(Min(n, |pq.data|))
  {
    assert [Take(n), Count][1..] == [Count];
  }

  /** Take(7), Take(5), Take(6), ToList on 1..11 lists 1..5. */
  lemma TakeChainExample(numbers: seq<int>)
    requires numbers == [1, 2, 3, 4, 5, 6, 7, 8, 9, 10, 11]
    ensures ListToSeq(Query(FromVector(numbers), [Take(7), Take(5), Take(6), ToList]).l) == [1, 2, 3, 4, 5]
  {
    TakeChain(FromVector(numbers), 7, 5, 6);
  }
}

=== FILE: ref_core.dfy ===
/** include/stp/core.hpp: an earlier make_stp. It composes the same way as
    the live pipeline, but it inspects, through functor_traits
    (include/stp/utility.hpp), how each stage declares its call operator:
    every stage must take the sequence by reference, and every stage but the
    last must also return it by reference, that is work in place. The
    wrapper takes the caller's sequence by value, so the in-place stages
    work on the wrapper's copy. */
module RefCore {
  import opened Wrappers
  import opened Pipeline
  import Filters
  import Order

  /** How a stage's call operator takes and returns the sequence. A
      const reference counts as a reference. */
  datatype Signature = Signature(takesByRef: bool, returnsByRef: bool)

  /** The declarations of the stages' call operators: the filters take,
      drop, take_while and drop_while and the sorts work in place; where and
      reverse take a copy and return it; all other stages read a const
      reference and return a new value. */
  function SignatureOf(st: Stage): (sig: Signature)
    ensures sig.returnsByRef ==> sig.takesByRef
    ensures sig.takesByRef <==> !(st.Where? || st.Reverse?)
    ensures sig.returnsByRef <==> BindsLvalueOnly(st)
  {
    match st
    case Take(_) | Drop(_) | TakeWhile(_) | DropWhile(_) | Sort | SortWith(_) =>
      Signature(true, true)
    case Where(_) | Reverse => Signature(false, false)
    case _ => Signature(true, false)
  }

  /** One stage's call operator invoked directly on the caller's object x,
      outside any pipeline. The pair holds the object afterwards and the
      value returned: a stage that returns by reference has left its result
      in x, every other stage leaves x as it was. */
  function StepInPlace(st: Stage, x: Value): (c: (Value, Result<Value>))
    ensures c.1 == Step(st, x)
    ensures SignatureOf(st).returnsByRef && c.1.Ok? ==> c.0 == c.1.value
    ensures !SignatureOf(st).returnsByRef ==> c.0 == x
  {
    if SignatureOf(st).returnsByRef && x.IntSeq? then
      var c := IntSeqInPlace(st, x.ints);
      StepTransform(st, x.ints);
      (IntSeq(c.0), Ok(IntSeq(c.1)))
    else if (st.Take? || st.Drop?) && x.PairSeq? then
      var c := if st.Take? then Filters.TakeInPlace(st.n, x.pairs)
               else Filters.DropInPlace(st.n, x.pairs);
      StepPairs(st, x.pairs);
      (PairSeq(c.0), Ok(PairSeq(c.1)))
    else
      (x, Step(st, x))
  }

  /** The in-place stages on an int sequence, each through its own
      in-place definition; what they return is what the pipeline's
      by-value step computes. */
  function IntSeqInPlace(st: Stage, s: seq<int>): (c: (seq<int>, seq<int>))
    requires SignatureOf(st).returnsByRef
    ensures StageType(st, IntSeqT) == Some(IntSeqT)
    ensures c.1 == c.0 && c.1 == Transform(st, s)
  {
    match st
    case Take(n) => Filters.TakeInPlace(n, s)
    case Drop(n) => Filters.DropInPlace(n, s)
    case TakeWhile(p) => Filters.TakeWhileInPlace(p, s)
    case DropWhile(p) => Filters.DropWhileInPlace(p, s)
    case Sort => Order.SortInPlace(s)
    case SortWith(less) => Order.SortWithInPlace(less, s)
  }

  lemma StepTransform(st: Stage, s: seq<int>)
    requires StageType(st, IntSeqT) == Some(IntSeqT)
    ensures Step(st, IntSeq(s)) == Ok(IntSeq(Transform(st, s)))
  {
    assert IntSeqStep(st, s) == Ok(IntSeq(Transform(st, s)));
  }

  lemma StepPairs(st: Stage, s: seq<(int, int)>)
    requires st.Take? || st.Drop?
    ensures st.Take? ==> Step(st, PairSeq(s)) == Ok(PairSeq(Filters.Take(st.n, s)))
    ensures st.Drop? ==> Step(st, PairSeq(s)) == Ok(PairSeq(Filters.Drop(st.n, s)))
  {
    assert PairSeqStep(st, s) == Step(st, PairSeq(s));
  }

  /** Calling take(5) and then take(6) on one object, as consecutive checks
      on the same fixture do, returns 1..5 from the second call; handing
      each a copy returns 1..6. */
  lemma DirectCallsCompound(s: seq<int>)
    requires s == [1, 2, 3, 4, 5, 6, 7, 8, 9, 10]
    ensures StepInPlace(Take(6), StepInPlace(Take(5), IntSeq(s)).0).1 == Ok(IntSeq([1, 2, 3, 4, 5]))
    ensures StepInPlace(Take(6), IntSeq(s)).1 == Ok(IntSeq([1, 2, 3, 4, 5, 6]))
  {
    Filters.InPlaceCallsCompound(s);
    StepTake(5, s);
    var first := StepInPlace(Take(5), IntSeq(s));
    assert first.0 == IntSeq(Filters.TakeInPlace(5, s).0);
    StepTake(6, Filters.TakeInPlace(5, s).0);
    StepTake(6, s);
  }

  function Last(stages: seq<Stage>): Stage
    requires |stages| > 0
  {
    stages[|stages| - 1]
  }

  /** The static_asserts of return_traits, checked stage by stage as
      stp_type unfolds: a non-terminal stage needs both a by-reference
      parameter and a by-reference result, the terminal stage only the
      by-reference parameter. */
  function Admits(stages: seq<Stage>): (ok: bool)
    requires |stages| > 0
    ensures ok <==>
      (forall i :: 0 <= i < |stages| ==> SignatureOf(stages[i]).takesByRef) &&
      (forall i :: 0 <= i < |stages| - 1 ==> SignatureOf(stages[i]).returnsByRef)
    decreases |stages|
  {
    var sig := SignatureOf(stages[0]);
    if |stages| == 1 then sig.takesByRef
    else
      var rest := Admits(stages[1..]);
      assert forall i :: 1 <= i < |stages| ==> stages[i] == stages[1..][i - 1];
      sig.takesByRef && sig.returnsByRef && rest
  }

  /** stp_type::operator()(input) on the object input refers to. The pair
      returned holds the object afterwards and the pipeline's result: an
      in-place stage leaves its output in the object and hands the same
      object on, a terminal stage that reads a const reference leaves the
      object as the stages before it made it. */
  function RunInPlace(stages: seq<Stage>, x: Value): (c: (Value, Result<Value>))
    requires |stages| > 0 && Admits(stages)
    ensures InPlaceOutcome(stages, x, c)
    decreases |stages|
  {
    var r := Step(stages[0], x);
    if |stages| == 1 then
      if SignatureOf(stages[0]).returnsByRef && r.Ok? then (r.value, r) else (x, r)
    else if r.Err? then
      (x, r)
    else
      var c := RunInPlace(stages[1..], r.value);
      InPlaceCons(stages, x, c);
      c
  }

  /** What the run leaves behind: the pipeline's result, and the object as
      the last stage that returned it by reference left it. */
  predicate InPlaceOutcome(stages: seq<Stage>, x: Value, c: (Value, Result<Value>))
    requires |stages| > 0
  {
    && c.1 == Apply(stages, x)
    && (c.1.Ok? && SignatureOf(Last(stages)).returnsByRef ==> c.0 == c.1.value)
    && (c.1.Ok? && !SignatureOf(Last(stages)).returnsByRef && |stages| == 1 ==> c.0 == x)
    && (c.1.Ok? && !SignatureOf(Last(stages)).returnsByRef && |stages| > 1 ==>
          Apply(stages[..|stages| - 1], x) == Ok(c.0))
  }

  /** The outcome of the rest of the pipeline, run on the first stage's
      output, is the outcome of the whole pipeline. */
  lemma InPlaceCons(stages: seq<Stage>, x: Value, c: (Value, Result<Value>))
    requires |stages| > 1 && Step(stages[0], x).Ok?
    requires InPlaceOutcome(stages[1..], Step(stages[0], x).value, c)
    ensures InPlaceOutcome(stages, x, c)
  {
    LastOfTail(stages);
    PrefixApply(stages, x);
  }

  lemma LastOfTail(stages: seq<Stage>)
    requires |stages| > 1
    ensures Last(stages[1..]) == Last(stages)
  {
  }

  /** Running all stages but the last is running the first, then all but
      the last of the rest. */
  lemma PrefixApply(stages: seq<Stage>, x: Value)
    requires |stages| > 1 && Step(stages[0], x).Ok?
    ensures |stages| > 2 ==>
      Apply(stages[..|stages| - 1], x) == Apply(stages[1..][..|stages| - 2], Step(stages[0], x).value)
    ensures |stages| == 2 ==> Apply(stages[..1], x) == Step(stages[0], x)
  {
    if |stages| > 2 {
      assert stages[..|stages| - 1][1..] == stages[1..][..|stages| - 2];
    }
  }

  /** stp_wrapper::operator()(input): the stages run on the wrapper's own
      copy of the input, so the caller's sequence is never the object they
      modify; the result is the live pipeline's result. */
  function Invoke(stages: seq<Stage>, input: Value): (r: Result<Value>)
    requires |stages| > 0 && Admits(stages)
    ensures r == Apply(stages, input)
  {
    var copy := input;
    RunInPlace(stages, copy).1
  }

  /** The result type threads through the stages as in the live pipeline,
      with the reference removed from the terminal stage's type; an
      admissible, well-typed pipeline yields a value of that type unless an
      empty max or min stops it. */
  lemma InvokeSound(stages: seq<Stage>, v: Value)
    requires |stages| > 0 && Admits(stages)
    requires ResultType(stages, TypeOf(v)).Some?
    ensures Invoke(stages, v).Ok? ==> TypeOf(Invoke(stages, v).value) == ResultType(stages, TypeOf(v)).value
    ensures Invoke(stages, v).Err? ==> Invoke(stages, v).error == EmptySequence
  {
    Soundness(stages, v);
  }

  /** A stage that takes its input by value (where, reverse) is refused
      anywhere in the pipeline, and a stage that returns a new value is
      refused anywhere but last. */
  lemma RefusedStages(stages: seq<Stage>, i: int)
    requires 0 <= i < |stages|
    ensures (stages[i].Where? || stages[i].Reverse?) ==> !Admits(stages)
    ensures i < |stages| - 1 && !SignatureOf(stages[i]).returnsByRef ==> !Admits(stages)
  {
  }

  /** Cutting an admissible pipeline leaves an admissible head whose every
      stage works in place, and an admissible tail. */
  lemma AdmitsSplit(a: seq<Stage>, b: seq<Stage>)
    requires |a| > 0 && |b| > 0 && Admits(a + b)
    ensures Admits(a) && Admits(b)
    ensures forall i :: 0 <= i < |a| ==> SignatureOf(a[i]).returnsByRef
  {
    assert forall i :: 0 <= i < |a| ==> a[i] == (a + b)[i];
    assert forall i :: 0 <= i < |b| ==> b[i] == (a + b)[|a| + i];
  }

  /** take(5), sort, sum is admitted: two in-place stages and a terminal
      reduction that reads a const reference. where, sum is refused, and so
      is sum followed by anything. */
  lemma AdmissionExamples(p: int -> bool)
    ensures Admits([Take(5), Sort, Sum])
    ensures !Admits([Where(p), Sum])
    ensures !Admits([Sum, Take(1)])
    ensures Admits([TakeWhile(p)]) && !Admits([Reverse])
  {
  }

  lemma StepTake(n: nat, s: seq<int>)
    ensures Step(Take(n), IntSeq(s)) == Ok(IntSeq(Filters.Take(n, s)))
  {
    assert IntSeqStep(Take(n), s) == Ok(IntSeq(Filters.Take(n, s)));
  }

  lemma StepSort(s: seq<int>)
    ensures Step(Sort, IntSeq(s)) == Ok(IntSeq(Order.Sort(s)))
  {
    assert Transform(Sort, s) == Order.Sort(s);
    assert IntSeqStep(Sort, s) == Ok(IntSeq(Order.Sort(s)));
  }

  lemma TakeSortApply(s: seq<int>)
    requires s == [3, 1, 2, 5]
    ensures Apply([Take(3), Sort], IntSeq(s)) == Ok(IntSeq([1, 2, 3]))
  {
    StepTake(3, s);
    assert Filters.Take(3, s) == [3, 1, 2];
    StepSort([3, 1, 2]);
    Order.SortShuffledExample();
    assert [Take(3), Sort][1..] == [Sort];
  }

  /** In take(3), sort on 3,1,2,5 the object ends sorted and is the result. */
  lemma InPlaceExample(s: seq<int>)
    requires s == [3, 1, 2, 5]
    ensures RunInPlace([Take(3), Sort], IntSeq(s)) == (IntSeq([1, 2, 3]), Ok(IntSeq([1, 2, 3])))
  {
    TakeSortApply(s);
    assert Last([Take(3), Sort]) == Sort;
  }
}

=== FILE: sequences.dfy ===
/** Vocabulary about finite sequences used to state the contracts of the
    operations: selection by a mask of positions, subsequences, orderings,
    and a cons list standing for std::list. */
module Sequences {

  function Min(a: int, b: int): int { if a <= b then a else b }

  function Abs(x: int): nat { if x < 0 then -x else x }

  /** The elements of s at the positions where keep holds, in their
      original order. */
  function Select<T>(s: seq<T>, keep: seq<bool>): (r: seq<T>)
    requires |keep| == |s|
    ensures |r| <= |s|
  {
    if |s| == 0 then [] else (if keep[0] then [s[0]] else []) + Select(s[1..], keep[1..])
  }

  /** The mask that keeps exactly the other positions. */
  function Negate(keep: seq<bool>): seq<bool> {
    seq(|keep|, i requires 0 <= i < |keep| => !keep[i])
  }

  /** The mask of the positions whose element satisfies p. */
  function Holds<T>(p: T -> bool, s: seq<T>): seq<bool> {
    seq(|s|, i requires 0 <= i < |s| => p(s[i]))
  }

  /** a can be obtained from b by deleting elements. */
  ghost predicate IsSubsequence<T>(a: seq<T>, b: seq<T>)
    decreases |b|
  {
    if |a| == 0 then true
    else if |b| == 0 then false
    else (a[0] == b[0] && IsSubsequence(a[1..], b[1..])) || IsSubsequence(a, b[1..])
  }

  predicate NoDuplicates<T(==)>(s: seq<T>) {
    forall i, j :: 0 <= i < j < |s| ==> s[i] != s[j]
  }

  /** No later element is strictly less than an earlier one. */
  predicate SortedBy<T>(less: (T, T) -> bool, s: seq<T>) {
    forall i, j :: 0 <= i < j < |s| ==> !less(s[j], s[i])
  }

  /** Irreflexive and transitive: a strict partial order. std::sort asks
      more of its comparator, a strict weak ordering, in which
      incomparability is transitive as well; every strict weak ordering is
      a strict partial order, and the insertion sort of the model already
      orders its result under this weaker condition. */
  ghost predicate StrictOrder<T(!new)>(less: (T, T) -> bool) {
    && (forall x :: !less(x, x))
    && (forall x, y, z :: less(x, y) && less(y, z) ==> less(x, z))
  }

  predicate Sorted(s: seq<int>) {
    forall i, j :: 0 <= i < j < |s| ==> s[i] <= s[j]
  }

  /** A keep-mask that holds everywhere selects the whole sequence. */
  lemma {:induction false} SelectAll<T>(s: seq<T>, keep: seq<bool>)
    requires |keep| == |s|
    requires forall i :: 0 <= i < |keep| ==> keep[i]
    ensures Select(s, keep) == s
    decreases |s|
  {
    if |s| > 0 {
      SelectAll(s[1..], keep[1..]);
      assert s == [s[0]] + s[1..];
    }
  }

  /** A keep-mask that holds nowhere selects nothing. */
  lemma {:induction false} SelectNone<T>(s: seq<T>, keep: seq<bool>)
    requires |keep| == |s|
    requires forall i :: 0 <= i < |keep| ==> !keep[i]
    ensures Select(s, keep) == []
    decreases |s|
  {
    if |s| > 0 {
      SelectNone(s[1..], keep[1..]);
    }
  }

  /** Every selected element sits at a kept position of s. */
  lemma {:induction false} SelectMembers<T>(s: seq<T>, keep: seq<bool>)
    requires |keep| == |s|
    ensures forall x :: x in Select(s, keep) ==> exists i :: 0 <= i < |s| && keep[i] && s[i] == x
    decreases |s|
  {
    if |s| > 0 {
      SelectMembers(s[1..], keep[1..]);
      forall x | x in Select(s, keep)
        ensures exists i :: 0 <= i < |s| && keep[i] && s[i] == x
      {
        if keep[0] && x == s[0] {
        } else {
          assert x in Select(s[1..], keep[1..]);
          var j :| 0 <= j < |s[1..]| && keep[1..][j] && s[1..][j] == x;
          assert keep[j + 1] && s[j + 1] == x;
        }
      }
    }
  }

  /** Every element at a kept position is selected. */
  lemma {:induction false} SelectComplete<T>(s: seq<T>, keep: seq<bool>, i: int)
    requires |keep| == |s|
    requires 0 <= i < |s| && keep[i]
    ensures s[i] in Select(s, keep)
    decreases |s|
  {
    if i > 0 {
      SelectComplete(s[1..], keep[1..], i - 1);
    }
  }

  /** Selecting with a mask and with its negation splits s into two parts
      whose lengths add up to |s|. */
  lemma {:induction false} SelectSplitsLength<T>(s: seq<T>, keep: seq<bool>)
    requires |keep| == |s|
    ensures |Select(s, keep)| + |Select(s, Negate(keep))| == |s|
    decreases |s|
  {
    if |s| > 0 {
      assert Negate(keep)[1..] == Negate(keep[1..]);
      SelectSplitsLength(s[1..], keep[1..]);
    }
  }

  /** A selection is an order-preserving subsequence. */
  lemma {:induction false} SelectIsSubsequence<T>(s: seq<T>, keep: seq<bool>)
    requires |keep| == |s|
    ensures IsSubsequence(Select(s, keep), s)
    decreases |s|
  {
    if |s| > 0 {
      SelectIsSubsequence(s[1..], keep[1..]);
      var rest := Select(s[1..], keep[1..]);
      if keep[0] {
        assert Select(s, keep) == [s[0]] + rest;
        assert ([s[0]] + rest)[1..] == rest;
      } else {
        assert Select(s, keep) == rest;
        SkipKeepsSubsequence(rest, s);
      }
    }
  }

  /** A subsequence of the tail of b is a subsequence of b. */
  lemma SkipKeepsSubsequence<T>(a: seq<T>, b: seq<T>)
    requires |b| > 0 && IsSubsequence(a, b[1..])
    ensures IsSubsequence(a, b)
  {
  }

  /** std::list, built by push_back. */
  datatype List<T> = Nil | Cons(head: T, tail: List<T>)

  function ListToSeq<T>(l: List<T>): seq<T> {
    match l
    case Nil => []
    case Cons(h, t) => [h] + ListToSeq(t)
  }

  /** list::push_back appends at the end. */
  function PushBack<T>(l: List<T>, x: T): (r: List<T>)
    ensures ListToSeq(r) == ListToSeq(l) + [x]
  {
    match l
    case Nil => Cons(x, Nil)
    case Cons(h, t) => Cons(h, PushBack(t, x))
  }

  /** Two lists with the same elements in the same order are the same list. */
  lemma {:induction false} ListToSeqInjective<T>(a: List<T>, b: List<T>)
    requires ListToSeq(a) == ListToSeq(b)
    ensures a == b
  {
    match a
    case Nil =>
    case Cons(x, rest) =>
      match b
      case Nil =>
      case Cons(y, rest') =>
        assert ListToSeq(rest) == ListToSeq(a)[1..] == ListToSeq(b)[1..] == ListToSeq(rest');
        ListToSeqInjective(rest, rest');
  }

  /** Taking out the element at k takes one copy of it out of the multiset. */
  lemma MultisetRemove<T>(t: seq<T>, k: int)
    requires 0 <= k < |t|
    ensures multiset(t[..k] + t[k + 1..]) == multiset(t) - multiset{t[k]}
  {
    assert t == t[..k] + [t[k]] + t[k + 1..];
  }
}

=== FILE: set_ops.dfy ===
/** include/stp/set: difference, intersect and join against a captured
    fixed sequence. Difference and intersect walk both sequences in step
    and compare position by position; they do not test membership. */
module SetOps {
  import opened Sequences

  /** Position i of s survives difference when the fixed sequence has
      already ended there or holds a different value. */
  function DifferenceMask<T(==)>(fixed: seq<T>, s: seq<T>): (keep: seq<bool>)
    ensures |keep| == |s|
  {
    seq(|s|, i requires 0 <= i < |s| => i >= |fixed| || s[i] != fixed[i])
  }

  /** Position i of s survives intersect when the fixed sequence reaches
      that far and holds the same value. */
  function IntersectMask<T(==)>(fixed: seq<T>, s: seq<T>): (keep: seq<bool>)
    ensures |keep| == |s|
  {
    seq(|s|, i requires 0 <= i < |s| => i < |fixed| && s[i] == fixed[i])
  }

  /** difference(fixed): once the fixed iterator is at its end every
      remaining element is pushed; before that an element is pushed when it
      differs from the fixed element at the same position, and both
      iterators advance. */
  function Difference<T(==)>(fixed: seq<T>, s: seq<T>): (r: seq<T>)
    ensures r == Select(s, DifferenceMask(fixed, s))
    decreases |s|
  {
    if |s| == 0 then []
    else if |fixed| == 0 then
      SelectAll(s, DifferenceMask(fixed, s));
      s
    else
      var rest := Difference(fixed[1..], s[1..]);
      assert DifferenceMask(fixed, s)[1..] == DifferenceMask(fixed[1..], s[1..]);
      (if s[0] != fixed[0] then [s[0]] else []) + rest
  }

  /** intersect(fixed): the loop runs while both iterators are inside their
      sequences and pushes the elements that equal their fixed partner. */
  function Intersect<T(==)>(fixed: seq<T>, s: seq<T>): (r: seq<T>)
    ensures r == Select(s, IntersectMask(fixed, s))
    decreases |s|
  {
    if |s| == 0 then []
    else if |fixed| == 0 then
      SelectNone(s, IntersectMask(fixed, s));
      []
    else
      var rest := Intersect(fixed[1..], s[1..]);
      assert IntersectMask(fixed, s)[1..] == IntersectMask(fixed[1..], s[1..]);
      (if s[0] == fixed[0] then [s[0]] else []) + rest
  }

  /** join(fixed): the input followed by the fixed sequence, inserted in
      that order into a result reserved for both. */
  function Join<T>(fixed: seq<T>, s: seq<T>): (r: seq<T>)
    ensures |r| == |s| + |fixed|
    ensures forall i :: 0 <= i < |s| ==> r[i] == s[i]
    ensures forall i :: 0 <= i < |fixed| ==> r[|s| + i] == fixed[i]
  {
    s + fixed
  }

  /** The membership characterisation of difference, position by position. */
  lemma DifferenceKeeps<T>(fixed: seq<T>, s: seq<T>, i: int)
    requires 0 <= i < |s|
    ensures s[i] in Difference(fixed, s) <== (i >= |fixed| || s[i] != fixed[i])
  {
    if i >= |fixed| || s[i] != fixed[i] {
      SelectComplete(s, DifferenceMask(fixed, s), i);
    }
  }

  /** Intersect keeps exactly the positions difference drops. */
  lemma IntersectComplementsDifference<T>(fixed: seq<T>, s: seq<T>)
    ensures IntersectMask(fixed, s) == Negate(DifferenceMask(fixed, s))
    ensures |Intersect(fixed, s)| + |Difference(fixed, s)| == |s|
  {
    SelectSplitsLength(s, DifferenceMask(fixed, s));
  }

  /** Intersect can only keep positions that both sequences have. */
  lemma {:induction false} IntersectLength<T>(fixed: seq<T>, s: seq<T>)
    ensures |Intersect(fixed, s)| <= Min(|s|, |fixed|)
    decreases |s|
  {
    if |s| > 0 && |fixed| > 0 {
      IntersectLength(fixed[1..], s[1..]);
    }
  }

  /** Every kept element of either operation is a positional match (or
      mismatch), in the input's order. */
  lemma SetOpsAreSubsequences<T>(fixed: seq<T>, s: seq<T>)
    ensures IsSubsequence(Difference(fixed, s), s)
    ensures IsSubsequence(Intersect(fixed, s), s)
  {
    SelectIsSubsequence(s, DifferenceMask(fixed, s));
    SelectIsSubsequence(s, IntersectMask(fixed, s));
  }

  /** A sequence has no positional mismatch with itself. */
  lemma DifferenceOfSelf<T>(s: seq<T>)
    ensures Difference(s, s) == []
    ensures Intersect(s, s) == s
  {
    SelectNone(s, DifferenceMask(s, s));
    SelectAll(s, IntersectMask(s, s));
  }

  /** Against an empty fixed sequence nothing is removed and nothing is
      matched. */
  lemma EmptyFixed<T>(s: seq<T>)
    ensures Difference([], s) == s
    ensures Intersect([], s) == []
  {
    SelectAll(s, DifferenceMask([], s));
    SelectNone(s, IntersectMask([], s));
  }

  lemma EmptyInput<T>(fixed: seq<T>)
    ensures Difference(fixed, []) == [] && Intersect(fixed, []) == []
    ensures Join(fixed, []) == fixed
  {
  }

  /** Positional, not set-like: against five 5s only the 5 at index 4 of
      1..10 is matched. */
  lemma DifferenceExample()
    ensures Difference([5, 5, 5, 5, 5], [1, 2, 3, 4, 5, 6, 7, 8, 9, 10]) == [1, 2, 3, 4, 6, 7, 8, 9, 10]
  {
    var f := [5, 5, 5, 5, 5];
    var s := [1, 2, 3, 4, 5, 6, 7, 8, 9, 10];
    EmptyFixed(s[5..]);
    assert Difference(f[4..], s[4..]) == Difference(f[5..], s[5..]);
    assert Difference(f[3..], s[3..]) == [4] + Difference(f[4..], s[4..]);
    assert Difference(f[2..], s[2..]) == [3] + Difference(f[3..], s[3..]);
    assert Difference(f[1..], s[1..]) == [2] + Difference(f[2..], s[2..]);
    assert Difference(f, s) == [1] + Difference(f[1..], s[1..]);
  }

  lemma IntersectExample()
    ensures Intersect([5, 5, 5, 5, 5], [1, 2, 3, 4, 5, 6, 7, 8, 9, 10]) == [5]
  {
    var f := [5, 5, 5, 5, 5];
    var s := [1, 2, 3, 4, 5, 6, 7, 8, 9, 10];
    assert f[5..] == [];
    EmptyFixed(s[5..]);
    assert Intersect(f[4..], s[4..]) == [5];
    assert Intersect(f[3..], s[3..]) == Intersect(f[4..], s[4..]);
    assert Intersect(f[2..], s[2..]) == Intersect(f[3..], s[3..]);
    assert Intersect(f[1..], s[1..]) == Intersect(f[2..], s[2..]);
    assert Intersect(f, s) == Intersect(f[1..], s[1..]);
  }

  lemma JoinExample()
    ensures Join([4, 4], [1, 2, 3]) == [1, 2, 3, 4, 4]
  {
  }
}

=== FILE: std_algorithms.dfy ===
/** The standard-library algorithms the headers delegate to, each stated by
    what it computes. The library's operations are built from these exactly
    as the headers call them. */
module StdAlgorithms {
  import opened Sequences

  /** vector::erase(begin + lo, begin + hi): removes positions lo .. hi-1 and
      closes the gap. */
  function Erase<T>(s: seq<T>, lo: nat, hi: nat): (r: seq<T>)
    requires lo <= hi <= |s|
    ensures |r| == |s| - (hi - lo)
    ensures forall i :: 0 <= i < lo ==> r[i] == s[i]
    ensures forall i :: lo <= i < |r| ==> r[i] == s[i + (hi - lo)]
  {
    s[..lo] + s[hi..]
  }

  /** std::distance(begin, end): the number of iterator steps from the first
      element to the end. */
  function Distance<T>(s: seq<T>): (n: nat)
    ensures n == |s|
  {
    if |s| == 0 then 0 else 1 + Distance(s[1..])
  }

  /** std::find: the position of the first element equal to v, or |s| (the
      end iterator) when there is none. */
  function Find<T(==)>(s: seq<T>, v: T): (i: nat)
    ensures i <= |s|
    ensures i < |s| ==> s[i] == v
    ensures forall j :: 0 <= j < i ==> s[j] != v
    ensures i < |s| <==> v in s
  {
    if |s| == 0 then 0
    else if s[0] == v then 0
    else 1 + Find(s[1..], v)
  }

  /** std::count: how many elements equal v. */
  function CountEqual<T(==)>(s: seq<T>, v: T): (n: nat)
    ensures n == multiset(s)[v]
  {
    if |s| == 0 then 0
    else
      assert s == [s[0]] + s[1..];
      (if s[0] == v then 1 else 0) + CountEqual(s[1..], v)
  }

  /** std::all_of. */
  function AllOf<T>(p: T -> bool, s: seq<T>): (b: bool)
    ensures b <==> forall i :: 0 <= i < |s| ==> p(s[i])
  {
    if |s| == 0 then true
    else p(s[0]) && AllOf(p, s[1..])
  }

  /** std::any_of. */
  function AnyOf<T>(p: T -> bool, s: seq<T>): (b: bool)
    ensures b <==> exists i :: 0 <= i < |s| && p(s[i])
  {
    if |s| == 0 then false
    else p(s[0]) || AnyOf(p, s[1..])
  }

  /** std::equal(begin1, end1, begin2): every element of a equals the
      element of b at the same position. */
  function Equal<T(==)>(a: seq<T>, b: seq<T>): (e: bool)
    requires |a| <= |b|
    ensures e <==> a == b[..|a|]
  {
    if |a| == 0 then true
    else
      assert b[..|a|] == [b[0]] + b[1..][..|a| - 1];
      a[0] == b[0] && Equal(a[1..], b[1..])
  }

  /** std::accumulate(begin, end, init, op): a left fold. The last element
      is combined last, onto the fold of everything before it. */
  function Accumulate<A, T>(s: seq<T>, init: A, op: (A, T) -> A): (r: A)
    ensures |s| == 0 ==> r == init
    ensures |s| > 0 ==> r == op(Accumulate(s[..|s| - 1], init, op), s[|s| - 1])
    decreases |s|
  {
    if |s| == 0 then init
    else
      var r := Accumulate(s[1..], op(init, s[0]), op);
      assert |s| > 1 ==> s[1..][..|s| - 2] == s[..|s| - 1][1..];
      r
  }

  /** std::remove_if followed by erase of the tail: the elements that fail
      pred stay, in their original order. */
  function RemoveIf<T>(s: seq<T>, pred: T -> bool): (r: seq<T>)
    ensures r == Select(s, Holds(x => !pred(x), s))
  {
    if |s| == 0 then []
    else
      assert Holds(x => !pred(x), s)[1..] == Holds(x => !pred(x), s[1..]);
      (if pred(s[0]) then [] else [s[0]]) + RemoveIf(s[1..], pred)
  }

  /** The loop of std::max_element from position i on, with best the
      position of the largest element seen so far (the first one, on ties). */
  function MaxElementFrom(s: seq<int>, best: nat, i: nat): (k: nat)
    requires best < i <= |s|
    requires forall j :: 0 <= j < i ==> s[j] <= s[best]
    requires forall j :: 0 <= j < best ==> s[j] < s[best]
    ensures k < |s|
    ensures forall j :: 0 <= j < |s| ==> s[j] <= s[k]
    ensures forall j :: 0 <= j < k ==> s[j] < s[k]
    decreases |s| - i
  {
    if i == |s| then best
    else MaxElementFrom(s, if s[best] < s[i] then i else best, i + 1)
  }

  /** std::max_element on a non-empty sequence: the position of the first
      largest element. */
  function MaxElement(s: seq<int>): (k: nat)
    requires |s| > 0
    ensures k < |s|
    ensures forall j :: 0 <= j < |s| ==> s[j] <= s[k]
    ensures forall j :: 0 <= j < k ==> s[j] < s[k]
  {
    MaxElementFrom(s, 0, 1)
  }

  /** The loop of std::min_element from position i on. */
  function MinElementFrom(s: seq<int>, best: nat, i: nat): (k: nat)
    requires best < i <= |s|
    requires forall j :: 0 <= j < i ==> s[best] <= s[j]
    requires forall j :: 0 <= j < best ==> s[best] < s[j]
    ensures k < |s|
    ensures forall j :: 0 <= j < |s| ==> s[k] <= s[j]
    ensures forall j :: 0 <= j < k ==> s[k] < s[j]
    decreases |s| - i
  {
    if i == |s| then best
    else MinElementFrom(s, if s[i] < s[best] then i else best, i + 1)
  }

  /** std::min_element on a non-empty sequence: the position of the first
      smallest element. */
  function MinElement(s: seq<int>): (k: nat)
    requires |s| > 0
    ensures k < |s|
    ensures forall j :: 0 <= j < |s| ==> s[k] <= s[j]
    ensures forall j :: 0 <= j < k ==> s[k] < s[j]
  {
    MinElementFrom(s, 0, 1)
  }

  /** std::reverse. */
  function Reverse<T>(s: seq<T>): (r: seq<T>)
    ensures |r| == |s|
    ensures forall i :: 0 <= i < |s| ==> r[i] == s[|s| - 1 - i]
  {
    if |s| == 0 then [] else Reverse(s[1..]) + [s[0]]
  }

  /** Inserts x into r after every element that x is not less than. */
  function Insert<T>(x: T, r: seq<T>, less: (T, T) -> bool): (t: seq<T>)
    ensures multiset(t) == multiset(r) + multiset{x}
  {
    if |r| == 0 then [x]
    else if less(x, r[0]) then [x] + r
    else
      assert r == [r[0]] + r[1..];
      [r[0]] + Insert(x, r[1..], less)
  }

  /** std::sort(begin, end, less), as an insertion sort. std::sort is not
      stable, so only the multiset and the order of the result are
      promised; the order needs less to be a strict partial order. */
  function Sort<T>(s: seq<T>, less: (T, T) -> bool): (r: seq<T>)
    ensures multiset(r) == multiset(s)
  {
    if |s| == 0 then []
    else
      assert s == [s[0]] + s[1..];
      Insert(s[0], Sort(s[1..], less), less)
  }

  lemma {:induction false} InsertSorted<T(!new)>(x: T, r: seq<T>, less: (T, T) -> bool)
    requires StrictOrder(less)
    requires SortedBy(less, r)
    ensures SortedBy(less, Insert(x, r, less))
    decreases |r|
  {
    if |r| == 0 {
    } else if less(x, r[0]) {
      var t := [x] + r;
      forall i, j | 0 <= i < j < |t|
        ensures !less(t[j], t[i])
      {
        if i == 0 && j > 1 {
          assert !less(r[j - 1], r[0]);
        }
      }
    } else {
      InsertSorted(x, r[1..], less);
      var u := Insert(x, r[1..], less);
      var t := [r[0]] + u;
      forall i, j | 0 <= i < j < |t|
        ensures !less(t[j], t[i])
      {
        if i == 0 {
          assert t[j] in multiset(u);
          assert t[j] in multiset(r[1..]) + multiset{x};
          if t[j] != x {
            assert t[j] in r[1..];
            var k :| 0 <= k < |r[1..]| && r[1..][k] == t[j];
            assert r[k + 1] == t[j];
          }
        }
      }
    }
  }

  /** With a strict partial order, the sort's result is ordered by it. */
  lemma {:induction false} SortSorted<T(!new)>(s: seq<T>, less: (T, T) -> bool)
    requires StrictOrder(less)
    ensures SortedBy(less, Sort(s, less))
    decreases |s|
  {
    if |s| > 0 {
      SortSorted(s[1..], less);
      InsertSorted(s[0], Sort(s[1..], less), less);
    }
  }
}

=== FILE: wrappers.dfy ===
/** Failure-carrying result types shared by every module of the model. */
module Wrappers {

  datatype Option<+T> = None | Some(value: T)

  /** The two ways an operation or a pipeline can fail.
      EmptySequence is the std::range_error that max and min throw on an
      empty input; TypeMismatch is a stage that cannot accept the value it is
      given, which the C++ templates reject at compile time. */
  datatype Error = EmptySequence | TypeMismatch

  datatype Result<+T> = Ok(value: T) | Err(error: Error)
}
